=== FILE: README.md ===
# bits-io in Dafny

This project models the core of `bits-io`, a Rust library for reading and writing data at
bit granularity. Everything is MSB-first: storage bit `j` is bit `7 - j % 8` of byte `j / 8`,
so index 0 within a byte is its most significant bit. The model covers the layers below.

- **Bit and byte codecs.**
  - The `ByteOrder` encoders of values of up to 32 bits into bit spans (`byte_order.dfy`).
  - The whole-byte and bit-span `load`/`store` of the buffer layer (`buf_byte_order.dfy`).
  - `get_bit`, `set_bit`, `bytes_needed` and range conversion (`bit_util.dfy`).
- **Bit views.**
  - `Bits` is an immutable `(storage, bit_start, bit_len)` view (`bits.dfy`).
  - `BitsMut` adds a capacity (`bits_mut.dfy`).
  - Slicing, splitting, truncating and advancing are stated as laws about the bits in view.
- **The traversal traits.**
  - `BitBuf` is the reading side (`bit_buf.dfy`). `BitBufMut` is the writing side (`bit_buf_mut.dfy`).
  - Each trait becomes a sum datatype. Its cases are the implementors (`Bits`, `BitsMut`, `&BitSlice`, `BitCursor<T>`, and on the write side `&mut [u8]` and `&mut BitSlice`) and the adaptors (`Chain`, `Take`/`BitTake`, `Limit`).
  - A reader is specified by its `Stream`: the bits it will hand out, in order.
  - A writer is specified by its `Log`: what has been written through it. Its `Region` is the memory `chunk_mut_bits` hands out.
  - `Chain` is concatenation; `Take` and `Limit` are prefixes.
  - The generic copy and put loops (`copy_to_slice`, `try_put_bit_slice`, `try_put_slice_bytes`) are proved against these views.
  - `impl BitBuf for &[u8]`, whose `advance` counts bytes, has its own module (`byte_slice_buf.dfy`).
- **Numeric get/put extensions.**
  - `get_uN`, `get_bool`, `get_u1`..`get_u32` (`buf_exts.dfy`).
  - `put_fixed`, `put_uN`, `put_bool`, `put_u1`..`put_u32` (`buf_mut_exts.dfy`).
- **The io layer.**
  - The `read_bits_exact` and `write_all_bits` loops over any reader or writer, passed in as a function (`bit_io.dfy`).
  - The `read_bits`/`write_bits` implementations for bit slices, and the `read_uN`/`write_uN` extension traits (`bit_io.dfy`).
  - The position-based `BitCursor<T>` with `Seek`, `read_bits` and byte-level `Read`/`Write` (`bit_cursor.dfy`).
- **The legacy layer.**
  - The custom `BitSlice`/`BitSliceMut` over `&[u8]`, with index rebasing and `SliceOutOfRange` (`legacy_bit_slice.dfy`).
  - The byte-and-bit-position `BitCursor` state machine (`legacy_bit_cursor.dfy`).

`usize` is `nat`, with `usize::MAX` explicit where the code saturates or subtracts from it. A
panic becomes a precondition. An `io::Error` becomes an `Err` of the `Result` in `errors.dfy`.
Methods taking `&mut self` become functions returning the updated value.

Where the code disagrees with its documentation comments or its own tests, the model follows
the code. Each such place is modelled as written and next to its corrected form; see
"## Findings". The operations that call the as-written forms (for example the `BitBuf`
`chunk_bytes` of a view) use the corrected form in the rest of the model.

## Model

| member | source | states |
|---|---|---|
| BitUtil.SetBit | src/util.rs:23-42 | `set_bit(b, i, v)` leaves a byte whose bit `i` reads back as `v` and whose seven other bits read back as they were |
| BitUtil.SetBitSameIsIdentity | src/util.rs:6-42 | setting a bit to the value it already has leaves the byte unchanged |
| BitUtil.ByteRoundTrip | src/util.rs:6-20 | the MSB-first view of a byte and the packing of eight bits into a byte are inverse to each other |
| BitUtil.BytesRoundTrip | src/util.rs:6-20 | the same holds for whole byte sequences and bit sequences of a whole number of bytes |
| BitUtil.BytesToBitsChunk | src/util.rs:6-20 | bits `8k .. 8k+8` of a byte sequence's view are the MSB-first bits of byte `k` |
| BitUtil.BytesNeeded | src/buf/util.rs:2-4 | `bytes_needed(n)` is the least number of bytes that holds `n` bits: `8r >= n`, `8(r-1) < n` for `n > 0`, and 0 for 0 |
| BitUtil.BytesNeededWhole | src/buf/util.rs:2-4 | `bytes_needed(8k) == k` |
| BitUtil.BytesNeededMonotone | src/buf/util.rs:2-4 | `bytes_needed` is monotone |
| BitUtil.StartEndFromRange | src/util.rs:47-64 | the half-open pair returned contains exactly the indices the range contains; an unbounded end stops at `max(len, 1)` |
| BitUtil.ValueOfBound | src/byte_order.rs:26-32 | the MSB-first fold `acc = 2 * acc + bit` over `n` bits is below `2^n` |
| BitUtil.ValueOfToBits | src/byte_order.rs:15-32 | folding the `n`-bit MSB-first encoding of `v` gives `v mod 2^n` |
| BitUtil.ToBitsValueOf | src/byte_order.rs:15-32 | encoding the folded value of `bits` in `|bits|` bits gives `bits` back |
| BitUtil.ValueOfInjective | src/byte_order.rs:26-32 | two spans of one length fold to the same value exactly when they are equal |
| ByteOrder.LittleEndianIsReversed | src/byte_order.rs:15-45 | big-endian `write_u32_to_bits` puts bit `n-1-i` of the value at index `i` (the MSB-first encoding); little-endian puts bit `i` at index `i`, the same bits reversed |
| ByteOrder.ReadU32FromBits | src/byte_order.rs:26-54 | `read_u32_from_bits` of a span of at most 32 bits is below `2^n`, so it fits a `u32` |
| ByteOrder.RoundTripValue | src/byte_order.rs:15-54 | in either order, reading back what was written gives the value modulo `2^n` |
| ByteOrder.RoundTripBits | src/byte_order.rs:15-54 | in either order, writing back what was read reproduces the span |
| ByteOrder.RoundTripFits | src/byte_order.rs:63-96 | a value below `2^n` reads back exactly (the tests' widths 1, 2, 8, 16 and 32 are instances) |
| BufByteOrder.Load | src/buf/byte_order.rs:28-30 | `O::load` of a span of 1 to 32 bits is below `2^n` |
| BufByteOrder.LoadStore | src/buf/byte_order.rs:28-100 | in either order, `load` of what `store` put into `n` bits is the value modulo `2^n` |
| BufByteOrder.StoreLoad | src/buf/byte_order.rs:28-100 | in either order, `store` of the loaded value reproduces the span |
| BufByteOrder.LoadLeBound | src/buf/byte_order.rs:76-78 | the little-endian load (8-bit groups from the start, first group least significant, each group MSB-first) is below `2^n` |
| BufByteOrder.LoadStoreLe | src/buf/byte_order.rs:76-100 | the little-endian load reads back the little-endian store modulo `2^n` |
| BufByteOrder.StoreLoadLe | src/buf/byte_order.rs:76-100 | the little-endian store of the little-endian load reproduces the span |
| BufByteOrder.LoadLeAtZero | src/buf/byte_order.rs:76-78 | loading in place from a storage byte boundary is the little-endian load of the span |
| BufByteOrder.LoadLeAtBound | src/buf/byte_order.rs:76-78 | the in-place little-endian load (the partial first storage byte least significant, then whole bytes, then the tail) is below `2^n` whatever the offset |
| BufByteOrder.LoadAt | src/buf/byte_order.rs:28-30 | `O::load` of a span in place is below `2^n`; the big-endian load is the same at any offset, and either order's load at a byte boundary is `load` of the span (the little-endian `load` is at src/buf/byte_order.rs:76-78) |
| BufByteOrder.LoadLeBytes | src/buf/byte_order.rs:76-96 | on whole bytes, the little-endian load is the big-endian value of the bytes reversed |
| BufByteOrder.ValueOfBytes | src/buf/byte_order.rs:28-30 | the big-endian load of whole bytes is their base-256 value, first byte most significant |
| BufByteOrder.StoreU16 | src/buf/byte_order.rs:55-58 | `store_u16` changes only the first two bytes, which `load_u16` reads back as the value |
| BufByteOrder.StoreU24 | src/buf/byte_order.rs:60-65 | `store_u24` of a value below `2^24` changes only the first three bytes, which `load_u24` reads back as the value |
| BufByteOrder.StoreU32 | src/buf/byte_order.rs:67-72 | `store_u32` changes only the first four bytes, which `load_u32` reads back as the value |
| BufByteOrder.StoreLoadU16 | src/buf/byte_order.rs:32-58 | storing the `load_u16` of two bytes gives them back |
| BufByteOrder.StoreLoadU24 | src/buf/byte_order.rs:36-65 | storing the `load_u24` of three bytes gives them back |
| BufByteOrder.StoreLoadU32 | src/buf/byte_order.rs:47-72 | storing the `load_u32` of four bytes gives them back |
| BufByteOrder.LoadU16Injective | src/buf/byte_order.rs:32-34 | `load_u16` tells any two byte pairs apart |
| BufByteOrder.LoadU24Injective | src/buf/byte_order.rs:36-45 | `load_u24` tells any two byte triples apart |
| BufByteOrder.LoadU32Injective | src/buf/byte_order.rs:47-49 | `load_u32` tells any two byte quadruples apart |
| BufByteOrder.LittleEndianBytesReversed | src/buf/byte_order.rs:102-119 | the little-endian bytes of a store are the big-endian bytes reversed |
| BufByteOrder.ByteLoadsAgreeWithBitLoads | src/buf/byte_order.rs:32-49 | `load_u16`/`load_u24`/`load_u32` equal the bit-level `load` of the bytes' bits, in either order |
| Bits.FromBytes | src/buf/bits.rs:27-34 | `from_bytes` views every bit of the bytes from `bit_start` 0; bit `j` of the view is `get_bit(bytes[j / 8], j % 8)` |
| Bits.FromBytesRoundTrip | src/buf/bits.rs:27-34 | packing the view of `from_bytes` gives the bytes back |
| Bits.CopyFromBitSlice | src/buf/bits.rs:60-73 | `copy_from_bit_slice` views exactly the source bits from `bit_start` 0, over `bytes_needed(len)` fresh bytes whose padding bits are zero; it also models src/buf/bits.rs:239-256, where `From<BitVec>` and `From<&BitSlice>` give the same left-aligned view |
| Bits.SliceBitsAsWritten | src/buf/bits.rs:90-100 | as written: same storage, and the result is the requested bits of the view when the range ends inside the view |
| Bits.SliceBitsAsWrittenEscapesView | src/buf/bits.rs:90-100 | the bound check admits a range that ends past the view, giving a longer view or one that reaches past the storage |
| Bits.SliceBits | src/buf/bits.rs:90-100 | checked against the view's length, `slice_bits(start..end)` views bits `start..end` of the parent view, over the same storage |
| Bits.SliceBytes | src/buf/bits.rs:105-113 | `slice_bytes(start..end)` views the whole bytes `start..end` of the view, with the corrected bound `8 * end <= bit_len` of `Bits.SliceBits` (see Findings) |
| Bits.IncStartBits | src/buf/bits.rs:214-217 | `inc_start_bits(n)` leaves the view without its first `n` bits |
| Bits.SplitToBits | src/buf/bits.rs:119-130 | `split_to_bits(at)` returns the first `at` bits and keeps the rest; returned followed by kept is the original view |
| Bits.SplitToBytes | src/buf/bits.rs:137-140 | `split_to_bytes(at)` is `split_to_bits(8 * at)` |
| Bits.SplitOffBits | src/buf/bits.rs:145-160 | `split_off_bits(at)` keeps the first `at` bits and returns the rest; kept followed by returned is the original view |
| Bits.SplitOffBytes | src/buf/bits.rs:163-165 | `split_off_bytes(at)` is `split_off_bits(8 * at)` |
| Bits.TruncateBits | src/buf/bits.rs:173-183 | `truncate_bits(len)` keeps the first `min(len, bit_len)` bits and never moves the start |
| Bits.TruncateBytes | src/buf/bits.rs:185-190 | `truncate_bytes(len)` keeps the first `min(8 * len, bit_len)` bits |
| Bits.Clear | src/buf/bits.rs:192-194 | `clear` leaves an empty view |
| Bits.TruncateIsSplitOff | src/buf/bits.rs:173-183 | truncating keeps what `split_off_bits` would keep |
| Bits.LenBytes | src/buf/bits.rs:204-206 | `len_bytes` is the number of complete bytes in view |
| Bits.EqAsWrittenIgnoresLength | src/buf/bits.rs:220-229 | `PartialEq` as written calls a view equal to its own one-byte truncation, and two equal one-byte views unequal |
| Bits.Eq | src/buf/bits.rs:220-229 | with the aligned fast path comparing only the bytes in view, two views are equal exactly when they hold the same bits |
| Bits.Advance | src/buf/bit_buf_impls.rs:6-9 | `advance(count)` drops `count` bits from the front of the view; whole bytes dropped from an aligned view leave it aligned |
| Bits.ChunkBytesAsWritten | src/buf/bit_buf_impls.rs:19-26 | as written, `chunk_bytes` runs from the view's first byte to the end of the storage; its leading bits are the view |
| Bits.ChunkBytesAsWrittenExceedsRemaining | src/buf/bit_buf.rs:32-34 | on a truncated view it hands out more bytes than `remaining_bytes`, against the trait's promise |
| Bits.ChunkBytes | src/buf/bit_buf_impls.rs:19-26 | cut at the view's end, `chunk_bytes` is exactly the bytes in view |
| Bits.TryCopyToSliceBytesAsWritten | src/buf/bit_buf_impls.rs:28-55 | as written: `InvalidData` unless aligned, `UnexpectedEof` when too few bytes remain, otherwise the bytes in front, but the view then drops only `count` bits |
| Bits.TryCopyToSliceBytesAsWrittenUnderAdvances | src/buf/bit_buf_impls.rs:28-55 | copying both bytes out of a two-byte view leaves 14 bits behind |
| BitsMut.New | src/buf/bits_mut.rs:23-25 | `new()` is an empty view with no capacity |
| BitsMut.WithCapacity | src/buf/bits_mut.rs:43-51 | `with_capacity(c)` is an empty view from `bit_start` 0 with capacity `c` over `bytes_needed(c)` bytes |
| BitsMut.WithCapacityBytes | src/buf/bits_mut.rs:58-60 | `with_capacity_bytes(c)` has capacity `8c` |
| BitsMut.Zeroed | src/buf/bits_mut.rs:66-74 | `zeroed(len)` views `len` zero bits with capacity `len` over `bytes_needed(len)` bytes |
| BitsMut.ZeroedBytes | src/buf/bits_mut.rs:80-82 | `zeroed_bytes(len)` views `8 * len` zero bits |
| BitsMut.FromBitVec | src/buf/bits_mut.rs:189-207 | `From<BitVec>` is a left-aligned copy of the bits whose capacity is every bit of its `bytes_needed(len)` bytes |
| BitsMut.AdvanceUnchecked | src/buf/bits_mut.rs:172-180 | `advance_unchecked(count)` moves the start by `count`, drops up to `count` bits from the view (saturating), shrinks the capacity by `count`, and changes nothing for 0 |
| BitsMut.SplitTo | src/buf/bits_mut.rs:88-101 | `split_to(at)` returns the first `at` bits with capacity `at`; self keeps the rest with capacity reduced by `at`, starting where the returned capacity ends |
| BitsMut.SplitToBytes | src/buf/bits_mut.rs:108-110 | `split_to_bytes(at)` is `split_to(8 * at)` |
| BitsMut.Split | src/buf/bits_mut.rs:116-118 | `split()` returns the whole view; self keeps an empty view and the spare capacity |
| BitsMut.SplitOff | src/buf/bits_mut.rs:124-139 | `split_off(at)`, bounded by the capacity, keeps capacity `at` and the part of the view inside it and returns the rest; the two views concatenate to the original |
| BitsMut.SplitOffBytes | src/buf/bits_mut.rs:146-148 | `split_off_bytes(at)` is `split_off(8 * at)` |
| BitsMut.LenBytes | src/buf/bits_mut.rs:158-160 | `len_bytes` is the number of complete bytes in view |
| BitsMut.Advance | src/buf/bit_buf_impls.rs:63-68 | `advance(count)` drops `count` bits and the same amount of capacity, keeping the spare capacity |
| BitsMut.ChunkBytesAsWritten | src/buf/bit_buf_impls.rs:78-84 | `chunk_bytes` as written is the `BytesMut`'s bytes from the view's first byte to the `BytesMut`'s length; the bytes in view come first when the view lies within that length |
| BitsMut.SplitOffKeepsWholeBuffer | src/buf/bits_mut.rs:124-139 | `zeroed_bytes(2).split_off(8)` leaves a handle over the whole two-byte `BytesMut` (inner length 2) with one byte in view and capacity 8 |
| BitsMut.ChunkBytesAsWrittenExceedsView | src/buf/bit_buf_impls.rs:78-84 | a handle shaped as `split_off(8)` leaves it, over a two-byte `BytesMut` with one byte in view, gets two bytes from the as-written `chunk_bytes` against one from the corrected one |
| BitsMut.ChunkBytes | src/buf/bit_buf_impls.rs:78-84 | the corrected `chunk_bytes` of an aligned view is exactly the bytes in view, no more than `remaining_bytes` (see Findings) |
| BitsMut.RemainingMut | src/buf/bit_buf_mut_impls.rs:8-10 | `remaining_mut_bits` and the view length add up to `usize::MAX` |
| BitsMut.AdvanceMutAsWritten | src/buf/bit_buf_mut_impls.rs:27-39 | `advance_mut_bits(cnt)` as written, checked only against `usize::MAX - bit_len` and the bytes the `BytesMut` holds, keeps the capacity and lengthens the view by `cnt`; the result keeps `bit_len <= capacity` exactly when `cnt` fits the spare capacity, and then agrees with `BitsMut.AdvanceMut` |
| BitsMut.AdvanceMutAsWrittenPassesCapacity | src/buf/bits_mut.rs:43-51 | `with_capacity(4)` holds a byte, so `advance_mut_bits(8)` is accepted and leaves eight bits in view with a capacity of four |
| BitsMut.AdvanceMut | src/buf/bit_buf_mut_impls.rs:27-39 | `advance_mut_bits(cnt)` with the corrected bound `cnt <= capacity - bit_len` (see Findings) moves the first `cnt` spare bits into the view, and the `BytesMut` grows by `bytes_needed(new) - bytes_needed(old)` |
| BitsMut.AdvanceMutKeepsInnerLen | src/buf/bit_buf_mut_impls.rs:27-39 | on an aligned start this keeps the `BytesMut` length equal to `bytes_needed` of the bits in use |
| BitBuf.HandleRemaining | src/buf/bit_buf_impls.rs:179-181 | each implementor's `remaining` is the number of bits it will hand out |
| BitBuf.HandleAligned | src/buf/bit_buf_impls.rs:225-234 | an aligned implementor holds a whole number of bytes |
| BitBuf.HandleAdvance | src/buf/bit_buf_impls.rs:172-177 | each implementor's `advance(count)` drops exactly `count` bits from what it hands out |
| BitBuf.HandleChunkBytes | src/buf/bit_buf_impls.rs:187-194 | an aligned implementor's `chunk_bytes` is what remains, as bytes |
| BitBuf.Remaining | src/buf/chain.rs:62-66 | `remaining` is the length of the stream saturated at `usize::MAX`: a chain's parts add with saturation; it also models src/buf/take.rs:44-46, where a take's `remaining` is `min(inner, limit)` |
| BitBuf.RemainingBytes | src/buf/bit_buf.rs:24-26 | `remaining_bytes` is the number of whole bytes among the remaining bits |
| BitBuf.Advance | src/buf/bit_buf.rs:4-8 | `advance(count)` consumes exactly the first `count` bits of the stream, and whole bytes keep an aligned buffer aligned |
| BitBuf.AdvanceChain | src/buf/chain.rs:45-60 | a chain's advance drains its first part and then advances the second by what is left: the chain's stream loses its first `count` bits |
| BitBuf.AdvanceTake | src/buf/take.rs:38-42 | a take's advance forwards to its inner buffer and lowers the limit: the take's stream loses its first `count` bits; it also models src/buf/bit_take.rs:40-44, where `BitTake::advance` behaves as `Take`'s |
| BitBuf.AdvanceBytes | src/buf/bit_buf.rs:14-16 | `advance_bytes(n)` consumes the first `8n` bits |
| BitBuf.Chunk | src/buf/bit_buf.rs:28-30 | `chunk` is a prefix of the stream, non-empty whenever bits remain (a chain's comes from its first part while that has bits; a take's is cut at the limit) |
| BitBuf.HandleHead | src/buf/bit_buf_impls.rs:15-17 | the offset into its first storage byte at which a handle's chunk starts: below eight, and zero for an aligned handle |
| BitBuf.ChunkHead | src/buf/chain.rs:68-74 | the storage offset of a buffer's chunk, taken from the chain part (or a take's inner buffer) that hands out the chunk; zero for an aligned buffer |
| BitBuf.ByteAligned | src/buf/bit_buf.rs:75-77 | an aligned buffer's stream is a whole number of bytes |
| BitBuf.ChunkBytes | src/buf/bit_buf.rs:32-34 | `chunk_bytes` is the leading whole bytes of the stream, non-empty while a whole byte remains |
| BitBuf.ChunkBytesChain | src/buf/chain.rs:76-82 | a chain's `chunk_bytes` comes from its first part while that has a whole byte, otherwise from the second, and is a prefix of the chain's stream |
| BitBuf.ChunkBytesTake | src/buf/take.rs:54-60 | a take's `chunk_bytes` is the inner chunk cut at `limit / 8` bytes, a prefix of the take's stream; it also models src/buf/bit_take.rs:55-60, where `BitTake::chunk_bytes` behaves as `Take`'s |
| BitBuf.CopyToSlice | src/buf/bit_buf.rs:41-59 | `copy_to_slice` fills `dest` with the next `n` bits of the stream and consumes exactly them, whatever the chunk sizes; too few remaining bits is a panic |
| BitBuf.TryCopyToSliceBytes | src/buf/bit_buf_impls.rs:28-55 | `try_copy_to_slice_bytes`: `InvalidData` exactly when unaligned, then `UnexpectedEof` exactly when too few bytes remain; otherwise the next `count` bytes are copied and consumed and the buffer stays aligned |
| BitBuf.CopyToSliceBytes | src/buf/bit_buf.rs:66-68 | `copy_to_slice_bytes` is the unwrapped `try_copy_to_slice_bytes`: on an aligned buffer with enough bytes it copies and consumes the next `count` bytes |
| BitBuf.TryCopyToBitSlice | src/buf/bit_buf_exts.rs:22-31 | the model's reading of `try_copy_to_bit_slice`, which these lines call but no file defines: like `try_put_bit_slice`, it fails with `UnexpectedEof` exactly when fewer than `n` bits remain, and otherwise copies and consumes the next `n` bits |
| BitBuf.SetLimit | src/buf/take.rs:32-34 | `set_limit` leaves the inner buffer alone; the take then hands out the inner stream cut at the new limit |
| BitBuf.ChainCopiesInOrder | src/buf/chain.rs:144-155 | chaining `1111_0000` and `1010_1010` and copying two bytes gives `[0xF0, 0xAA]` |
| ByteSliceBuf.Remaining | src/buf/bit_buf_impls.rs:128-130 | a byte slice's `remaining` is eight bits per byte |
| ByteSliceBuf.ChunkBytes | src/buf/bit_buf_impls.rs:136-138 | its `chunk_bytes` is the slice itself, whose bits are the whole chunk |
| ByteSliceBuf.AdvanceAsWritten | src/buf/bit_buf_impls.rs:121-126 | as written, `advance(count)` drops `count` bytes, that is `8 * count` bits of the chunk |
| ByteSliceBuf.AdvanceBytesAsWritten | src/buf/bit_buf.rs:14-16 | `advance_bytes(n)` on a byte slice drops `8n` bytes |
| ByteSliceBuf.AdvanceAsWrittenSkipsBits | src/buf/bit_buf_impls.rs:121-126 | advancing one bit over `[0x80, 0x40]` removes eight bits, so what remains is not the chunk without its first bit |
| ByteSliceBuf.TryCopyToSliceBytes | src/buf/bit_buf_impls.rs:140-161 | the byte slice's own `try_copy_to_slice_bytes`: `UnexpectedEof` exactly when fewer than `count` bytes remain; otherwise the first `count` bytes are copied and dropped |
| ByteSliceBuf.AsBuf | src/buf/bit_buf_impls.rs:120-166 | the corrected byte slice is its bit view: an aligned buffer whose stream is the bytes' bits |
| ByteSliceBuf.AdvanceBytesDropsBytes | src/buf/bit_buf.rs:14-16 | on the corrected buffer `advance_bytes(k)` leaves exactly the bits of the bytes after the first `k` |
| BitBufMut.HandleRemaining | src/buf/bit_buf_mut_impls.rs:66-68 | each implementor's `remaining_mut_bits` fits a `usize`; a byte slice's is a whole number of bytes |
| BitBufMut.HandleAligned | src/buf/bit_buf_mut_impls.rs:97-106 | an aligned byte or bit slice has room for a whole number of bytes |
| BitBufMut.HandleRegion | src/buf/bit_buf_mut_impls.rs:81-83 | the memory `chunk_mut_bits` hands out is never more than the room, and is all of it for the slices |
| BitBufMut.HandlePrepare | src/buf/bit_buf_mut_impls.rs:12-17 | the growth `chunk_mut_bits` makes first changes nothing a writer observes and makes the chunk non-empty whenever there is room |
| BitBufMut.HandlePrepareBytes | src/buf/bit_buf_mut_impls.rs:19-25 | the growth before `chunk_mut_bytes` changes nothing a writer observes and gives at least a byte of chunk whenever a byte of room remains; a `BitsMut` reserves below eight spare bits (listed under Left out) |
| BitBufMut.HandleAdvance | src/buf/bit_buf_mut_impls.rs:27-39 | an implementor's `advance_mut_bits(count)` appends the memory it moves over to the log and lowers the room by as much; a `BitsMut` is held to the corrected capacity bound of `BitsMut.AdvanceMut` |
| BitBufMut.AdvanceBitsMut | src/buf/bit_buf_mut_impls.rs:27-39 | for a `BitsMut`, within the corrected capacity bound, the log gains exactly the first `count` spare bits and the room becomes `usize::MAX - bit_len - count` |
| BitBufMut.AdvanceByteSlice | src/buf/bit_buf_mut_impls.rs:47-56 | for `&mut [u8]` the log gains `bytes_needed(count)` whole bytes: a partial byte is rounded up |
| BitBufMut.AdvanceSlice | src/buf/bit_buf_mut_impls.rs:76-79 | for `&mut BitSlice` the log gains exactly `count` bits and the room drops by `count` |
| BitBufMut.HandleRegionBytes | src/buf/bit_buf_mut_impls.rs:62-64 | an aligned slice's `chunk_mut_bytes` is the whole bytes of its chunk; for a `BitsMut` the model hands out the whole bytes of the spare capacity (listed under Left out) |
| BitBufMut.RemainingMut | src/buf/chain.rs:127-131 | a chain's `remaining_mut_bits` is the saturating sum of its parts'; it never exceeds `usize::MAX`; it also models src/buf/limit.rs:55-57, where a limit's `remaining_mut_bits` is `min(inner, limit)` |
| BitBufMut.RemainingMutBytes | src/buf/bit_buf_mut.rs:61-63 | `remaining_mut_bytes` is the number of whole bytes of room |
| BitBufMut.Region | src/buf/chain.rs:111-117 | the chunk a writer hands out is never more than its room: a chain's comes from its first part while that has room |
| BitBufMut.Prepare | src/buf/bit_buf_mut.rs:20-27 | preparing the chunk changes nothing a writer observes and leaves a non-empty chunk whenever there is room |
| BitBufMut.PrepareChain | src/buf/chain.rs:111-117 | so for a chain, whose chunk comes from the part that has room |
| BitBufMut.PrepareLimit | src/buf/limit.rs:41-45 | so for a limit, whose chunk is the inner chunk cut at the limit |
| BitBufMut.PrepareBytes | src/buf/bit_buf_mut.rs:29-38 | preparing the byte chunk changes nothing a writer observes and leaves at least a byte of chunk when an aligned writer has a byte of room |
| BitBufMut.PrepareBytesChain | src/buf/chain.rs:119-125 | so for a chain |
| BitBufMut.PrepareBytesLimit | src/buf/limit.rs:47-53 | so for a limit, whose byte chunk is cut at `limit / 8` bytes |
| BitBufMut.AdvanceMut | src/buf/bit_buf_mut.rs:6-10 | `advance_mut_bits(count)` lengthens the log by at least `count`, by exactly `count` without a `&mut [u8]` part, and lowers the room by at most `count`; `BitsMut` parts are held to the corrected capacity bound |
| BitBufMut.AdvanceMutChain | src/buf/chain.rs:94-109 | a chain's advance fills its first part and carries the rest over to the second, with the same guarantees |
| BitBufMut.AdvanceMutLimit | src/buf/limit.rs:35-39 | a limit's advance forwards to its inner writer and lowers the limit, with the same guarantees |
| BitBufMut.RegionCanAdvance | src/buf/bit_buf_mut.rs:6-10 | advancing over no more than the chunk handed out is always allowed |
| BitBufMut.AdvanceKeepsOrder | src/buf/chain.rs:94-109 | advancing within the chunk never rewrites the log, and a chain still writes its first part before its second |
| BitBufMut.AdvanceAppends | src/buf/chain.rs:94-109 | an exact advance within the chunk appends exactly the chunk's first `count` bits to the log |
| BitBufMut.AdvanceRoom | src/buf/chain.rs:94-109 | an exact advance, or one over the whole chunk, lowers the room by at most `count` |
| BitBufMut.AdvanceKeepsAligned | src/buf/chain.rs:94-109 | advancing an aligned writer by whole bytes within the chunk keeps it aligned |
| BitBufMut.RegionBytes | src/buf/chain.rs:119-125 | an aligned writer's `chunk_mut_bytes` is the whole bytes at the front of its bit chunk |
| BitBufMut.RegionBytesChain | src/buf/chain.rs:119-125 | so for a chain |
| BitBufMut.RegionBytesLimit | src/buf/limit.rs:47-53 | so for a limit |
| BitBufMut.ChunkMut | src/buf/bit_buf_mut.rs:20-27 | `chunk_mut_bits` is never longer than `remaining_mut_bits`, non-empty while room remains, and as long as the shape of the writer says: a chain's first part's chunk while it has room, then the second's, a limit's inner chunk cut at the limit |
| BitBufMut.ChunkMutBytes | src/buf/bit_buf_mut.rs:29-38 | `chunk_mut_bytes` on an aligned writer is the whole bytes at the front of the prepared chunk, non-empty while a byte of room remains; a `BitsMut` part hands out the model's byte chunk (listed under Left out) |
| BitBufMut.AdvanceMutBytes | src/buf/bit_buf_mut.rs:16-18 | `advance_mut_bytes(n)` is `advance_mut_bits(8n)`: the log grows by at least `8n` |
| BitBufMut.PutChunkKeepsLog | src/buf/bit_buf_mut.rs:87-95 | one round of the put loop keeps the earlier log and lengthens it by at least what was copied (exactly, without a `&mut [u8]` part) |
| BitBufMut.PutChunkAppends | src/buf/bit_buf_mut.rs:87-95 | an exact round appends exactly the bits copied |
| BitBufMut.PutChunkRoom | src/buf/bit_buf_mut.rs:87-95 | an exact round, or one filling the chunk, lowers the room by at most what was copied |
| BitBufMut.PutChunkKeepsAligned | src/buf/bit_buf_mut.rs:117-125 | a round of whole bytes keeps an aligned writer aligned |
| BitBufMut.PutAllKeepsLog | src/buf/bit_buf_mut.rs:87-97 | the put loop never rewrites the log and lengthens it by at least `|src|` |
| BitBufMut.PutAllExactLength | src/buf/bit_buf_mut.rs:87-97 | without a `&mut [u8]` part the loop advances by exactly `|src|` bits and uses at most `|src|` bits of room |
| BitBufMut.PutAllAppends | src/buf/bit_buf_mut.rs:87-97 | without a `&mut [u8]` part an ordered writer's log gains exactly `src`, in order, across chunks |
| BitBufMut.TryPutBitSlice | src/buf/bit_buf_mut.rs:76-98 | `try_put_bit_slice` fails with `UnexpectedEof`, writing nothing, exactly when the room is shorter than `src`; otherwise `src` is written in order and the log grows by it |
| BitBufMut.PutBitSlice | src/buf/bit_buf_mut.rs:68-70 | `put_bit_slice` is the unwrapped `try_put_bit_slice`: with room for `src`, an exact ordered writer's log gains exactly `src` |
| BitBufMut.PutBytes | src/buf/bit_buf_mut.rs:117-125 | one round of the byte loop keeps an aligned writer aligned and uses at most the bytes' bits of room |
| BitBufMut.PutBytesAppends | src/buf/bit_buf_mut.rs:117-125 | one round of the byte loop appends exactly the bytes' bits to an ordered writer's log |
| BitBufMut.PutAllBytes | src/buf/bit_buf_mut.rs:117-127 | the byte loop keeps an aligned writer aligned and uses at most `8 * |src|` bits of room |
| BitBufMut.PutAllBytesAppends | src/buf/bit_buf_mut.rs:117-127 | the byte loop appends exactly the bits of `src` to an ordered writer's log |
| BitBufMut.TryPutSliceBytes | src/buf/bit_buf_mut.rs:100-128 | `try_put_slice_bytes`: `InvalidData` exactly when unaligned, then `UnexpectedEof` exactly when fewer whole bytes of room remain than `src` holds, both before writing; otherwise the log gains exactly the bytes' bits |
| BitBufMut.WriterOfBitsMut | src/buf/bit_buf_mut_impls.rs:7-10 | a `BitsMut` writer starts with nothing written, room `usize::MAX - bit_len`, and is aligned exactly when its view is |
| BitBufMut.WriterOfBytes | src/buf/bit_buf_mut_impls.rs:58-72 | a `&mut [u8]` writer has room for eight bits per byte, is always aligned, and hands out the bytes' bits |
| BitBufMut.WriterOfBitSlice | src/buf/bit_buf_mut_impls.rs:75-106 | a `&mut BitSlice` writer has room for exactly its bits, hands them all out, and is aligned exactly when both ends are on byte boundaries |
| BitBufMut.NewLimit | src/buf/limit.rs:9-11 | `Limit::new` keeps the log, cuts the room to at most `limit`, and is aligned when the inner writer is and the limit is whole bytes |
| BitBufMut.SetLimit | src/buf/limit.rs:25-31 | `set_limit` keeps the inner writer and what was written; the room becomes `min(inner, limit)` |
| BitBufMut.LimitTenBytes | src/buf/limit.rs:68-76 | ten bytes limited to two bytes have two bytes of room, and limited to 16 bits have 16 bits |
| BitBufMut.ByteSlicePutWithinByte | src/buf/bit_buf_mut_impls.rs:47-56 | a put of at most a byte into `&mut [u8]` logs the whole first byte, the untouched bits included, and moves the chunk to the next byte |
| BitBufMut.ByteSliceRoundsUpPartialPuts | src/buf/bit_buf_mut_impls.rs:47-56 | two four-bit puts of `1111` into two zero bytes give `[0xF0, 0xF0]` |
| BitBufMut.BitViewPacksPartialPuts | src/buf/bit_buf_mut_impls.rs:75-79 | through the bytes' bit view, two puts land packed: the log is the first followed by the second |
| BufExts.GetUN | src/buf/bit_buf_exts.rs:8-32 | `get_uN`: `UnexpectedEof` exactly when fewer than `N` bits remain; otherwise the value is `O::load` of the next `N` bits, below `2^N`, and exactly those bits are consumed; this is the corrected `get_uN`, in which both paths read the bits as if they lay from a byte boundary (see Findings) |
| BufExts.GetUNAsWritten | src/buf/bit_buf_exts.rs:8-32 | `get_uN` as written: the same errors and consumption as the corrected version; when the chunk holds `N` bits the value is `O::load` in place at the chunk's storage offset, otherwise `O::load` of the copied bits |
| BufExts.GetUNAsWrittenAgrees | src/buf/bit_buf_exts.rs:16-31 | big-endian, from a byte boundary, or on the copying path, the as-written `get_uN` equals the corrected one |
| BufExts.GetUNAsWrittenPathsDisagree | src/buf/bit_buf_exts.rs:16-31 | one stream, two paths: `from_bytes([0x08, 0x01, 0x20])` advanced by four bits reads `get_u16::<LittleEndian>` as `0x2018` in place, while the same bits split over a chain read as `0x1280` |
| BufExts.GetUNReadsStore | src/buf/bit_buf_exts.rs:8-32 | `get_uN` reads back any value that `O::store` put in front of the stream |
| BufExts.GetUNReadsBigEndianPut | src/buf/bit_buf_exts.rs:8-32 | `get_uN::<BigEndian>` reads back what big-endian `write_u32_to_bits` put in front of the stream |
| BufExts.GetU1To7 | src/buf/bit_buf_exts.rs:38-64 | `get_u1`..`get_u7` decode big-endian: the value's `N`-bit MSB-first encoding is the next `N` bits |
| BufExts.GetBool | src/buf/bit_buf_exts.rs:34-36 | `get_bool` is the next bit, `UnexpectedEof` on an empty stream |
| BufExts.GetU8 | src/buf/bit_buf_exts.rs:66-82 | `get_u8`, with the corrected `chunk_bytes` and `advance_bytes` on its aligned path: the next eight bits as a byte, `UnexpectedEof` when fewer remain |
| BufExts.GetWide | src/buf/bit_buf_exts.rs:105-121 | with the corrected byte copy on the aligned path and the corrected `get_uN` on the other, the two paths of `get_u16`/`get_u24`/`get_u32` agree: the value is `O::load` of the next `8k` bits, which are consumed |
| BufExts.GetU16 | src/buf/bit_buf_exts.rs:105-121 | `get_u16`: `UnexpectedEof` exactly when fewer than 16 bits remain, otherwise `O::load` of the next 16 bits |
| BufExts.GetU24 | src/buf/bit_buf_exts.rs:143-159 | `get_u24`: likewise with 24 bits |
| BufExts.GetU32 | src/buf/bit_buf_exts.rs:181-197 | `get_u32`: likewise with 32 bits |
| BufExts.NibbleBitTriple | src/buf/bit_buf_exts.rs:208-218 | reading u4, u1, u3 from `0110_0111` gives 6, 0, 7 |
| BufExts.BigEndianExamples | src/buf/bit_buf_exts.rs:220-243 | big-endian `get_u9` of `1_0101_0101` is 341 and `get_u12` of `0111_1111_1000` is 2040 |
| BufExts.LittleEndianExamples | src/buf/bit_buf_exts.rs:245-286 | little-endian `get_u9` of `1010_1011_1` is 427 and `get_u20` of its 20-bit span is `0xABCDE` |
| BufMutExts.FixedBits | src/buf/bit_buf_mut_exts.rs:12-16 | the `put_fixed` loop writes the low `N` bits of the value MSB-first into the first `N` bits of the chunk and leaves the rest of the chunk alone |
| BufMutExts.PutFixed | src/buf/bit_buf_mut_exts.rs:7-19 | `put_fixed::<N>`: `UnexpectedEof`, writing nothing, exactly when the chunk has fewer than `N` bits; otherwise the value's `N`-bit encoding is put |
| BufMutExts.PutU2To8 | src/buf/bit_buf_mut_exts.rs:51-77 | `put_u2`..`put_u8` put the value's `N`-bit encoding, which an exact ordered writer's log ends with and which folds back to the value |
| BufMutExts.PutU1 | src/buf/bit_buf_mut_exts.rs:43-49 | `put_u1` puts exactly one bit, set exactly when the value is 1 |
| BufMutExts.PutBool | src/buf/bit_buf_mut_exts.rs:39-41 | `put_bool` puts exactly the flag's bit |
| BufMutExts.PutUN | src/buf/bit_buf_mut_exts.rs:80-91 | `put_uN::<O, N>`: `UnexpectedEof` exactly when the chunk has fewer than `N` bits; otherwise `O::write_u32_to_bits` of the value in `N` bits is put |
| BufMutExts.PutU9To32 | src/buf/bit_buf_mut_exts.rs:93-164 | `put_u9`..`put_u32` are `put_uN` with the caller's order; in big endian what is put loads back as the value |
| BufMutExts.LittleEndianPutReadsBackWrong | src/buf/bit_buf_mut_exts.rs:80-91 | little-endian `put_uN::<9>` of 1 puts bits that little-endian `get_uN` loads as 128 |
| BufMutExts.PutUNStored | src/buf/bit_buf_mut_exts.rs:80-91 | a `put_uN` that puts `O::store` of the value reads back as the value in either order |
| BufMutExts.ChainedPutU16Fails | src/buf/chain.rs:157-166 | on two chained one-byte slices `put_u16` sees an 8-bit chunk and fails with `UnexpectedEof`, although the chain has 16 bits of room |
| BufMutExts.PutUNAcross | src/buf/bit_buf_mut_exts.rs:80-91 | a `put_uN` through `try_put_bit_slice` fails exactly when the whole room is shorter than `N`, and what it puts loads back as the value |
| BufMutExts.ChainedPutU16Succeeds | src/buf/chain.rs:157-166 | that put goes through on the two chained one-byte slices and leaves `[0]` in the first and `[42]` in the second, as the test asserts |
| BufMutExts.BigEndianBytesOf42 | src/buf/chain.rs:157-166 | the sixteen big-endian bits of 42 are the bytes `0` and `42` |
| BufMutExts.ChainedPutTwoBytes | src/buf/bit_buf_mut.rs:87-95 | the put loop over two chained one-byte slices writes the first eight bits into the first and the rest into the second |
| BitIo.ReadBitsExact | src/io/bit_read.rs:17-39 | `read_bits_exact` returns exactly the bits wanted, or an error: the reader's own error is passed on and a read of nothing is `UnexpectedEof`; wanting nothing is `Ok` without a read |
| BitIo.WriteAllBits | src/bit_write.rs:9-21 | `write_all_bits`: an empty source is `Ok` without a write, a writer's error is passed on, and a write of nothing is `WriteZero` |
| BitIo.CopyFront | src/io/bit_slice_traits.rs:3-19 | `read_bits` on `&BitSlice` and `write_bits` on `&mut BitSlice` both move `min` of the two lengths bits to the front of the destination and leave the rest of it alone, returning that count; it also models src/bit_slice_traits.rs:12-33, where the legacy `u1`-array `read_bits` and `write_bits` do the same |
| BitIo.SliceReadRepeats | src/io/bit_slice_traits.rs:3-9 | as the slice never advances, `read_bits_exact` of four bits from `10` gives `1010` |
| BitIo.SliceWriteOverwrites | src/io/bit_slice_traits.rs:11-19 | likewise `write_all_bits` of eight bits into four overwrites the same four bits twice and reports success |
| BitIo.AdvancingReadExact | src/io/bit_read.rs:17-39 | over a reader that advances past what it reads, `read_bits_exact` fails with `UnexpectedEof` exactly when too few bits remain, and otherwise returns exactly the next bits |
| BitIo.AdvancingWriteAll | src/bit_write.rs:9-21 | over a writer that advances past what it writes, `write_all_bits` fails with `WriteZero` exactly when the room is too short, and otherwise appends the source in order |
| BitIo.ReadUN | src/bit_read_exts.rs:6-10 | `read_uN` fails exactly when `read_bits_exact` does, with its error; otherwise the value is below `2^n` and its `B` encoding is the bits read |
| BitIo.ReadU1To8 | src/bit_read_exts.rs:18-48 | `read_u1`..`read_u8` decode big-endian: the value's MSB-first encoding is the bits read |
| BitIo.ReadBool | src/bit_read_exts.rs:14-16 | `read_bool` is the bit read |
| BitIo.ReadU9To32AsWritten | src/bit_read_exts.rs:50-144 | as written, `read_u9`..`read_u32` decode big-endian whatever their `B` |
| BitIo.LittleEndianReadBackAsWritten | src/bit_read_exts.rs:50-144 | so the nine little-endian bits of 1 read back as 256 |
| BitIo.ReadU9To32 | src/bit_read_exts.rs:50-144 | decoding in the caller's order, the value's `B` encoding is the bits read |
| BitIo.ReadU9To32RoundTrip | src/bit_write_exts.rs:52-146 | what `write_u9`..`write_u32` wrote in either order reads back, in the same order, as the value |
| BitIo.WriteUN | src/bit_write_exts.rs:5-12 | `write_uN` hands `B::write_u32_to_bits` of the value to `write_all_bits`, passing its errors on |
| BitIo.WriteU1To8 | src/bit_write_exts.rs:20-50 | `write_u1`..`write_u8` write the value's big-endian encoding |
| BitIo.WriteBool | src/bit_write_exts.rs:16-18 | `write_bool` writes the flag as one bit |
| BitIo.WriteUNAppends | src/bit_write_exts.rs:5-12 | over an advancing writer `write_uN` appends the value's `N`-bit encoding, or fails with `WriteZero` when the room is too short |
| BitIo.WriteThenReadUN | src/bit_read_exts.rs:6-10 | `read_uN` of what `write_uN` wrote in the same order gives the value modulo `2^n` and leaves what followed |
| BitCursor.New | src/bit_cursor.rs:17-20 | `new` starts at position 0 over the inner buffer |
| BitCursor.SetPosition | src/bit_cursor.rs:32-34 | `set_position` stores any `u64` without a bounds check |
| BitCursor.RemainingSlice | src/bit_cursor.rs:42-46 | `remaining_slice` is the inner bits from `min(pos, len)` on |
| BitCursor.IsEmptyAsWrittenTooEarly | src/bit_cursor.rs:54-56 | as written, `is_empty` compares the position with the remaining length: halfway through a byte it already reports empty with four bits left |
| BitCursor.IsEmpty | src/bit_cursor.rs:54-56 | compared with the inner length, `is_empty` holds exactly when no bits remain |
| BitCursor.Seek | src/bit_cursor.rs:76-95 | `Start(n)` sets the position to `n`; `End` and `Current` add the signed offset to the length or the position, and a negative or overflowing result is `InvalidInput` with the cursor unchanged |
| BitCursor.ReadBits | src/bit_cursor.rs:104-108 | `read_bits` fills the front of `buf` with as many remaining bits as fit, keeps the rest of `buf`, and moves the position by the count read |
| BitCursor.Read | src/bit_cursor.rs:117-131 | byte `read` is refused with `Other` exactly off a byte boundary; otherwise it reads as many whole remaining bytes as fit and moves the position by eight bits per byte |
| BitCursor.Write | src/bit_cursor.rs:151-166 | byte `write` is refused with `Other` exactly off a byte boundary; otherwise it stores as many whole bytes as fit at the position and moves past them, leaving the bits after them alone |
| BitCursor.WriteThenRead | src/bit_cursor.rs:117-166 | bytes written through `Write` read back through `Read` from the same position |
| BitCursor.ReadBitsWithin | src/bit_cursor.rs:104-108 | a read that fits before the end returns exactly the next `|buf|` bits |
| BitCursor.ReadBitsNibbles | src/bit_cursor.rs:181-200 | reading four bits at a time from `[0xF0, 0x0F]` gives `1111`, `0000`, `0000`, `1111`, then nothing |
| BitCursor.SeekInPlace | src/bit_cursor.rs:76-95 | seeking to the current position, with `Start` or with `Current(0)`, leaves the cursor as it was |
| BitCursor.SeekCurrentUndone | src/bit_cursor.rs:76-95 | a successful `Current(k)` is undone by `Current(-k)` |
| BitCursor.SeekCurrentAdds | src/bit_cursor.rs:76-95 | two successful `Current` seeks land where one `Current` seek by their sum lands |
| BitCursor.SeekEndAsStart | src/bit_cursor.rs:76-95 | a successful `End(k)` is the `Start` seek to the length plus `k` |
| BitCursor.SeekThenRead | src/bit_cursor.rs:202-223 | seeking `End(-2)`, `Current(-4)` and `Start(4)` over `[0xCC, 0x33]` reads `11`, `00` and `11` |
| BitCursor.Remaining | src/buf/bit_buf_impls.rs:249-254 | the cursor's `remaining` is `len.saturating_sub(pos)`, the length of the remaining slice |
| BitCursor.Advance | src/buf/bit_buf_impls.rs:238-247 | the cursor's `advance(count)` moves the position so that the remaining slice loses its first `count` bits |
| BitCursor.ChunkBytesAsWritten | src/buf/bit_buf_impls.rs:262-270 | as written, the cursor's `chunk_bytes` is the whole inner buffer, whatever the position |
| BitCursor.ChunkBytesAsWrittenIgnoresPosition | src/buf/bit_buf_impls.rs:262-270 | after one byte is consumed it still starts with that byte, and alignment is reported four bits into a byte |
| BitCursor.ChunkBytes | src/buf/bit_buf_impls.rs:262-270 | taken over the remaining slice, `chunk_bytes` is the remaining bits as bytes |
| LegacyBitSlice.Len | src/bit_slice.rs:29-31 | `len` is `end_bit_index - start_bit_index`, the number of bits in view |
| LegacyBitSlice.AtAsWritten | src/bit_slice.rs:36-42 | as written, `at(index)` only asserts `index < end_bit_index` and returns storage bit `start + index` |
| LegacyBitSlice.AtReadsPastEnd | src/bit_slice.rs:36-42 | on a four-bit view starting at bit 4, `at(5)` passes the assertion and reads a bit outside the view |
| LegacyBitSlice.At | src/bit_slice.rs:36-42 | checked against `len`, `at(index)` is bit `index` of the view |
| LegacyBitSlice.SetAsWritten | src/bit_slice_mut.rs:44-52 | as written, `set(index, v)` sets storage bit `start + index` and no other |
| LegacyBitSlice.SetWritesPastEnd | src/bit_slice_mut.rs:44-52 | the same assertion lets `set` change the buffer outside the view while the view stays the same |
| LegacyBitSlice.Set | src/bit_slice_mut.rs:44-52 | checked against `len`, `set(index, v)` changes bit `index` of the view to `v` and no other bit of it |
| LegacyBitSlice.GetSlice | src/bit_slice.rs:53-77 | `get_slice` fails with `SliceOutOfRange(buf.len(), first byte, last byte)` exactly when the last bit lies past the buffer; otherwise the sub-slice has a rebased start below 8 and holds exactly the selected storage bits; it also models src/bit_slice_mut.rs:63-87, where `BitSliceMut::get_slice` rebases and fails alike |
| LegacyBitSlice.GetSliceOfSlice | src/bit_slice.rs:53-77 | a range within the view selects exactly those bits of the view |
| LegacyBitSlice.GetSliceMut | src/bit_slice_mut.rs:89-113 | `get_slice_mut` fails alike and otherwise hands out the bytes from the first selected byte, with the same bits as `get_slice` |
| LegacyBitSlice.SetThroughSubSlice | src/bit_slice_mut.rs:89-113 | a `set` through the sub-slice is the same `set` on the parent at the shifted index |
| LegacyBitSlice.ReadBytes | src/bit_slice.rs:80-94 | byte `read` is refused with `Other` exactly when the start is off a byte boundary; otherwise it reads as many whole bytes as fit, whose bits are the storage from the start; it also models src/bit_slice_mut.rs:122-126, where `BitSliceMut`'s byte `read` does the same |
| LegacyBitSlice.WriteBytes | src/bit_slice_mut.rs:128-141 | byte `write` is refused with `Other` exactly off a byte boundary; otherwise it stores whole bytes at the start and leaves every other storage bit alone |
| LegacyBitSlice.OfVec | src/bit_slice.rs:106-114 | `Vec<u8>::as_bit_slice` views bits `[0, 8 * len)`, every bit of the bytes; it also models src/bit_slice_mut.rs:167-179, where `Vec<u8>::as_bit_slice_mut` does the same |
| LegacyBitSlice.ReadBits | src/bit_slice.rs:116-129 | the blanket `read_bits` reads `n = min(len, buf.len())` bits with `at` into the front of `buf`, leaving the rest of `buf` alone |
| LegacyBitSlice.WriteBits | src/bit_slice_mut.rs:181-193 | the blanket `write_bits` sets the first `n = min(len, buf.len())` bits of the view from `buf` and leaves every other storage bit alone |
| LegacyBitCursor.New | src/bitcursor.rs:67-72 | `new` starts at byte 0, bit 0 |
| LegacyBitCursor.IncrementBitPos | src/bitcursor.rs:74-82 | `increment_bit_pos(n)` moves the absolute position `8 * byte + bit_pos` by `n`, keeping `bit_pos < 8` |
| LegacyBitCursor.GetCurrByte | src/bitcursor.rs:84-93 | `get_curr_byte` is the byte at the byte position, and `BufferOverflow` exactly at or past the end |
| LegacyBitCursor.ReadBit | src/bitcursor.rs:95-101 | `read_bit` is the MSB-first storage bit at the absolute position and moves past it; at the end it is `BufferOverflow` and the cursor is unchanged |
| LegacyBitCursor.ReadBitsFrom | src/bitcursor.rs:48-64 | the fold in `bit_read_helper` succeeds exactly when the bits are there; it gives the MSB-first value of the bits read modulo the width, and a failure comes with the cursor at the end |
| LegacyBitCursor.ReadBitsAs | src/bitcursor.rs:113-123 | `read_bits_as_u8`/`u16`/`u32(n)` give the MSB-first value of the next `n` bits, reduced modulo `2^width`, and exactly that value when `n` fits the width |
| LegacyBitCursor.BytesRemaining | src/bitcursor.rs:103-111 | `bytes_remaining` is the number of whole bytes after the absolute position |
| LegacyBitCursor.ReadBytes | src/bitcursor.rs:32-45 | byte `read` is refused exactly off a byte boundary; otherwise it reads whole bytes from the byte position |
| LegacyBitCursor.ReadExact | src/bit_read.rs:73-91 | `read_exact` over the cursor's byte `read`, as `u8`/`u16`/`u32::read` use it: `Other` off a byte boundary, `UnexpectedEof` exactly when fewer than `want` whole bytes remain, otherwise exactly the next `want` bytes with the position moved past them |
| LegacyBitCursor.ReadExactCursor | src/bitcursor.rs:32-45 | where `read_exact` leaves the cursor in every outcome: as the successful read does, unmoved when refused, and past the last whole byte after a short read, whose bytes are already taken when `UnexpectedEof` is returned |
| LegacyBitCursor.ReadNibbles | src/bitcursor.rs:132-141 | reading 4, 4, 2 and 6 bits from `[0xF0, 0x0F]` gives 15, 0, 0 and 15 |
| LegacyBitCursor.ByteReadOffBoundary | src/bitcursor.rs:143-150 | `u8::read` after four bits is refused with `Other` |
| LegacyBitCursor.ReadTooFar | src/bitcursor.rs:152-167 | `u16::read` of one byte gets one byte and then none, so it fails with `UnexpectedEof` and leaves the cursor past that byte; reading seven bits and then three more of one byte overflows |

## Left out

- Allocation and ownership: the capacity of `Bytes`/`BytesMut`, reference counting, `from_owner_bytes` and `from_static_bytes` are not modelled. Storage is a plain sequence of bits. Each handle split off a `BitsMut` owns its own copy, so a write through one is not seen through another.
- `copy_from_bytes` (src/buf/bits.rs:76-86) yields the same view as `from_bytes`, since a copy cannot be told apart from the original in a value model. `Bits.FromBytes` stands for both.
- `len_bits`/`len` and `Deref` are the view's length and the view itself; they are not separate members.
- `reserve_bits` and `spare_capacity_mut` are not part of this model; only their effect is assumed, namely that the capacity grows and nothing written moves.
- bitvec internals: `Domain` and `load_be`/`load_le`/`store_be`/`store_le` are modelled only by the behaviour the code relies on. The little-endian load of a span that starts inside a storage byte puts that partial byte least significant (`BufByteOrder.LoadLeAt`); the copied slow path of `get_uN` always starts at a byte boundary.
- BitBufMut.HandlePrepareBytes: a `BitsMut` reserves 64 more bits when it has fewer than eight spare bits, whereas the code reserves only when `capacity == bit_len` (src/buf/bit_buf_mut_impls.rs:21). The code's chunk is then `BytesMut::chunk_mut`, which grows the `BytesMut` by itself when it is full, so it is never empty either; the model's earlier reserve is what keeps its own byte chunk, cut from the spare capacity, at least a byte long.
- BitBufMut.PrepareBytes: inherits that reserve condition for every `BitsMut` part.
- BitBufMut.HandleRegionBytes: for a `BitsMut` the model hands out the whole bytes of the spare capacity, after the view. The code hands out `BytesMut::chunk_mut` (src/buf/bit_buf_mut_impls.rs:24): the bytes after the `BytesMut`'s length, up to its allocation, which is not modelled. The two start at the same byte while the `BytesMut` length is `bytes_needed` of the bits in use (`BitsMut.AdvanceMutKeepsInnerLen`), but their lengths differ: `with_capacity(12)` hands out at least two bytes in the code and one in the model. After `split_off`, which keeps the whole `BytesMut`, the code's chunk starts past the view's end.
- BitBufMut.ChunkMutBytes: inherits that byte chunk for every `BitsMut` part.
- BitsMut.AdvanceMut: requires `bit_len + cnt <= capacity`, which the code does not check; the code also accepts a `cnt` that fits the bytes of the `BytesMut`, and `BitsMut.AdvanceMutAsWritten` models that case (see Findings).
- BitBufMut.HandleAdvance: holds a `BitsMut` to the same capacity bound, so it does not state the advance past the capacity that the code accepts.
- BitBufMut.AdvanceBitsMut: the same capacity bound as `BitsMut.AdvanceMut`.
- BitBufMut.TryPutSliceBytes: requires eight bits of headroom beyond `src` below `usize::MAX` in every `BitsMut` part. A `BitsMut` within a byte of `usize::MAX` bits cannot exist in memory.
- BitBufMut.AdvanceMut: for a writer with a `&mut [u8]` part it states only that the log grows by at least `count`. That part rounds a partial byte up to the whole byte. A `BitsMut` part is held to the capacity bound of `BitsMut.AdvanceMut`.
- `chunk_mut`, `advance_mut` and `put_slice`, called by `put_fixed`, `put_uN` and `put_fixed2`, are not defined by the `BitBufMut` trait. They are read as `chunk_mut_bits`, `advance_mut_bits` and `put_bit_slice`.
- `has_remaining_mut_bits`/`has_remaining_mut_bytes` are not defined in the files either; they are read as a non-zero room.
- BufMutExts.PutU1: `put_u1` and `put_bool` are modelled with at least one bit of room, because `put_fixed2` unwraps `put_slice` and so panics without room.
- BitIo.ReadBitsExact: on an error, what the bits already read left in `dest` is not stated; the callers discard it.
- BitUtil.StartEndFromRange: the model's indices are unbounded, so it does not show that `s + 1` overflows the `u64` at `u64::MAX` for an excluded start or an included end (src/util.rs:53, 57).
- BufExts.GetUN: the `U::try_from(value)` at src/buf/bit_buf_exts.rs:21 and 30 cannot fail for a load of `N` bits, which is below `2^N`, so its `InvalidData` path is absent. (`read_uN` of the reader extensions builds its value with `uN::new` and has no such path.) The value is that of the corrected `get_uN`; as written, a little-endian read in place from a chunk that starts inside a storage byte gets `BufExts.GetUNAsWritten`'s value instead (see Findings).
- BufExts.GetUNReadsStore: stated for the corrected `get_uN`; as written, it holds in place only for a big-endian read or a chunk on a byte boundary (`BufExts.GetUNAsWrittenAgrees`).
- BufExts.GetU8: the aligned path takes the first byte of the corrected `chunk_bytes` and consumes it with the corrected `advance_bytes`. As written, on a `BitCursor` the byte is the first of the whole inner slice whatever the position, and `byte_aligned` looks at that slice too (src/buf/bit_buf_impls.rs:262-270, 301-313; `BitCursor.ChunkBytesAsWrittenIgnoresPosition`); on a `&[u8]`, `advance_bytes(1)` drops eight bytes (`ByteSliceBuf.AdvanceBytesAsWritten`). The unaligned path goes through the corrected `get_uN`.
- BufExts.GetWide: the aligned path copies with the corrected `try_copy_to_slice_bytes`. As written, that copy passes the byte count `k` to the bit-counting `advance` (src/buf/bit_buf_impls.rs:51, 109, 219, 295), so a `Bits`, `BitsMut`, `&BitSlice` or `BitCursor` loses only `k` bits (`Bits.TryCopyToSliceBytesAsWrittenUnderAdvances`: two bytes copied out of `[0x12, 0x34]` leave 14 bits), and on a `BitCursor` the bytes are copied from the start of the whole inner slice, whatever the position. The unaligned path goes through the corrected `get_uN`.
- BufExts.GetU16: the aligned path is `BufExts.GetWide`'s with the corrected byte copy, so as written it consumes 2 bits instead of 16 on an aligned view; the unaligned path is the corrected `get_uN`, and as written a little-endian read from a chunk starting inside a storage byte gets `BufExts.GetUNAsWritten`'s value.
- BufExts.GetU24: likewise, consuming 3 bits instead of 24 as written.
- BufExts.GetU32: likewise, consuming 4 bits instead of 32 as written.
- `chunk_bits`, `advance_bits`, `remaining_bits`, `has_remaining_bits`, `has_remaining_bytes` and `try_copy_to_bit_slice`, called on the read side (src/buf/bit_buf_exts.rs:16-26, src/buf/chain.rs:45-82, src/buf/take.rs:38-60), are not defined by the `BitBuf` trait (src/buf/bit_buf.rs), which defines `chunk`, `advance` and `remaining`. The first three are read as those; `has_remaining_bits`/`has_remaining_bytes` as a non-zero count of bits or whole bytes; `try_copy_to_bit_slice` as `BitBuf.TryCopyToBitSlice`, the model's own reading: check the length, then copy, like `try_put_bit_slice`.
- BitIo.WriteUN: states the first call to the writer and the error cases; `BitIo.WriteUNAppends` states the whole write over an advancing writer.
- `read_bit` of the legacy cursor returns the bit as `bool` rather than as a `u8` of 0 or 1.
- `as_bit_slice` of `BitSliceMut` (src/bit_slice_mut.rs:116-120) keeps the same buffer and indices, so it is the identity on the legacy `Slice`.
- LegacyBitSlice.GetSlice: it is modelled for non-empty ranges (`end > 0` after rebasing), because `end - 1` underflows otherwise. As in the code, it does not check the range against `len`.
- The `ux`/`byteorder` width dispatch of src/bit_read.rs, the `bytes::Buf` bridge (src/buf/buf_impl.rs), src/sub_cursor.rs, src/io/borrow_bits.rs, src/bit_seek.rs, src/bit_types.rs, src/prelude.rs, src/lib.rs and the benchmarks are thin adapters or declarations. They are not part of this model.
- `Send`/`'static` bounds and thread-safety: nothing in the core is concurrent.
- Tests not stated as lemmas:
  - the `chunk_bytes` test after an advance (src/buf/bit_buf_impls.rs:348-366), whose as-written result `BitCursor.ChunkBytesAsWritten` and `Bits.ChunkBytesAsWritten` describe;
  - the byte-order storage tests (src/buf/byte_order.rs:128-186), which `BufByteOrder.StoreU16` covers for every value;
  - the `bit_buf_mut_exts` test marked as crashing;
  - the `copy_to_slice` and bit-slice tests of src/buf/bit_buf_impls.rs:329-384, which `BitBuf.CopyToSlice` and `BitBuf.TryCopyToSliceBytes` cover for every buffer.

## Findings

| source | as written | input that shows it | evidently intended | confidence | as-written member | corrected member |
|---|---|---|---|---|---|---|
| src/bit_read_exts.rs:50-144 | `read_u9`..`read_u32` decode with `BigEndian` whatever their byte order `B` | the little-endian nine bits of 1 (`100000000`) read back as 256 | decode with `B`, so that `read_uN::<B>` inverts `write_uN::<B>` | not executed; high | BitIo.LittleEndianReadBackAsWritten | BitIo.ReadU9To32RoundTrip |
| src/bit_cursor.rs:54-56 | `is_empty` compares the position with the length of the remaining slice | a cursor over one byte at position 4 reports empty with four bits left | compare the position with the inner length | not executed; high | BitCursor.IsEmptyAsWrittenTooEarly | BitCursor.IsEmpty |
| src/bit_slice.rs:36-42 | `at` asserts `index < end_bit_index` rather than `index < len` | `at(5)` on the slice of bits 4..8 of `[0x0F, 0x00]` reads bit 9 | assert `index < len` | not executed; high | LegacyBitSlice.AtReadsPastEnd | LegacyBitSlice.At |
| src/bit_slice_mut.rs:44-52 | `set` asserts `index < end_bit_index` rather than `index < len` | `set(5, _)` on the same slice writes outside the view | assert `index < len` | not executed; high | LegacyBitSlice.SetWritesPastEnd | LegacyBitSlice.Set |
| src/buf/bits.rs:90-100 | `slice_bits` checks `range.end <= bit_start + bit_len`, although the range is relative to the view; `slice_bytes` repeats the check as `range.end * 8 <= bit_start + bit_len` (src/buf/bits.rs:105-108) | `slice_bits(0..12)` of the byte view at bit 8 of `[0, 0xFF, 0, 0]` yields twelve bits | check `range.end <= bit_len` | not executed; high | Bits.SliceBitsAsWrittenEscapesView | Bits.SliceBits |
| src/buf/bit_buf_impls.rs:262-270 | the cursor's `chunk_bytes` (and `byte_aligned`, 301-313) look at the whole inner slice, not the remaining one | after one byte of `[0xAB, 0xCD]` is consumed, `chunk_bytes` still starts with `0xAB` | use the remaining slice | not executed; high | BitCursor.ChunkBytesAsWrittenIgnoresPosition | BitCursor.ChunkBytes |
| src/buf/bit_buf_impls.rs:78-84 | the `BitsMut` `chunk_bytes` runs from the view's first byte to the end of the `BytesMut`, which `split_off` keeps whole | after `zeroed_bytes(2).split_off(8)` the handle kept has one byte in view and `chunk_bytes` hands out two | cut at the view's end, as `remaining_bytes` promises | not executed; high | BitsMut.ChunkBytesAsWrittenExceedsView | BitsMut.ChunkBytes |
| src/buf/bit_buf_mut_impls.rs:27-39 | the `BitsMut` `advance_mut_bits` checks `cnt` only against `usize::MAX - bit_len`, and `BytesMut::advance_mut` checks only whole bytes, so `bit_len` can pass `capacity` | `with_capacity(4)` then `advance_mut_bits(8)` leaves eight bits in view with a capacity of four; `split_to(8)` then passes its own check and calls `advance_unchecked(8)`, which needs the count within the capacity | also check `cnt <= capacity - bit_len`, so the advance stays inside the memory `chunk_mut_bits` hands out (src/buf/bit_buf_mut.rs:6-9) | not executed; medium | BitsMut.AdvanceMutAsWrittenPassesCapacity | BitsMut.AdvanceMut |
| src/buf/bits.rs:220-229 | aligned views compare `chunk_bytes`, which runs to the end of the storage | `from_bytes([1, 2])` equals its own one-byte truncation | compare only the bytes in view | not executed; high | Bits.EqAsWrittenIgnoresLength | Bits.Eq |
| src/buf/bit_buf_impls.rs:28-55 | `try_copy_to_slice_bytes` passes a byte count to the bit-counting `advance` (also at lines 109, 219, 295) | copying two bytes out of `[0x12, 0x34]` leaves 14 bits | advance by `8 * count` bits | not executed; high | Bits.TryCopyToSliceBytesAsWrittenUnderAdvances | BitBuf.TryCopyToSliceBytes |
| src/buf/bit_buf_impls.rs:121-126 | `advance` on `&[u8]` drops `count` bytes while `remaining` and `chunk` count bits | advancing one bit over `[0x80, 0x40]` drops eight | drop `count` bits, that is, view the slice as bits | not executed; high | ByteSliceBuf.AdvanceAsWrittenSkipsBits | ByteSliceBuf.AdvanceBytesDropsBytes |
| src/buf/bit_buf_exts.rs:16-31 | `get_uN` loads in place from `chunk_bits` when the chunk holds `N` bits, and from a copy starting at a byte boundary otherwise; a little-endian load groups bits by storage byte, so the two disagree when the chunk starts inside a byte | `from_bytes([0x08, 0x01, 0x20])` advanced by four bits gives `get_u16::<LittleEndian>` `0x2018`, while the same sixteen bits over a chain of two byte views give `0x1280` | one value per stream whatever the path, as the comment at lines 13-15 presents the in-place read as a shortcut for the copy | not executed; medium | BufExts.GetUNAsWrittenPathsDisagree | BufExts.GetUN |
| src/io/bit_slice_traits.rs:3-9 | `read_bits` on `&BitSlice` never advances the slice | `read_bits_exact` of four bits from `10` returns `1010` | advance past the bits read | not executed; medium | BitIo.SliceReadRepeats | BitIo.AdvancingReadExact |
| src/io/bit_slice_traits.rs:11-19 | `write_bits` on `&mut BitSlice` never advances the slice | `write_all_bits` of eight bits into four zero bits reports success and keeps only the last four | advance past the bits written | not executed; medium | BitIo.SliceWriteOverwrites | BitIo.AdvancingWriteAll |
| src/buf/bit_buf_mut_impls.rs:47-56 | `advance_mut_bits` on `&mut [u8]` rounds a partial byte up to a whole one | two four-bit puts of `1111` into two zero bytes give `[0xF0, 0xF0]` | pack bits, as the bit-slice writer does | not executed; medium | BitBufMut.ByteSliceRoundsUpPartialPuts | BitBufMut.BitViewPacksPartialPuts |
| src/buf/bit_buf_mut_exts.rs:80-91 | `put_uN` stores with `write_u32_to_bits` while `get_uN` loads with `O::load` | little-endian `put_u9(1)` reads back through `get_u9` as 128 | store with `O::store`, the inverse of `O::load` | not executed; high | BufMutExts.LittleEndianPutReadsBackWrong | BufMutExts.PutUNStored |
| src/buf/bit_buf_mut_exts.rs:84-87 | `put_uN` needs the whole value to fit in one chunk | `put_u16` into two chained one-byte slices is `UnexpectedEof` (the test at src/buf/chain.rs:157-166 expects `[0]`, `[42]`) | write across chunks, as `try_put_bit_slice` does | not executed; medium | BufMutExts.ChainedPutU16Fails | BufMutExts.PutUNAcross |

=== FILE: bit_buf.dfy ===
// The `BitBuf` trait (src/buf/bit_buf.rs) over its implementors (src/buf/bit_buf_impls.rs)
// and adaptors (`Chain`, src/buf/chain.rs; `Take`/`BitTake`, src/buf/take.rs and
// src/buf/bit_take.rs). The trait's implementors become the cases of one datatype; `Stream`
// is the sequence of bits a reader of the buffer sees, and every operation is stated
// against it. Where the code's `chunk_bytes`/`byte_aligned` disagree with the trait's own
// promises (see `Bits.ChunkBytesAsWritten`, `BitCursor.ChunkBytesAsWritten`) the corrected
// forms are used here; `&[u8]`, whose `advance` counts bytes, is in `ByteSliceBuf`.

module BitBuf {
  import opened BitUtil
  import opened Errors
  import opened BitSliceRef
  import B = Bits
  import M = BitsMut
  import C = BitCursor

  /** The implementors of `BitBuf` that hold bits themselves. */
  datatype Handle =
    | OfBits(bits: B.Bits)
    | OfBitsMut(bitsMut: M.BitsMut)
    | OfSlice(slice: SliceRef)
    | OfCursor(cursor: C.Cursor)

  /** A `BitBuf`: an implementor, or one of the adaptors built on others. */
  datatype Buf =
    | Leaf(handle: Handle)
    | Chain(first: Buf, last: Buf)
    | Take(inner: Buf, limit: nat)

  // ---------------------------------------------------------------------------------------
  // The implementors (src/buf/bit_buf_impls.rs)

  /** Each handle is well formed and its length fits the `usize` the code keeps it in. */
  predicate HandleValid(h: Handle) {
    match h
    case OfBits(x) => x.Valid() && x.bitLen <= USIZE_MAX
    case OfBitsMut(m) => m.Valid() && m.bitLen <= USIZE_MAX
    case OfSlice(s) => s.Valid() && s.Len() <= USIZE_MAX
    case OfCursor(c) => c.Valid()
  }

  /** The bits a reader of the handle sees: a view, a slice, a cursor's remaining slice. */
  function HandleStream(h: Handle): seq<bool>
    requires HandleValid(h)
  {
    match h
    case OfBits(x) => x.View()
    case OfBitsMut(m) => m.View()
    case OfSlice(s) => s.Bits()
    case OfCursor(c) => C.RemainingSlice(c).Bits()
  }

  /** `remaining`: the view length, the slice length, the cursor's
      `len.saturating_sub(pos)`; in each case the number of bits a reader sees. */
  function HandleRemaining(h: Handle): (r: nat)
    requires HandleValid(h)
    ensures r == |HandleStream(h)| && r <= USIZE_MAX
  {
    match h
    case OfBits(x) => x.bitLen
    case OfBitsMut(m) => m.bitLen
    case OfSlice(s) => s.Len()
    case OfCursor(c) => C.Remaining(c)
  }

  /** `byte_aligned`: both ends of what remains fall on byte boundaries of the storage, so
      what remains is whole bytes. */
  predicate HandleAligned(h: Handle)
    requires HandleValid(h)
    ensures HandleAligned(h) ==> |HandleStream(h)| % 8 == 0
  {
    match h
    case OfBits(x) => x.ByteAligned()
    case OfBitsMut(m) => m.ByteAligned()
    case OfSlice(s) => if s.Aligned() then AlignedWholeBytes(s); true else false
    case OfCursor(c) =>
      if C.ByteAligned(c) then AlignedWholeBytes(C.RemainingSlice(c)); true else false
  }

  /** `advance`: panics past the remaining bits; otherwise drops `count` bits from the front,
      and dropping whole bytes from an aligned handle leaves it aligned. */
  function HandleAdvance(h: Handle, count: nat): (r: Handle)
    requires HandleValid(h) && count <= HandleRemaining(h)
    ensures HandleValid(r) && HandleStream(r) == HandleStream(h)[count..]
    ensures HandleAligned(h) && count % 8 == 0 ==> HandleAligned(r)
  {
    match h
    case OfBits(x) => OfBits(B.Advance(x, count))
    case OfBitsMut(m) => OfBitsMut(M.Advance(m, count))
    case OfSlice(s) => OfSlice(Drop(s, count))
    case OfCursor(c) => OfCursor(C.Advance(c, count))
  }

  /** `chunk_bytes` (corrected, see the module comment): all the remaining bits as bytes. */
  function HandleChunkBytes(h: Handle): (r: seq<byte>)
    requires HandleValid(h) && HandleAligned(h)
    ensures BytesToBits(r) == HandleStream(h)
  {
    match h
    case OfBits(x) => B.ChunkBytes(x)
    case OfBitsMut(m) => M.ChunkBytes(m)
    case OfSlice(s) => Body(s)
    case OfCursor(c) => C.ChunkBytes(c)
  }

  // ---------------------------------------------------------------------------------------
  // Any `BitBuf`, adaptors included

  predicate Valid(b: Buf) {
    match b
    case Leaf(h) => HandleValid(h)
    case Chain(a, z) => Valid(a) && Valid(z)
    case Take(i, limit) => Valid(i) && limit <= USIZE_MAX
  }

  /** The bits a reader of `b` sees, in order: a chain reads its first buffer, then its
      second; a take reads at most `limit` bits of its inner buffer. */
  function Stream(b: Buf): seq<bool>
    requires Valid(b)
  {
    match b
    case Leaf(h) => HandleStream(h)
    case Chain(a, z) => Stream(a) + Stream(z)
    case Take(i, limit) => var s := Stream(i); s[..Min(|s|, limit)]
  }

  /** `remaining`: a chain's is the saturating sum of its parts', a take's is
      `min(inner, limit)`. It is the number of bits a reader sees, saturated at `usize::MAX`
      (only a chain can hold more). */
  function Remaining(b: Buf): (r: nat)
    requires Valid(b)
    ensures r == Min(|Stream(b)|, USIZE_MAX)
  {
    match b
    case Leaf(h) => HandleRemaining(h)
    case Chain(a, z) => SaturatingAdd(Remaining(a), Remaining(z))
    case Take(i, limit) => Min(Remaining(i), limit)
  }

  /** `remaining_bytes`: the whole bytes among the remaining bits. */
  function RemainingBytes(b: Buf): (r: nat)
    requires Valid(b)
    ensures 8 * r <= Remaining(b) < 8 * r + 8
  {
    Remaining(b) / 8
  }

  /** `advance`: consume `count` bits. A chain first drains its first buffer and advances the
      second by the rest; a take also lowers its limit (and asserts `count <= limit`).
      Advancing an aligned buffer by whole bytes leaves it aligned. */
  function Advance(b: Buf, count: nat): (r: Buf)
    requires Valid(b) && count <= Remaining(b)
    ensures Valid(r) && Stream(r) == Stream(b)[count..]
    ensures ByteAligned(b) && count % 8 == 0 ==> ByteAligned(r)
    decreases b, 1
  {
    match b
    case Leaf(h) => Leaf(HandleAdvance(h, count))
    case Chain(a, z) => AdvanceChain(a, z, count)
    case Take(i, limit) => AdvanceTake(i, limit, count)
  }

  /** `Chain::advance_bits` (src/buf/chain.rs:45-60). */
  function AdvanceChain(a: Buf, z: Buf, count: nat): (r: Buf)
    requires Valid(Chain(a, z)) && count <= Remaining(Chain(a, z))
    ensures Valid(r) && Stream(r) == (Stream(a) + Stream(z))[count..]
    ensures ByteAligned(a) && ByteAligned(z) && count % 8 == 0 ==> ByteAligned(r)
    decreases Chain(a, z), 0
  {
    var aRem := Remaining(a);
    if aRem != 0 && aRem >= count then
      Chain(Advance(a, count), z)
    else if aRem != 0 then
      assert (Stream(a) + Stream(z))[count..] == Stream(z)[count - aRem..];
      WholeBytesSub(count, aRem);
      Chain(Advance(a, aRem), Advance(z, count - aRem))
    else
      Chain(a, Advance(z, count))
  }

  /** `Take::advance` (src/buf/take.rs:38-42). */
  function AdvanceTake(i: Buf, limit: nat, count: nat): (r: Buf)
    requires Valid(i) && limit <= USIZE_MAX && count <= Remaining(Take(i, limit))
    ensures Valid(r) && Stream(r) == Stream(Take(i, limit))[count..]
    ensures ByteAligned(i) && limit % 8 == 0 && count % 8 == 0 ==> ByteAligned(r)
    decreases Take(i, limit), 0
  {
    WholeBytesSub(limit, count);
    var r := Take(Advance(i, count), limit - count);
    assert Stream(r) == Stream(Take(i, limit))[count..];
    r
  }

  /** `advance_bytes`: `advance(count * 8)`. */
  function AdvanceBytes(b: Buf, count: nat): (r: Buf)
    requires Valid(b) && count <= RemainingBytes(b)
    ensures Valid(r) && Stream(r) == Stream(b)[8 * count..]
  {
    Advance(b, 8 * count)
  }

  /** `chunk`: the bits the buffer can hand out contiguously, a prefix of what it holds and
      non-empty while anything remains. An implementor hands out all its remaining bits; a
      chain its first buffer's chunk while that buffer has bits left; a take cuts its inner
      chunk at the limit. */
  function Chunk(b: Buf): (r: seq<bool>)
    requires Valid(b)
    ensures |r| <= |Stream(b)| && r == Stream(b)[..|r|]
    ensures |Stream(b)| > 0 ==> |r| > 0
  {
    match b
    case Leaf(h) => HandleStream(h)
    case Chain(a, z) => if Remaining(a) > 0 then Chunk(a) else Chunk(z)
    case Take(i, limit) =>
      var ch := Chunk(i);
      ch[..Min(|ch|, limit)]
  }

  /** How many bits into its first storage byte a handle's chunk begins: bitvec's loads work
      on the storage byte by byte, so this offset shapes a load run in place. */
  function HandleHead(h: Handle): (r: nat)
    requires HandleValid(h)
    ensures r < 8
    ensures HandleAligned(h) ==> r == 0
  {
    match h
    case OfBits(x) => x.bitStart % 8
    case OfBitsMut(m) => m.bitStart % 8
    case OfSlice(s) => s.start % 8
    case OfCursor(c) => C.RemainingSlice(c).start % 8
  }

  /** The storage offset of the bits `Chunk` hands out: the handle's own, a chain's first
      part's while it has bits left, a take's inner buffer's. An aligned buffer's chunk begins
      on a byte boundary. */
  function ChunkHead(b: Buf): (r: nat)
    requires Valid(b)
    ensures r < 8
    ensures ByteAligned(b) ==> r == 0
  {
    match b
    case Leaf(h) => HandleHead(h)
    case Chain(a, z) => if Remaining(a) > 0 then ChunkHead(a) else ChunkHead(z)
    case Take(i, _) => ChunkHead(i)
  }

  /** `byte_aligned`: a chain is aligned when both parts are; a take when its inner buffer is
      and the limit is whole bytes. An aligned buffer holds a whole number of bytes. */
  predicate ByteAligned(b: Buf)
    requires Valid(b)
    ensures ByteAligned(b) ==> |Stream(b)| % 8 == 0
  {
    match b
    case Leaf(h) => HandleAligned(h)
    case Chain(a, z) =>
      WholeBytesAdd(|Stream(a)|, |Stream(z)|);
      ByteAligned(a) && ByteAligned(z)
    case Take(i, limit) => ByteAligned(i) && limit % 8 == 0
  }

  /** `chunk_bytes`: the bytes the buffer can hand out contiguously. At most
      `remaining_bytes` of them, their bits are the first bits of the stream, and there is at
      least one whenever a whole byte remains. */
  function ChunkBytes(b: Buf): (r: seq<byte>)
    requires Valid(b) && ByteAligned(b)
    ensures 8 * |r| <= |Stream(b)| && BytesToBits(r) == Stream(b)[..8 * |r|]
    ensures |Stream(b)| >= 8 ==> |r| > 0
    decreases b, 1
  {
    match b
    case Leaf(h) => HandleChunkBytes(h)
    case Chain(a, z) => ChunkBytesChain(a, z)
    case Take(i, limit) => ChunkBytesTake(i, limit)
  }

  /** `Chain::chunk_bytes` (src/buf/chain.rs:76-82): the first buffer's while it has a whole
      byte left, else the second's. */
  function ChunkBytesChain(a: Buf, z: Buf): (r: seq<byte>)
    requires Valid(a) && Valid(z) && ByteAligned(a) && ByteAligned(z)
    ensures 8 * |r| <= |Stream(a)| + |Stream(z)|
    ensures BytesToBits(r) == (Stream(a) + Stream(z))[..8 * |r|]
    ensures |Stream(a)| + |Stream(z)| >= 8 ==> |r| > 0
    decreases Chain(a, z), 0
  {
    if RemainingBytes(a) > 0 then
      var r := ChunkBytes(a);
      assert (Stream(a) + Stream(z))[..8 * |r|] == Stream(a)[..8 * |r|];
      r
    else
      assert |Stream(a)| == 0 by { NoWholeByte(|Stream(a)|); }
      assert Stream(a) + Stream(z) == Stream(z);
      ChunkBytes(z)
  }

  /** `Take::chunk_bytes` (src/buf/take.rs:54-60): the inner chunk cut at `limit / 8`. */
  function ChunkBytesTake(i: Buf, limit: nat): (r: seq<byte>)
    requires Valid(i) && ByteAligned(i) && limit <= USIZE_MAX && limit % 8 == 0
    ensures 8 * |r| <= |Stream(Take(i, limit))|
    ensures BytesToBits(r) == Stream(Take(i, limit))[..8 * |r|]
    ensures |Stream(Take(i, limit))| >= 8 ==> |r| > 0
    decreases Take(i, limit), 0
  {
    var ch := ChunkBytes(i);
    var k := Min(|ch|, limit / 8);
    BytesToBitsSlice(ch, 0, k);
    assert ch[0..k] == ch[..k];
    ch[..k]
  }

  // ---------------------------------------------------------------------------------------
  // copy_to_slice / try_copy_to_slice_bytes / try_copy_to_bit_slice

  /** `copy_to_slice`: fill a `dest` of `n` bits chunk by chunk, advancing past each. Panics
      when fewer than `n` bits remain. The result is the buffer afterwards and `dest`. */
  method CopyToSlice(b: Buf, n: nat) returns (r: Buf, dest: seq<bool>)
    requires Valid(b) && n <= Remaining(b)
    ensures Valid(r) && dest == Stream(b)[..n] && Stream(r) == Stream(b)[n..]
  {
    ghost var all := Stream(b);
    r := b;
    dest := [];
    while |dest| < n
      invariant Valid(r) && |dest| <= n <= |all|
      invariant dest == all[..|dest|] && Stream(r) == all[|dest|..]
      decreases n - |dest|
    {
      var src := Chunk(r);
      var count := Min(|src|, n - |dest|);
      CopyStep(all, dest, Stream(r), src, count);
      dest := dest + src[..count];
      r := Advance(r, count);
    }
  }

  /** One round of a chunked copy: `dest` holds the first bits of `all`, `rest` the others,
      and `src` starts `rest`; moving `count` bits of `src` keeps that so. */
  lemma CopyStep<T>(all: seq<T>, dest: seq<T>, rest: seq<T>, src: seq<T>, count: nat)
    requires |dest| <= |all| && dest == all[..|dest|] && rest == all[|dest|..]
    requires |src| <= |rest| && src == rest[..|src|] && count <= |src|
    ensures dest + src[..count] == all[..|dest| + count]
    ensures rest[count..] == all[|dest| + count..]
  {
  }

  /** `try_copy_to_slice_bytes` of each implementor: `InvalidData` unless aligned, then
      `UnexpectedEof` when fewer than `count` whole bytes remain, and otherwise `count` bytes
      copied chunk by chunk with the buffer advanced past them (eight bits per byte; the
      code's count of bits is the subject of `Bits.TryCopyToSliceBytesAsWritten`). */
  method TryCopyToSliceBytes(b: Buf, count: nat) returns (r: Result<(Buf, seq<byte>)>)
    requires Valid(b)
    ensures !ByteAligned(b) ==> r == Err(Io(InvalidData))
    ensures ByteAligned(b) && RemainingBytes(b) < count ==> r == Err(Io(UnexpectedEof))
    ensures ByteAligned(b) && count <= RemainingBytes(b) ==> r.Ok?
    ensures r.Ok? ==> |r.value.1| == count && BytesToBits(r.value.1) == Stream(b)[..8 * count]
    ensures r.Ok? ==> Valid(r.value.0) && ByteAligned(r.value.0)
    ensures r.Ok? ==> Stream(r.value.0) == Stream(b)[8 * count..]
  {
    if !ByteAligned(b) {
      return Err(Io(InvalidData));
    }
    if RemainingBytes(b) < count {
      return Err(Io(UnexpectedEof));
    }
    assert 8 * count <= |Stream(b)| && 8 * count <= USIZE_MAX;
    var buf, out := CopyBytes(b, count);
    return Ok((buf, out));
  }

  /** The copy loop of `try_copy_to_slice_bytes`, once the checks have passed: chunk by
      chunk, `count` bytes move out of the buffer. */
  method CopyBytes(b: Buf, count: nat) returns (buf: Buf, out: seq<byte>)
    requires Valid(b) && ByteAligned(b) && 8 * count <= |Stream(b)| && 8 * count <= USIZE_MAX
    ensures |out| == count && BytesToBits(out) == Stream(b)[..8 * count]
    ensures Valid(buf) && ByteAligned(buf) && Stream(buf) == Stream(b)[8 * count..]
  {
    ghost var all := Stream(b);
    buf := b;
    out := [];
    while |out| < count
      invariant Valid(buf) && ByteAligned(buf) && |out| <= count
      invariant BytesToBits(out) == all[..8 * |out|]
      invariant Stream(buf) == all[8 * |out|..]
      decreases count - |out|
    {
      ghost var rest := Stream(buf);
      var src := ChunkBytes(buf);
      var k := Min(|src|, count - |out|);
      CopyBytesStep(all, out, rest, src, k);
      DivModUnique(8 * k, 8, k, 0);
      out := out + src[..k];
      buf := Advance(buf, 8 * k);
    }
  }

  /** One round of a chunked byte copy: the bits of `out` start `all`, `rest` holds the
      others, and the bits of `src` start `rest`; moving `k` bytes of `src` keeps that so. */
  lemma CopyBytesStep(all: seq<bool>, out: seq<byte>, rest: seq<bool>, src: seq<byte>, k: nat)
    requires 8 * |out| <= |all| && BytesToBits(out) == all[..8 * |out|]
    requires rest == all[8 * |out|..]
    requires 8 * |src| <= |rest| && BytesToBits(src) == rest[..8 * |src|] && k <= |src|
    ensures BytesToBits(out + src[..k]) == all[..8 * (|out| + k)]
    ensures rest[8 * k..] == all[8 * (|out| + k)..]
  {
    BytesToBitsSlice(src, 0, k);
    assert src[0..k] == src[..k];
    BytesToBitsAppend(out, src[..k]);
  }

  /** `copy_to_slice_bytes`: `try_copy_to_slice_bytes(..).unwrap()`, so the caller must
      supply an aligned buffer with enough whole bytes. */
  method CopyToSliceBytes(b: Buf, count: nat) returns (r: Buf, dest: seq<byte>)
    requires Valid(b) && ByteAligned(b) && count <= RemainingBytes(b)
    ensures Valid(r) && |dest| == count && BytesToBits(dest) == Stream(b)[..8 * count]
    ensures Stream(r) == Stream(b)[8 * count..]
  {
    var res := TryCopyToSliceBytes(b, count);
    r, dest := res.value.0, res.value.1;
  }

  /** `try_copy_to_bit_slice`, which the extension methods call: `UnexpectedEof` when fewer
      than `n` bits remain (leaving the buffer as it was), otherwise the next `n` bits with
      the buffer advanced past them. */
  function TryCopyToBitSlice(b: Buf, n: nat): (r: Result<(Buf, seq<bool>)>)
    requires Valid(b)
    ensures Remaining(b) < n <==> r == Err(Io(UnexpectedEof))
    ensures r.Ok? ==> Valid(r.value.0) && r.value.1 == Stream(b)[..n]
    ensures r.Ok? ==> Stream(r.value.0) == Stream(b)[n..]
  {
    if Remaining(b) < n then IoErr(UnexpectedEof)
    else
        Ok((Advance(b, n), Stream(b)[..n]))
  }

  // ---------------------------------------------------------------------------------------
  // Take's limit

  /** `Take::set_limit`: the inner buffer is untouched and what a reader sees becomes the
      inner buffer's first `limit` bits. */
  function SetLimit(b: Buf, limit: nat): (r: Buf)
    requires b.Take? && Valid(b) && limit <= USIZE_MAX
    ensures Valid(r) && r.Take? && r.inner == b.inner
    ensures Stream(r) == Stream(b.inner)[..Min(|Stream(b.inner)|, limit)]
  {
    b.(limit := limit)
  }

  /** Chaining `Bits` of `1111_0000` and of `1010_1010` and copying out two bytes gives
      `0xF0, 0xAA`: whatever `CopyToSliceBytes` returns for the chain is those two bytes. */
  lemma ChainCopiesInOrder(dest: seq<byte>)
    requires var c := Chain(Leaf(OfBits(B.CopyFromBitSlice([true, true, true, true, false, false, false, false]))),
                            Leaf(OfBits(B.CopyFromBitSlice([true, false, true, false, true, false, true, false]))));
             Valid(c) && |Stream(c)| >= 16 && BytesToBits(dest) == Stream(c)[..16]
    ensures dest == [0xF0, 0xAA]
  {
    var c := Chain(Leaf(OfBits(B.CopyFromBitSlice([true, true, true, true, false, false, false, false]))),
                   Leaf(OfBits(B.CopyFromBitSlice([true, false, true, false, true, false, true, false]))));
    assert Stream(c)[..16] == [true, true, true, true, false, false, false, false]
                              + [true, false, true, false, true, false, true, false];
    F0AABits();
    BytesToBitsInjective(dest, [0xF0, 0xAA]);
  }

  /** The MSB-first bits of `0xF0, 0xAA`. */
  lemma F0AABits()
    ensures BytesToBits([0xF0, 0xAA]) == [true, true, true, true, false, false, false, false]
                                         + [true, false, true, false, true, false, true, false]
  {
    assert ByteToBits(0xF0) == [true, true, true, true, false, false, false, false] by {
      assert GetBit(0xF0, 0) && GetBit(0xF0, 1) && GetBit(0xF0, 2) && GetBit(0xF0, 3);
      assert !GetBit(0xF0, 4) && !GetBit(0xF0, 5) && !GetBit(0xF0, 6) && !GetBit(0xF0, 7);
    }
    assert ByteToBits(0xAA) == [true, false, true, false, true, false, true, false] by {
      assert GetBit(0xAA, 0) && !GetBit(0xAA, 1) && GetBit(0xAA, 2) && !GetBit(0xAA, 3);
      assert GetBit(0xAA, 4) && !GetBit(0xAA, 5) && GetBit(0xAA, 6) && !GetBit(0xAA, 7);
    }
    BytesToBitsPair(0xF0, 0xAA);
  }
}

=== FILE: bit_buf_mut.dfy ===
// The `BitBufMut` trait (src/buf/bit_buf_mut.rs) over its implementors
// (src/buf/bit_buf_mut_impls.rs) and adaptors (`Chain`, src/buf/chain.rs:89-136; `Limit`,
// src/buf/limit.rs). As for `BitBuf`, the implementors become the cases of one datatype.
// What a writer has put into a buffer is its `Log`: the bits from where the handle started
// to its current position. `Region` is the memory `chunk_mut_bits` hands out; writing into
// it and advancing over what was written appends to the log.

module BitBufMut {
  import opened BitUtil
  import opened Errors
  import opened BitSliceRef
  import M = BitsMut

  /** The implementors of `BitBufMut`. Each remembers where writing through it began
      (`origin`), so that what was written can be stated. `&mut [u8]` is a byte-aligned slice
      of its byte storage. */
  datatype Handle =
    | OfBitsMut(bitsMut: M.BitsMut, origin: nat)
    | OfByteSlice(bytes: SliceRef, origin: nat)
    | OfSlice(slice: SliceRef, origin: nat)

  /** A `BitBufMut`: an implementor, or one of the adaptors built on others. */
  datatype Buf =
    | Leaf(handle: Handle)
    | Chain(first: Buf, last: Buf)
    | Limit(inner: Buf, limit: nat)

  // ---------------------------------------------------------------------------------------
  // The implementors (src/buf/bit_buf_mut_impls.rs)

  /** Each handle is well formed; a `BitsMut` capacity is a `usize`. */
  predicate HandleValid(h: Handle) {
    match h
    case OfBitsMut(m, o) => m.Valid() && m.capacity <= USIZE_MAX && o <= m.bitLen
    case OfByteSlice(s, o) => s.Valid() && s.Aligned() && s.Len() <= USIZE_MAX && o <= s.start
    case OfSlice(s, o) => s.Valid() && s.Len() <= USIZE_MAX && o <= s.start
  }

  /** What has been written through the handle: a `BitsMut` grows its view, a slice moves its
      start past what it wrote. */
  function HandleLog(h: Handle): seq<bool>
    requires HandleValid(h)
  {
    match h
    case OfBitsMut(m, o) => m.View()[o..]
    case OfByteSlice(s, o) => s.storage[o..s.start]
    case OfSlice(s, o) => s.storage[o..s.start]
  }

  /** `remaining_mut_bits`: `usize::MAX - bit_len` for a `BitsMut`, `8 * len` for a byte
      slice, `len` for a bit slice. */
  function HandleRemaining(h: Handle): (r: nat)
    requires HandleValid(h)
    ensures r <= USIZE_MAX
    ensures h.OfByteSlice? ==> r % 8 == 0
  {
    match h
    case OfBitsMut(m, _) => USIZE_MAX - m.bitLen
    case OfByteSlice(s, _) => AlignedWholeBytes(s); s.Len()
    case OfSlice(s, _) => s.Len()
  }

  /** `byte_aligned_mut`: a `BitsMut` whose start and length are whole bytes, any byte slice,
      a bit slice whose ends fall on byte boundaries. */
  predicate HandleAligned(h: Handle)
    requires HandleValid(h)
    ensures HandleAligned(h) && !h.OfBitsMut? ==> HandleRemaining(h) % 8 == 0
  {
    match h
    case OfBitsMut(m, _) => m.ByteAligned()
    case OfByteSlice(s, _) => true
    case OfSlice(s, _) => if s.Aligned() then AlignedWholeBytes(s); true else false
  }

  /** The memory `chunk_mut_bits` hands out once the handle is prepared: a `BitsMut`'s spare
      capacity, all of a slice. Never more than `remaining_mut_bits`. */
  function HandleRegion(h: Handle): (r: seq<bool>)
    requires HandleValid(h)
    ensures |r| <= HandleRemaining(h)
    ensures !h.OfBitsMut? ==> |r| == HandleRemaining(h)
  {
    match h
    case OfBitsMut(m, _) => m.Spare()
    case OfByteSlice(s, _) => s.Bits()
    case OfSlice(s, _) => s.Bits()
  }

  /** The growth `chunk_mut_bits` makes first: a `BitsMut` whose view fills its capacity
      reserves 64 more bits (up to `usize::MAX`); other handles are unchanged. */
  function HandlePrepare(h: Handle): (r: Handle)
    requires HandleValid(h)
    ensures HandleValid(r) && HandleLog(r) == HandleLog(h)
    ensures HandleRemaining(r) == HandleRemaining(h) && HandleAligned(r) == HandleAligned(h)
    ensures r.OfByteSlice? == h.OfByteSlice?
    ensures HandleRemaining(h) > 0 ==> |HandleRegion(r)| > 0
  {
    match h
    case OfBitsMut(m, o) =>
      if m.capacity == m.bitLen then OfBitsMut(M.Reserve(m, Min(m.bitLen + 64, USIZE_MAX)), o)
      else h
    case _ => h
  }

  /** The growth the model makes before `chunk_mut_bytes`: a `BitsMut` with less than a whole
      byte of spare capacity reserves 64 more bits (up to `usize::MAX`). The code reserves only
      when the spare capacity is empty, and hands out `BytesMut::chunk_mut`, which grows the
      `BytesMut` by itself when it is full; the model hands out the whole bytes of the spare
      capacity instead (`HandleRegionBytes`). */
  function HandlePrepareBytes(h: Handle): (r: Handle)
    requires HandleValid(h)
    ensures HandleValid(r) && HandleLog(r) == HandleLog(h)
    ensures HandleRemaining(r) == HandleRemaining(h) && HandleAligned(r) == HandleAligned(h)
    ensures r.OfByteSlice? == h.OfByteSlice?
    ensures HandleRemaining(h) >= 8 ==> |HandleRegion(r)| >= 8
  {
    match h
    case OfBitsMut(m, o) =>
      if m.capacity - m.bitLen < 8 then OfBitsMut(M.Reserve(m, Min(m.bitLen + 64, USIZE_MAX)), o)
      else h
    case _ => h
  }

  /** Writing `x` at the front of the handed-out memory. Nothing written before moves. */
  function HandleWrite(h: Handle, x: seq<bool>): (r: Handle)
    requires HandleValid(h) && |x| <= |HandleRegion(h)|
    ensures HandleValid(r) && HandleLog(r) == HandleLog(h)
    ensures HandleRemaining(r) == HandleRemaining(h) && HandleAligned(r) == HandleAligned(h)
    ensures r.OfByteSlice? == h.OfByteSlice?
    ensures HandleRegion(r) == x + HandleRegion(h)[|x|..]
  {
    match h
    case OfBitsMut(m, o) => OfBitsMut(M.WriteSpare(m, x), o)
    case OfByteSlice(s, o) =>
      var w := Write(s, x);
      assert w.storage[o..w.start] == s.storage[..s.start][o..];
      OfByteSlice(w, o)
    case OfSlice(s, o) =>
      var w := Write(s, x);
      assert w.storage[o..w.start] == s.storage[..s.start][o..];
      OfSlice(w, o)
  }

  /** The bits `advance_mut_bits(count)` moves the handle over: a byte slice drops
      `bytes_needed(count)` whole bytes, every other handle exactly `count` bits. */
  function Consumed(h: Handle, count: nat): nat {
    if h.OfByteSlice? then 8 * BytesNeeded(count) else count
  }

  /** What `advance_mut_bits(count)` asserts: `count <= remaining_mut_bits`, and for a
      `BitsMut` that the grown view stays within the capacity. The code does not check that
      bound (`BitsMut.AdvanceMutAsWritten`); the model uses the corrected `BitsMut.AdvanceMut`,
      which does. */
  predicate HandleCanAdvance(h: Handle, count: nat)
    requires HandleValid(h)
  {
    match h
    case OfBitsMut(m, _) => count <= USIZE_MAX - m.bitLen && m.bitLen + count <= m.capacity
    case OfByteSlice(s, _) => count <= s.Len()
    case OfSlice(s, _) => count <= s.Len()
  }

  /** `advance_mut_bits(count)`: the handed-out memory the handle moves over joins the log.
      (src/buf/bit_buf_mut_impls.rs:27-39, 47-56, 76-79) */
  function HandleAdvance(h: Handle, count: nat): (r: Handle)
    requires HandleValid(h) && HandleCanAdvance(h, count)
    ensures Consumed(h, count) <= |HandleRegion(h)|
    ensures HandleValid(r) && r.OfByteSlice? == h.OfByteSlice?
    ensures HandleLog(r) == HandleLog(h) + HandleRegion(h)[..Consumed(h, count)]
    ensures HandleRemaining(r) == HandleRemaining(h) - Consumed(h, count)
    ensures HandleAligned(h) && count % 8 == 0 ==> HandleAligned(r)
  {
    match h
    case OfBitsMut(m, o) => AdvanceBitsMut(m, o, count)
    case OfByteSlice(s, o) => AdvanceByteSlice(s, o, count)
    case OfSlice(s, o) => AdvanceSlice(s, o, count)
  }

  function AdvanceBitsMut(m: M.BitsMut, o: nat, count: nat): (r: Handle)
    requires HandleValid(OfBitsMut(m, o)) && HandleCanAdvance(OfBitsMut(m, o), count)
    ensures r.OfBitsMut? && HandleValid(r) && count <= |m.Spare()|
    ensures HandleLog(r) == m.View()[o..] + m.Spare()[..count]
    ensures HandleRemaining(r) == USIZE_MAX - m.bitLen - count
    ensures m.ByteAligned() && count % 8 == 0 ==> HandleAligned(r)
  {
    var r := M.AdvanceMut(m, count);
    WholeBytesAdd(m.bitLen, count);
    assert r.View()[o..] == m.View()[o..] + m.Spare()[..count];
    OfBitsMut(r, o)
  }

  function AdvanceByteSlice(s: SliceRef, o: nat, count: nat): (r: Handle)
    requires HandleValid(OfByteSlice(s, o)) && count <= s.Len()
    ensures r.OfByteSlice? && HandleValid(r) && 8 * BytesNeeded(count) <= s.Len()
    ensures HandleLog(r) == s.storage[o..s.start] + s.Bits()[..8 * BytesNeeded(count)]
    ensures HandleRemaining(r) == s.Len() - 8 * BytesNeeded(count)
  {
    AlignedWholeBytes(s);
    var n := 8 * BytesNeeded(count);
    assert n <= s.Len() by { RoundUpWithin(count, s.Len()); }
    var r := Drop(s, n);
    assert r.storage[o..r.start] == s.storage[o..s.start] + s.Bits()[..n];
    OfByteSlice(r, o)
  }

  function AdvanceSlice(s: SliceRef, o: nat, count: nat): (r: Handle)
    requires HandleValid(OfSlice(s, o)) && count <= s.Len()
    ensures r.OfSlice? && HandleValid(r)
    ensures HandleLog(r) == s.storage[o..s.start] + s.Bits()[..count]
    ensures HandleRemaining(r) == s.Len() - count
    ensures s.Aligned() && count % 8 == 0 ==> HandleAligned(r)
  {
    var r := Drop(s, count);
    assert r.storage[o..r.start] == s.storage[o..s.start] + s.Bits()[..count];
    OfSlice(r, o)
  }

  /** A count of bits within a whole number of bytes rounds up to bytes within them too. */
  lemma RoundUpWithin(count: nat, len: nat)
    requires count <= len && len % 8 == 0
    ensures 8 * BytesNeeded(count) <= len
  {
    var k := len / 8;
    assert len == 8 * k;
    BytesNeededMonotone(count, len);
    BytesNeededWhole(k);
  }

  // ---------------------------------------------------------------------------------------
  // Any `BitBufMut`, adaptors included

  predicate Valid(b: Buf) {
    match b
    case Leaf(h) => HandleValid(h)
    case Chain(a, z) => Valid(a) && Valid(z)
    case Limit(i, limit) => Valid(i) && limit <= USIZE_MAX
  }

  /** What has been written through `b`: through a chain's first part, then its second. */
  function Log(b: Buf): seq<bool>
    requires Valid(b)
  {
    match b
    case Leaf(h) => HandleLog(h)
    case Chain(a, z) => Log(a) + Log(z)
    case Limit(i, _) => Log(i)
  }

  /** `remaining_mut_bits`: a chain's is the saturating sum of its parts', a limit's is
      `min(inner, limit)`. (src/buf/chain.rs:127-131, src/buf/limit.rs:55-57) */
  function RemainingMut(b: Buf): (r: nat)
    requires Valid(b)
    ensures r <= USIZE_MAX
  {
    match b
    case Leaf(h) => HandleRemaining(h)
    case Chain(a, z) => SaturatingAdd(RemainingMut(a), RemainingMut(z))
    case Limit(i, limit) => Min(RemainingMut(i), limit)
  }

  /** `remaining_mut_bytes`: the whole bytes among the remaining bits. */
  function RemainingMutBytes(b: Buf): (r: nat)
    requires Valid(b)
    ensures 8 * r <= RemainingMut(b) < 8 * r + 8
  {
    RemainingMut(b) / 8
  }

  /** `byte_aligned_mut`: both parts of a chain; a limit's inner buffer, with a limit of whole
      bytes. (src/buf/chain.rs:133-135, src/buf/limit.rs:59-61) */
  predicate ByteAlignedMut(b: Buf)
    requires Valid(b)
  {
    match b
    case Leaf(h) => HandleAligned(h)
    case Chain(a, z) => ByteAlignedMut(a) && ByteAlignedMut(z)
    case Limit(i, limit) => ByteAlignedMut(i) && limit % 8 == 0
  }

  /** How far the `BitsMut` parts of `b` are from `usize::MAX` bits: the least such room among
      them (`usize::MAX` when there are none). Only a `BitsMut` that close to the limit can
      report a bit count that is not whole bytes while being byte aligned. */
  function Headroom(b: Buf): nat
    requires Valid(b)
  {
    match b
    case Leaf(h) => if h.OfBitsMut? then USIZE_MAX - h.bitsMut.bitLen else USIZE_MAX
    case Chain(a, z) => Min(Headroom(a), Headroom(z))
    case Limit(i, _) => Headroom(i)
  }

  /** An aligned buffer with enough headroom has no room at all or at least a whole byte. */
  lemma AlignedRoom(b: Buf)
    requires Valid(b) && ByteAlignedMut(b) && Headroom(b) >= 8
    ensures RemainingMut(b) == 0 || RemainingMut(b) >= 8
  {
    match b
    case Leaf(h) =>
    case Chain(a, z) =>
      AlignedRoom(a);
      AlignedRoom(z);
    case Limit(i, _) =>
      AlignedRoom(i);
  }

  /** Whether a writer's log is the concatenation of what it wrote: a chain only writes into
      its second part once its first has no room left. */
  predicate Ordered(b: Buf)
    requires Valid(b)
  {
    match b
    case Leaf(_) => true
    case Chain(a, z) => Ordered(a) && Ordered(z) && (RemainingMut(a) > 0 ==> Log(z) == [])
    case Limit(i, _) => Ordered(i)
  }

  /** Whether `b` has no `&mut [u8]` part, whose advance rounds up to whole bytes. */
  predicate BitExact(b: Buf) {
    match b
    case Leaf(h) => !h.OfByteSlice?
    case Chain(a, z) => BitExact(a) && BitExact(z)
    case Limit(i, _) => BitExact(i)
  }

  /** Whether the memory `chunk_mut_bits` hands out belongs to a `&mut [u8]`. */
  predicate ChunkOnBytes(b: Buf)
    requires Valid(b)
  {
    match b
    case Leaf(h) => h.OfByteSlice?
    case Chain(a, z) => if RemainingMut(a) > 0 then ChunkOnBytes(a) else ChunkOnBytes(z)
    case Limit(i, _) => ChunkOnBytes(i)
  }

  /** Whether advancing over `n` bits of the handed-out memory moves exactly `n` bits. */
  predicate Exact(b: Buf, n: nat)
    requires Valid(b)
  {
    !ChunkOnBytes(b) || n % 8 == 0
  }

  /** `r` is `b` as a writer observes it: same log, room, alignment and shape. */
  predicate Alike(b: Buf, r: Buf)
    requires Valid(b)
  {
    && Valid(r) && Log(r) == Log(b) && RemainingMut(r) == RemainingMut(b)
    && ByteAlignedMut(r) == ByteAlignedMut(b) && Ordered(r) == Ordered(b)
    && BitExact(r) == BitExact(b) && Headroom(r) == Headroom(b)
    && ChunkOnBytes(r) == ChunkOnBytes(b)
  }

  /** The memory `chunk_mut_bits` hands out once `b` is prepared: a chain's first part's while
      it has room, then its second's; a limit's inner chunk cut at the limit.
      (src/buf/chain.rs:111-117, src/buf/limit.rs:41-45) */
  function Region(b: Buf): (r: seq<bool>)
    requires Valid(b)
    ensures |r| <= RemainingMut(b)
  {
    match b
    case Leaf(h) => HandleRegion(h)
    case Chain(a, z) => if RemainingMut(a) > 0 then Region(a) else Region(z)
    case Limit(i, limit) => var c := Region(i); c[..Min(|c|, limit)]
  }

  /** The growth `chunk_mut_bits` makes before handing memory out, in the part the chunk comes
      from. Nothing a writer observes changes, and a buffer with room hands out at least one
      bit, so a writing loop makes progress. */
  function Prepare(b: Buf): (r: Buf)
    requires Valid(b)
    ensures Alike(b, r)
    ensures RemainingMut(b) > 0 ==> |Region(r)| > 0
    decreases b, 1
  {
    match b
    case Leaf(h) => Leaf(HandlePrepare(h))
    case Chain(a, z) => PrepareChain(a, z)
    case Limit(i, limit) => PrepareLimit(i, limit)
  }

  function PrepareChain(a: Buf, z: Buf): (r: Buf)
    requires Valid(Chain(a, z))
    ensures Alike(Chain(a, z), r)
    ensures RemainingMut(Chain(a, z)) > 0 ==> |Region(r)| > 0
    decreases Chain(a, z), 0
  {
    if RemainingMut(a) > 0 then Chain(Prepare(a), z) else Chain(a, Prepare(z))
  }

  function PrepareLimit(i: Buf, limit: nat): (r: Buf)
    requires Valid(Limit(i, limit))
    ensures Alike(Limit(i, limit), r)
    ensures RemainingMut(Limit(i, limit)) > 0 ==> |Region(r)| > 0
    decreases Limit(i, limit), 0
  {
    Limit(Prepare(i), limit)
  }

  /** The growth `chunk_mut_bytes` makes before handing memory out. Nothing a writer observes
      changes, and an aligned buffer with a whole byte of room hands out at least a byte. */
  function PrepareBytes(b: Buf): (r: Buf)
    requires Valid(b)
    ensures Alike(b, r)
    ensures ByteAlignedMut(b) && Headroom(b) >= 8 && RemainingMut(b) >= 8 ==> |Region(r)| >= 8
    decreases b, 1
  {
    match b
    case Leaf(h) => Leaf(HandlePrepareBytes(h))
    case Chain(a, z) => PrepareBytesChain(a, z)
    case Limit(i, limit) => PrepareBytesLimit(i, limit)
  }

  function PrepareBytesChain(a: Buf, z: Buf): (r: Buf)
    requires Valid(Chain(a, z))
    ensures Alike(Chain(a, z), r)
    ensures var b := Chain(a, z);
      ByteAlignedMut(b) && Headroom(b) >= 8 && RemainingMut(b) >= 8 ==> |Region(r)| >= 8
    decreases Chain(a, z), 0
  {
    if RemainingMutBytes(a) > 0 then Chain(PrepareBytes(a), z)
    else
      assert ByteAlignedMut(a) && Headroom(a) >= 8 ==> RemainingMut(a) == 0 by {
        if ByteAlignedMut(a) && Headroom(a) >= 8 { AlignedRoom(a); }
      }
      Chain(a, PrepareBytes(z))
  }

  function PrepareBytesLimit(i: Buf, limit: nat): (r: Buf)
    requires Valid(Limit(i, limit))
    ensures Alike(Limit(i, limit), r)
    ensures var b := Limit(i, limit);
      ByteAlignedMut(b) && Headroom(b) >= 8 && RemainingMut(b) >= 8 ==> |Region(r)| >= 8
    decreases Limit(i, limit), 0
  {
    Limit(PrepareBytes(i), limit)
  }

  /** Copying `x` into the front of the handed-out memory (`dest[..count].copy_from_bitslice`).
      Nothing a writer observes changes until it advances. */
  function WriteChunk(b: Buf, x: seq<bool>): (r: Buf)
    requires Valid(b) && |x| <= |Region(b)|
    ensures Alike(b, r)
    ensures Region(r) == x + Region(b)[|x|..]
    decreases b, 1
  {
    match b
    case Leaf(h) => Leaf(HandleWrite(h, x))
    case Chain(a, z) => WriteChunkChain(a, z, x)
    case Limit(i, limit) => WriteChunkLimit(i, limit, x)
  }

  function WriteChunkChain(a: Buf, z: Buf, x: seq<bool>): (r: Buf)
    requires Valid(Chain(a, z)) && |x| <= |Region(Chain(a, z))|
    ensures Alike(Chain(a, z), r)
    ensures Region(r) == x + Region(Chain(a, z))[|x|..]
    decreases Chain(a, z), 0
  {
    if RemainingMut(a) > 0 then Chain(WriteChunk(a, x), z) else Chain(a, WriteChunk(z, x))
  }

  function WriteChunkLimit(i: Buf, limit: nat, x: seq<bool>): (r: Buf)
    requires Valid(Limit(i, limit)) && |x| <= |Region(Limit(i, limit))|
    ensures Alike(Limit(i, limit), r)
    ensures Region(r) == x + Region(Limit(i, limit))[|x|..]
    decreases Limit(i, limit), 0
  {
    var w := WriteChunk(i, x);
    var c := Region(i);
    var m := Min(|c|, limit);
    assert (x + c[|x|..])[..m] == x + c[..m][|x|..];
    Limit(w, limit)
  }

  /** What `advance_mut_bits(count)` asserts on the way down: a chain hands its first part
      what fits there and its second part the rest; a limit asserts `count <= limit`.
      (src/buf/chain.rs:94-109, src/buf/limit.rs:35-39) */
  predicate CanAdvanceMut(b: Buf, count: nat)
    requires Valid(b)
  {
    match b
    case Leaf(h) => HandleCanAdvance(h, count)
    case Chain(a, z) =>
      var aRem := RemainingMut(a);
      if aRem != 0 && aRem >= count then CanAdvanceMut(a, count)
      else if aRem != 0 then CanAdvanceMut(a, aRem) && CanAdvanceMut(z, count - aRem)
      else CanAdvanceMut(z, count)
    case Limit(i, limit) => count <= limit && CanAdvanceMut(i, count)
  }

  /** `advance_mut_bits(count)`. The log grows by at least `count` bits (more only where a
      `&mut [u8]` rounds up), and a `BitsMut` part loses no more than `count` bits of room.
      (src/buf/chain.rs:94-109, src/buf/limit.rs:35-39) */
  function AdvanceMut(b: Buf, count: nat): (r: Buf)
    requires Valid(b) && CanAdvanceMut(b, count)
    ensures Valid(r) && BitExact(r) == BitExact(b)
    ensures |Log(r)| >= |Log(b)| + count
    ensures BitExact(b) ==> |Log(r)| == |Log(b)| + count
    ensures Headroom(r) + count >= Headroom(b)
    decreases b, 1
  {
    match b
    case Leaf(h) => Leaf(HandleAdvance(h, count))
    case Chain(a, z) => AdvanceMutChain(a, z, count)
    case Limit(i, limit) => AdvanceMutLimit(i, limit, count)
  }

  function AdvanceMutChain(a: Buf, z: Buf, count: nat): (r: Buf)
    requires Valid(Chain(a, z)) && CanAdvanceMut(Chain(a, z), count)
    ensures Valid(r) && BitExact(r) == BitExact(Chain(a, z))
    ensures |Log(r)| >= |Log(Chain(a, z))| + count
    ensures BitExact(Chain(a, z)) ==> |Log(r)| == |Log(Chain(a, z))| + count
    ensures Headroom(r) + count >= Headroom(Chain(a, z))
    decreases Chain(a, z), 0
  {
    var aRem := RemainingMut(a);
    if aRem != 0 && aRem >= count then Chain(AdvanceMut(a, count), z)
    else if aRem != 0 then Chain(AdvanceMut(a, aRem), AdvanceMut(z, count - aRem))
    else Chain(a, AdvanceMut(z, count))
  }

  function AdvanceMutLimit(i: Buf, limit: nat, count: nat): (r: Buf)
    requires Valid(Limit(i, limit)) && CanAdvanceMut(Limit(i, limit), count)
    ensures Valid(r) && BitExact(r) == BitExact(Limit(i, limit))
    ensures |Log(r)| >= |Log(Limit(i, limit))| + count
    ensures BitExact(Limit(i, limit)) ==> |Log(r)| == |Log(Limit(i, limit))| + count
    ensures Headroom(r) + count >= Headroom(Limit(i, limit))
    decreases Limit(i, limit), 0
  {
    Limit(AdvanceMut(i, count), limit - count)
  }

  /** Advancing over at most the memory `chunk_mut_bits` handed out is always allowed. */
  lemma {:induction false} RegionCanAdvance(b: Buf, count: nat)
    requires Valid(b) && count <= |Region(b)|
    ensures CanAdvanceMut(b, count)
  {
    match b
    case Leaf(h) =>
    case Chain(a, z) =>
      if RemainingMut(a) > 0 { RegionCanAdvance(a, count); } else { RegionCanAdvance(z, count); }
    case Limit(i, limit) => RegionCanAdvance(i, count);
  }

  /** Advancing within the handed-out memory keeps a writer ordered and keeps its earlier log. */
  lemma {:induction false} AdvanceKeepsOrder(b: Buf, count: nat)
    requires Valid(b) && count <= |Region(b)| && Ordered(b)
    ensures CanAdvanceMut(b, count)
    ensures Ordered(AdvanceMut(b, count))
    ensures Log(AdvanceMut(b, count))[..|Log(b)|] == Log(b)
  {
    RegionCanAdvance(b, count);
    match b
    case Leaf(h) =>
    case Chain(a, z) =>
      if RemainingMut(a) > 0 {
        AdvanceKeepsOrder(a, count);
        var a' := AdvanceMut(a, count);
        assert AdvanceMut(b, count) == Chain(a', z);
        assert Log(Chain(a', z)) == Log(a');
      } else {
        AdvanceKeepsOrder(z, count);
        var z' := AdvanceMut(z, count);
        assert AdvanceMut(b, count) == Chain(a, z');
        assert (Log(a) + Log(z'))[..|Log(a) + Log(z)|] == Log(a) + Log(z);
      }
    case Limit(i, limit) => AdvanceKeepsOrder(i, count);
  }

  /** An exact advance within the handed-out memory appends exactly that memory's first
      `count` bits to an ordered writer's log. */
  lemma {:induction false} AdvanceAppends(b: Buf, count: nat)
    requires Valid(b) && count <= |Region(b)| && Ordered(b) && Exact(b, count)
    ensures CanAdvanceMut(b, count)
    ensures Log(AdvanceMut(b, count)) == Log(b) + Region(b)[..count]
  {
    RegionCanAdvance(b, count);
    match b
    case Leaf(h) =>
      if h.OfByteSlice? { BytesNeededWhole(count / 8); }
    case Chain(a, z) =>
      if RemainingMut(a) > 0 {
        AdvanceAppends(a, count);
        assert Log(z) == [];
        ChainAdvanceAppendsFirst(a, z, count);
      } else {
        AdvanceAppends(z, count);
        ChainAdvanceAppendsSecond(a, z, count);
      }
    case Limit(i, limit) =>
      AdvanceAppends(i, count);
      LimitAdvanceAppends(i, limit, count);
  }

  /** The step of `AdvanceAppends` for a chain whose first part has room. */
  lemma ChainAdvanceAppendsFirst(a: Buf, z: Buf, count: nat)
    requires Valid(Chain(a, z)) && Log(z) == [] && count <= |Region(a)| && RemainingMut(a) > 0
    requires CanAdvanceMut(a, count) && Log(AdvanceMut(a, count)) == Log(a) + Region(a)[..count]
    ensures CanAdvanceMut(Chain(a, z), count)
    ensures Log(AdvanceMut(Chain(a, z), count)) == Log(Chain(a, z)) + Region(Chain(a, z))[..count]
  {
    var a' := AdvanceMut(a, count);
    assert AdvanceMut(Chain(a, z), count) == Chain(a', z);
    calc {
      Log(Chain(a', z));
      Log(a') + Log(z);
      { assert Log(a') + [] == Log(a'); }
      Log(a) + Region(a)[..count];
      { assert Log(Chain(a, z)) == Log(a) + [] == Log(a); }
      Log(Chain(a, z)) + Region(Chain(a, z))[..count];
    }
  }

  /** The step of `AdvanceAppends` for a chain whose first part is full. */
  lemma ChainAdvanceAppendsSecond(a: Buf, z: Buf, count: nat)
    requires Valid(Chain(a, z)) && count <= |Region(z)| && RemainingMut(a) == 0
    requires CanAdvanceMut(Chain(a, z), count) && CanAdvanceMut(z, count)
    requires Log(AdvanceMut(z, count)) == Log(z) + Region(z)[..count]
    ensures Log(AdvanceMut(Chain(a, z), count)) == Log(Chain(a, z)) + Region(Chain(a, z))[..count]
  {
    var z' := AdvanceMut(z, count);
    assert AdvanceMutChain(a, z, count) == Chain(a, z');
    assert Region(Chain(a, z)) == Region(z);
  }

  /** The step of `AdvanceAppends` for a limit. */
  lemma LimitAdvanceAppends(i: Buf, limit: nat, count: nat)
    requires Valid(Limit(i, limit)) && count <= |Region(Limit(i, limit))|
    requires CanAdvanceMut(Limit(i, limit), count) && CanAdvanceMut(i, count)
    requires Log(AdvanceMut(i, count)) == Log(i) + Region(i)[..count]
    ensures Log(AdvanceMut(Limit(i, limit), count)) == Log(Limit(i, limit)) + Region(Limit(i, limit))[..count]
  {
    var c := Region(i);
    assert c[..Min(|c|, limit)][..count] == c[..count];
    assert Log(AdvanceMut(Limit(i, limit), count)) == Log(AdvanceMut(i, count));
  }

  /** An exact advance, or one over all the handed-out memory, shrinks the room by no more
      than `count` bits. */
  lemma {:induction false} AdvanceRoom(b: Buf, count: nat)
    requires Valid(b) && count <= |Region(b)| && (Exact(b, count) || count == |Region(b)|)
    ensures CanAdvanceMut(b, count)
    ensures RemainingMut(AdvanceMut(b, count)) + count >= RemainingMut(b)
  {
    RegionCanAdvance(b, count);
    match b
    case Leaf(h) =>
      if h.OfByteSlice? { BytesNeededWhole(count / 8); }
    case Chain(a, z) =>
      if RemainingMut(a) > 0 {
        AdvanceRoom(a, count);
        assert AdvanceMut(b, count) == Chain(AdvanceMut(a, count), z);
      } else {
        AdvanceRoom(z, count);
        assert AdvanceMut(b, count) == Chain(a, AdvanceMut(z, count));
      }
    case Limit(i, limit) =>
      if Exact(i, count) || count == |Region(i)| { AdvanceRoom(i, count); }
  }

  /** Advancing an aligned writer by whole bytes within the handed-out memory keeps it
      aligned. */
  lemma {:induction false} AdvanceKeepsAligned(b: Buf, count: nat)
    requires Valid(b) && count <= |Region(b)| && ByteAlignedMut(b) && count % 8 == 0
    ensures CanAdvanceMut(b, count)
    ensures ByteAlignedMut(AdvanceMut(b, count))
  {
    RegionCanAdvance(b, count);
    match b
    case Leaf(h) =>
    case Chain(a, z) =>
      if RemainingMut(a) > 0 {
        AdvanceKeepsAligned(a, count);
        assert AdvanceMut(b, count) == Chain(AdvanceMut(a, count), z);
      } else {
        AdvanceKeepsAligned(z, count);
        assert AdvanceMut(b, count) == Chain(a, AdvanceMut(z, count));
      }
    case Limit(i, limit) => AdvanceKeepsAligned(i, count);
  }

  /** The memory `chunk_mut_bytes` hands out once `b` is prepared, as bytes: the whole bytes of
      a `BitsMut`'s spare capacity, all of a byte slice, the body of an aligned bit slice; a
      chain's first part while it has a whole byte of room, then its second's; a limit's inner
      chunk cut at `limit / 8` bytes. With enough headroom these bytes are the whole bytes at
      the front of `Region`. (src/buf/chain.rs:119-125, src/buf/limit.rs:47-53,
      src/buf/bit_buf_mut_impls.rs:62-64, 85-91) */
  function RegionBytes(b: Buf): (r: seq<byte>)
    requires Valid(b) && ByteAlignedMut(b)
    ensures Headroom(b) >= 8 ==> |r| == |Region(b)| / 8 && BytesToBits(r) == Region(b)[..8 * |r|]
    decreases b, 1
  {
    match b
    case Leaf(h) => HandleRegionBytes(h)
    case Chain(a, z) => RegionBytesChain(a, z)
    case Limit(i, limit) => RegionBytesLimit(i, limit)
  }

  /** An aligned implementor's byte chunk: the body of a slice; for a `BitsMut` the whole bytes
      of its spare capacity, which stand in for the code's `BytesMut::chunk_mut`, the spare
      bytes after the `BytesMut`'s length. */
  function HandleRegionBytes(h: Handle): (r: seq<byte>)
    requires HandleValid(h) && HandleAligned(h)
    ensures |r| == |HandleRegion(h)| / 8 && BytesToBits(r) == HandleRegion(h)[..8 * |r|]
  {
    match h
    case OfBitsMut(m, _) =>
      var spare := m.Spare();
      var k := |spare| / 8;
      BytesRoundTrip([], spare[..8 * k]);
      BitsToBytes(spare[..8 * k])
    case OfByteSlice(s, _) => Body(s)
    case OfSlice(s, _) => Body(s)
  }

  function RegionBytesChain(a: Buf, z: Buf): (r: seq<byte>)
    requires Valid(Chain(a, z)) && ByteAlignedMut(Chain(a, z))
    ensures var b := Chain(a, z);
      Headroom(b) >= 8 ==> |r| == |Region(b)| / 8 && BytesToBits(r) == Region(b)[..8 * |r|]
    decreases Chain(a, z), 0
  {
    assert Headroom(Chain(a, z)) >= 8 ==> RemainingMut(a) == 0 || RemainingMut(a) >= 8 by {
      if Headroom(Chain(a, z)) >= 8 { AlignedRoom(a); }
    }
    if RemainingMutBytes(a) > 0 then RegionBytes(a) else RegionBytes(z)
  }

  function RegionBytesLimit(i: Buf, limit: nat): (r: seq<byte>)
    requires Valid(Limit(i, limit)) && ByteAlignedMut(Limit(i, limit))
    ensures var b := Limit(i, limit);
      Headroom(b) >= 8 ==> |r| == |Region(b)| / 8 && BytesToBits(r) == Region(b)[..8 * |r|]
    decreases Limit(i, limit), 0
  {
    var c := RegionBytes(i);
    var k := Min(|c|, limit / 8);
    BytesToBitsSlice(c, 0, k);
    assert c[0..k] == c[..k];
    c[..k]
  }

  /** `chunk_mut_bits`: the memory handed out after the growth it makes. Never more than the
      room, and some whenever there is room. */
  function ChunkMut(b: Buf): (r: seq<bool>)
    requires Valid(b)
    ensures |r| <= RemainingMut(b) && (RemainingMut(b) > 0 ==> |r| > 0)
    ensures |r| == ChunkLen(b)
  {
    ChunkLenIsChunk(b);
    Region(Prepare(b))
  }

  /** The length of what `chunk_mut_bits` hands out, read off the buffer's shape: a handle's
      prepared memory, a chain's first part's while it has room and then its second's, a
      limit's inner length cut at the limit. */
  function ChunkLen(b: Buf): nat
    requires Valid(b)
  {
    match b
    case Leaf(h) => |HandleRegion(HandlePrepare(h))|
    case Chain(a, z) => if RemainingMut(a) > 0 then ChunkLen(a) else ChunkLen(z)
    case Limit(i, limit) => Min(ChunkLen(i), limit)
  }

  lemma {:induction false} ChunkLenIsChunk(b: Buf)
    requires Valid(b)
    ensures |Region(Prepare(b))| == ChunkLen(b)
  {
    match b
    case Leaf(_) =>
    case Chain(a, z) => if RemainingMut(a) > 0 { ChunkLenIsChunk(a); } else { ChunkLenIsChunk(z); }
    case Limit(i, _) => ChunkLenIsChunk(i);
  }

  /** `chunk_mut_bytes`, which the caller must only use on an aligned buffer: with enough
      headroom, the whole bytes at the front of the memory handed out, and at least one when a
      whole byte of room remains. */
  function ChunkMutBytes(b: Buf): (r: seq<byte>)
    requires Valid(b) && ByteAlignedMut(b)
    ensures Headroom(b) >= 8 ==> 8 * |r| <= |Region(PrepareBytes(b))| <= RemainingMut(b)
    ensures Headroom(b) >= 8 ==> BytesToBits(r) == Region(PrepareBytes(b))[..8 * |r|]
    ensures Headroom(b) >= 8 && RemainingMut(b) >= 8 ==> |r| > 0
  {
    RegionBytes(PrepareBytes(b))
  }

  /** A buffer with no `&mut [u8]` part advances exactly. */
  lemma {:induction false} BitExactIsExact(b: Buf, n: nat)
    requires Valid(b) && BitExact(b)
    ensures Exact(b, n)
  {
    match b
    case Leaf(_) =>
    case Chain(a, z) => BitExactIsExact(a, n); BitExactIsExact(z, n);
    case Limit(i, _) => BitExactIsExact(i, n);
  }

  /** `advance_mut_bytes(count)`: `advance_mut_bits(8 * count)`; the multiplication must not
      overflow. */
  function AdvanceMutBytes(b: Buf, count: nat): (r: Buf)
    requires Valid(b) && 8 * count <= USIZE_MAX && CanAdvanceMut(b, 8 * count)
    ensures Valid(r) && |Log(r)| >= |Log(b)| + 8 * count
  {
    AdvanceMut(b, 8 * count)
  }

  /** One round of a write: prepare, copy `x` into the front of the memory handed out, and
      advance over it. */
  function PutChunk(b: Buf, x: seq<bool>): (r: Buf)
    requires Valid(b) && |x| <= ChunkLen(b)
    ensures Valid(r) && BitExact(r) == BitExact(b)
    ensures Headroom(r) + |x| >= Headroom(b)
  {
    assert |x| <= |ChunkMut(b)|;
    var w := WriteChunk(Prepare(b), x);
    RegionCanAdvance(w, |x|);
    AdvanceMut(w, |x|)
  }

  /** A round of writing keeps the earlier log and lengthens it by at least `x`, by exactly
      `x` without a `&mut [u8]` part. */
  lemma PutChunkKeepsLog(b: Buf, x: seq<bool>)
    requires Valid(b) && |x| <= ChunkLen(b)
    ensures |Log(PutChunk(b, x))| >= |Log(b)| + |x|
    ensures BitExact(b) ==> |Log(PutChunk(b, x))| == |Log(b)| + |x|
    ensures Ordered(b) ==> Ordered(PutChunk(b, x)) && Log(PutChunk(b, x))[..|Log(b)|] == Log(b)
  {
    assert |x| <= |ChunkMut(b)|;
    var w := WriteChunk(Prepare(b), x);
    if Ordered(b) { AdvanceKeepsOrder(w, |x|); }
  }

  /** An exact round of writing appends exactly `x` to an ordered writer's log. */
  lemma PutChunkAppends(b: Buf, x: seq<bool>)
    requires Valid(b) && |x| <= ChunkLen(b) && Ordered(b) && Exact(b, |x|)
    ensures Ordered(PutChunk(b, x)) && Log(PutChunk(b, x)) == Log(b) + x
  {
    assert |x| <= |ChunkMut(b)|;
    var w := WriteChunk(Prepare(b), x);
    AdvanceKeepsOrder(w, |x|);
    AdvanceAppends(w, |x|);
  }

  /** An exact round of writing, or one that fills the chunk, uses no more than `|x|` bits of
      room. */
  lemma PutChunkRoom(b: Buf, x: seq<bool>)
    requires Valid(b) && |x| <= ChunkLen(b) && (Exact(b, |x|) || |x| == ChunkLen(b))
    ensures RemainingMut(PutChunk(b, x)) + |x| >= RemainingMut(b)
  {
    assert |x| <= |ChunkMut(b)|;
    AdvanceRoom(WriteChunk(Prepare(b), x), |x|);
  }

  /** A round of writing whole bytes keeps an aligned writer aligned. */
  lemma PutChunkKeepsAligned(b: Buf, x: seq<bool>)
    requires Valid(b) && |x| <= ChunkLen(b) && ByteAlignedMut(b) && |x| % 8 == 0
    ensures ByteAlignedMut(PutChunk(b, x))
  {
    assert |x| <= |ChunkMut(b)|;
    AdvanceKeepsAligned(WriteChunk(Prepare(b), x), |x|);
  }

  // ---------------------------------------------------------------------------------------
  // Writing slices (src/buf/bit_buf_mut.rs:68-128)

  /** The loop of `try_put_bit_slice`: write as much of `src` as the next chunk takes,
      advance over it, and go on with the rest. */
  function PutAll(w: Buf, src: seq<bool>): (r: Buf)
    requires Valid(w) && |src| <= RemainingMut(w)
    ensures Valid(r) && BitExact(r) == BitExact(w)
    decreases |src|
  {
    if |src| == 0 then w
    else
      var count := Min(|src|, |ChunkMut(w)|);
      var x := src[..count];
      assert |src[count..]| <= RemainingMut(PutChunk(w, x)) by {
        if count < |src| { PutChunkRoom(w, x); }
      }
      PutAll(PutChunk(w, x), src[count..])
  }

  /** A prefix of a prefix is a prefix. */
  lemma PrefixOfPrefix<T>(a: seq<T>, b: seq<T>, c: seq<T>)
    requires |a| <= |b| <= |c| && c[..|b|] == b && b[..|a|] == a
    ensures c[..|a|] == a
  {
    assert c[..|a|] == c[..|b|][..|a|];
  }

  /** Splitting `s` at `k` and appending both halves appends `s`. */
  lemma AppendSplit<T>(l: seq<T>, s: seq<T>, k: nat)
    requires k <= |s|
    ensures l + s[..k] + s[k..] == l + s
  {
    assert s[..k] + s[k..] == s;
  }

  /** Writing `src` never rewrites the log, and lengthens it by at least `|src|`. */
  lemma {:induction false} PutAllKeepsLog(w: Buf, src: seq<bool>)
    requires Valid(w) && |src| <= RemainingMut(w)
    ensures |Log(PutAll(w, src))| >= |Log(w)| + |src|
    ensures Ordered(w) ==> Ordered(PutAll(w, src)) && Log(PutAll(w, src))[..|Log(w)|] == Log(w)
    decreases |src|
  {
    if |src| > 0 {
      var count := Min(|src|, |ChunkMut(w)|);
      var w' := PutChunk(w, src[..count]);
      PutChunkKeepsLog(w, src[..count]);
      if count < |src| { PutChunkRoom(w, src[..count]); }
      PutAllKeepsLog(w', src[count..]);
      if Ordered(w) {
        PrefixOfPrefix(Log(w), Log(w'), Log(PutAll(w', src[count..])));
      }
    }
  }

  /** Without a `&mut [u8]` part, writing `src` advances by exactly `|src|` bits and uses no
      more than `|src|` bits of room. */
  lemma {:induction false} PutAllExactLength(w: Buf, src: seq<bool>)
    requires Valid(w) && |src| <= RemainingMut(w) && BitExact(w)
    ensures |Log(PutAll(w, src))| == |Log(w)| + |src|
    ensures RemainingMut(PutAll(w, src)) + |src| >= RemainingMut(w)
    decreases |src|
  {
    if |src| > 0 {
      var count := Min(|src|, |ChunkMut(w)|);
      BitExactIsExact(w, count);
      PutChunkKeepsLog(w, src[..count]);
      PutChunkRoom(w, src[..count]);
      PutAllExactLength(PutChunk(w, src[..count]), src[count..]);
    }
  }

  /** Without a `&mut [u8]` part, an ordered writer's log gains exactly `src`. */
  lemma {:induction false} PutAllAppends(w: Buf, src: seq<bool>)
    requires Valid(w) && |src| <= RemainingMut(w) && BitExact(w) && Ordered(w)
    ensures Log(PutAll(w, src)) == Log(w) + src
    decreases |src|
  {
    if |src| > 0 {
      var count := Min(|src|, |ChunkMut(w)|);
      BitExactIsExact(w, count);
      PutChunkAppends(w, src[..count]);
      PutChunkRoom(w, src[..count]);
      PutAllAppends(PutChunk(w, src[..count]), src[count..]);
      AppendSplit(Log(w), src, count);
    }
  }

  /** `try_put_bit_slice`: `UnexpectedEof` when the room is less than `src`, otherwise `src`
      written chunk by chunk (the loop is `PutAll`). The writer's earlier log is kept; without
      a `&mut [u8]` part it advances by exactly `src`, and an ordered writer's log gains
      exactly `src`. */
  function TryPutBitSlice(b: Buf, src: seq<bool>): (r: Result<Buf>)
    requires Valid(b)
    ensures RemainingMut(b) < |src| <==> r == Err(Io(UnexpectedEof))
    ensures r.Ok? <==> |src| <= RemainingMut(b)
    ensures r.Ok? ==> Valid(r.value) && |Log(r.value)| >= |Log(b)| + |src|
    ensures r.Ok? ==> BitExact(r.value) == BitExact(b)
    ensures r.Ok? && Ordered(b) ==> Ordered(r.value) && Log(r.value)[..|Log(b)|] == Log(b)
    ensures r.Ok? && BitExact(b) ==> |Log(r.value)| == |Log(b)| + |src|
    ensures r.Ok? && BitExact(b) ==> RemainingMut(r.value) + |src| >= RemainingMut(b)
    ensures r.Ok? && BitExact(b) && Ordered(b) ==> Log(r.value) == Log(b) + src
  {
    if RemainingMut(b) < |src| then IoErr(UnexpectedEof)
    else
      var w := PutAll(b, src);
      PutAllKeepsLog(b, src);
      assert BitExact(b) ==> |Log(w)| == |Log(b)| + |src| && RemainingMut(w) + |src| >= RemainingMut(b) by {
        if BitExact(b) { PutAllExactLength(b, src); }
      }
      assert BitExact(b) && Ordered(b) ==> Log(w) == Log(b) + src by {
        if BitExact(b) && Ordered(b) { PutAllAppends(b, src); }
      }
      Ok(w)
  }

  /** `put_bit_slice`: `try_put_bit_slice(..).unwrap()`, so the room must hold `src`. */
  function PutBitSlice(b: Buf, src: seq<bool>): (r: Buf)
    requires Valid(b) && |src| <= RemainingMut(b)
    ensures Valid(r) && |Log(r)| >= |Log(b)| + |src|
    ensures Ordered(b) ==> Ordered(r) && Log(r)[..|Log(b)|] == Log(b)
    ensures BitExact(b) ==> BitExact(r) && RemainingMut(r) + |src| >= RemainingMut(b)
    ensures Ordered(b) && BitExact(b) ==> Log(r) == Log(b) + src
  {
    TryPutBitSlice(b, src).value
  }

  /** One round of `try_put_slice_bytes`: copy `x` into the front of what `chunk_mut_bytes`
      hands out and `advance_mut_bytes` over it. Whole bytes advance exactly, so the room
      shrinks by no more than their bits and the writer stays aligned. */
  function PutBytes(b: Buf, x: seq<byte>): (r: Buf)
    requires Valid(b) && ByteAlignedMut(b) && Headroom(b) >= 8 && |x| <= |ChunkMutBytes(b)|
    ensures Valid(r) && ByteAlignedMut(r) && Headroom(r) + 8 * |x| >= Headroom(b)
    ensures RemainingMut(r) + 8 * |x| >= RemainingMut(b)
  {
    var bits := BytesToBits(x);
    var w := WriteChunk(PrepareBytes(b), bits);
    DivModUnique(|bits|, 8, |x|, 0);
    RegionCanAdvance(w, |bits|);
    AdvanceRoom(w, |bits|);
    AdvanceKeepsAligned(w, |bits|);
    AdvanceMutBytes(w, |x|)
  }

  /** A round of writing bytes appends exactly their bits to an ordered writer's log. */
  lemma PutBytesAppends(b: Buf, x: seq<byte>)
    requires Valid(b) && ByteAlignedMut(b) && Headroom(b) >= 8 && |x| <= |ChunkMutBytes(b)|
    requires Ordered(b)
    ensures Ordered(PutBytes(b, x)) && Log(PutBytes(b, x)) == Log(b) + BytesToBits(x)
  {
    var bits := BytesToBits(x);
    var w := WriteChunk(PrepareBytes(b), bits);
    DivModUnique(|bits|, 8, |x|, 0);
    assert Region(w)[..|bits|] == bits;
    AdvanceKeepsOrder(w, |bits|);
    AdvanceAppends(w, |bits|);
  }

  /** The loop of `try_put_slice_bytes`: write as many bytes of `src` as the next byte chunk
      takes, advance over them, and go on with the rest. */
  function PutAllBytes(w: Buf, src: seq<byte>): (r: Buf)
    requires Valid(w) && ByteAlignedMut(w)
    requires 8 * |src| <= RemainingMut(w) && 8 * |src| + 8 <= Headroom(w)
    ensures Valid(r) && ByteAlignedMut(r)
    ensures RemainingMut(r) + 8 * |src| >= RemainingMut(w)
    decreases |src|
  {
    if |src| == 0 then w
    else
      var count := Min(|src|, |ChunkMutBytes(w)|);
      PutAllBytes(PutBytes(w, src[..count]), src[count..])
  }

  /** Writing whole bytes appends exactly their bits to an ordered writer's log. (The
      recursive predicates are compared with `true` so that the recursive call checks each
      of them as one fact instead of unfolding it case by case.) */
  lemma {:induction false} PutAllBytesAppends(w: Buf, src: seq<byte>)
    requires Valid(w) == true && ByteAlignedMut(w) == true
    requires 8 * |src| <= RemainingMut(w) && 8 * |src| + 8 <= Headroom(w) && Ordered(w) == true
    ensures Ordered(PutAllBytes(w, src))
    ensures Log(PutAllBytes(w, src)) == Log(w) + BytesToBits(src)
    decreases |src|
  {
    if |src| > 0 {
      var count := Min(|src|, |ChunkMutBytes(w)|);
      var x, rest := src[..count], src[count..];
      assert x + rest == src;
      BytesToBitsAppend(x, rest);
      assert 8 * |rest| == 8 * |src| - 8 * count;
      PutBytesAppends(w, x);
      PutAllBytesAppends(PutBytes(w, x), rest);
    }
  }

  /** `try_put_slice_bytes`: `InvalidData` unless the buffer is aligned, then `UnexpectedEof`
      when fewer than `src.len()` whole bytes of room remain, and otherwise the bytes written
      chunk by chunk (the loop is `PutAllBytes`). Whole bytes always advance exactly, so an
      ordered writer's log gains exactly the bits of `src`, whatever its parts. */
  function TryPutSliceBytes(b: Buf, src: seq<byte>): (r: Result<Buf>)
    requires Valid(b) && 8 * |src| + 8 <= Headroom(b)
    ensures !ByteAlignedMut(b) <==> r == Err(Io(InvalidData))
    ensures ByteAlignedMut(b) && RemainingMutBytes(b) < |src| <==> r == Err(Io(UnexpectedEof))
    ensures r.Ok? ==> Valid(r.value) && ByteAlignedMut(r.value)
    ensures r.Ok? ==> RemainingMut(r.value) + 8 * |src| >= RemainingMut(b)
    ensures r.Ok? && Ordered(b) ==> Ordered(r.value) && Log(r.value) == Log(b) + BytesToBits(src)
  {
    if !ByteAlignedMut(b) then IoErr(InvalidData)
    else if RemainingMutBytes(b) < |src| then IoErr(UnexpectedEof)
    else
      var w := PutAllBytes(b, src);
      assert Ordered(b) ==> Ordered(w) && Log(w) == Log(b) + BytesToBits(src) by {
        if Ordered(b) { PutAllBytesAppends(b, src); }
      }
      Ok(w)
  }

  // ---------------------------------------------------------------------------------------
  // Making writers (src/buf/bit_buf_mut_impls.rs, src/buf/limit.rs:8-32)

  /** A `BitsMut` as a writer: nothing written yet, room up to `usize::MAX` bits, aligned
      exactly when the view is. (src/buf/bit_buf_mut_impls.rs:7-10, 41-43) */
  function WriterOfBitsMut(m: M.BitsMut): (r: Buf)
    requires m.Valid() && m.capacity <= USIZE_MAX
    ensures Valid(r) && Log(r) == [] && Ordered(r) && BitExact(r)
    ensures RemainingMut(r) == USIZE_MAX - |m.View()|
    ensures ByteAlignedMut(r) <==> m.ByteAligned()
  {
    Leaf(OfBitsMut(m, m.bitLen))
  }

  /** `&mut [u8]` as a writer: nothing written yet, room for eight bits per byte, always
      aligned, and the memory it hands out is the bytes' bits. (src/buf/bit_buf_mut_impls.rs:58-72) */
  function WriterOfBytes(bytes: seq<byte>): (r: Buf)
    requires 8 * |bytes| <= USIZE_MAX
    ensures Valid(r) && Log(r) == [] && Ordered(r) && ByteAlignedMut(r) && !BitExact(r)
    ensures RemainingMut(r) == 8 * |bytes| && ChunkMut(r) == BytesToBits(bytes)
  {
    Leaf(OfByteSlice(OfBytes(bytes), 0))
  }

  /** `&mut BitSlice` as a writer: nothing written yet, room for exactly its bits, aligned
      exactly when both its ends are on byte boundaries. (src/buf/bit_buf_mut_impls.rs:75-106) */
  function WriterOfBitSlice(s: SliceRef): (r: Buf)
    requires s.Valid() && s.Len() <= USIZE_MAX
    ensures Valid(r) && Log(r) == [] && Ordered(r) && BitExact(r)
    ensures RemainingMut(r) == s.Len() && ChunkMut(r) == s.Bits()
    ensures ByteAlignedMut(r) <==> s.Aligned()
  {
    Leaf(OfSlice(s, s.start))
  }

  /** `Limit::new`: the same writer with its room cut to `limit` bits; aligned when the inner
      writer is and the limit is whole bytes. (src/buf/limit.rs:9-11, 55-61) */
  function NewLimit(b: Buf, limit: nat): (r: Buf)
    requires Valid(b) && limit <= USIZE_MAX
    ensures Valid(r) && Log(r) == Log(b) && RemainingMut(r) <= limit
    ensures RemainingMut(r) == RemainingMut(b) || RemainingMut(r) == limit
    ensures ByteAlignedMut(r) <==> ByteAlignedMut(b) && limit % 8 == 0
  {
    Limit(b, limit)
  }

  /** `Limit::set_limit`: the inner writer is untouched, so nothing written is lost; only the
      cut on its room moves. (src/buf/limit.rs:25-31) */
  function SetLimit(b: Buf, limit: nat): (r: Buf)
    requires b.Limit? && Valid(b) && limit <= USIZE_MAX
    ensures Valid(r) && r.Limit? && r.inner == b.inner && r.limit == limit
    ensures Log(r) == Log(b) && RemainingMut(r) == Min(RemainingMut(b.inner), limit)
  {
    b.(limit := limit)
  }

  /** Ten zero bytes limited to two bytes have two bytes of room; limited to 16 bits, 16 bits. */
  lemma LimitTenBytes()
    ensures var data := WriterOfBytes(seq(10, _ => 0));
            RemainingMutBytes(NewLimit(data, 8 * 2)) == 2 && RemainingMut(NewLimit(data, 16)) == 16
  {
    var data := WriterOfBytes(seq(10, _ => 0));
    assert RemainingMut(data) == 80;
  }

  // ---------------------------------------------------------------------------------------
  // Partial bytes written into `&mut [u8]`

  /** One put of at most a byte into `&mut [u8]`: the log gains what was put and the rest of
      that byte, and the writer moves on to the next byte. */
  lemma ByteSlicePutWithinByte(s: SliceRef, o: nat, x: seq<bool>)
    requires HandleValid(OfByteSlice(s, o)) && 0 < |x| <= 8 <= s.Len()
    ensures |x| <= |ChunkMut(Leaf(OfByteSlice(s, o)))|
    ensures var b := Leaf(OfByteSlice(s, o));
            var r := PutChunk(b, x);
            r.Leaf? && r.handle.OfByteSlice? && Valid(r)
            && Log(r) == Log(b) + (x + s.Bits()[|x|..8]) && Region(r) == s.Bits()[8..]
  {
    assert BytesNeeded(|x|) == 1;
    var w := HandleWrite(OfByteSlice(s, o), x);
    assert HandleRegion(w)[..8] == x + s.Bits()[|x|..8];
  }

  /** Four bits and then four more put into two zero bytes: the first advance rounds up to a
      whole byte, so the second four bits land in the second byte. The writer's log holds
      `0xF0, 0xF0`, sixteen bits for eight put. */
  lemma ByteSliceRoundsUpPartialPuts(bytes: seq<byte>, x: seq<bool>)
    requires bytes == [0, 0] && x == [true, true, true, true]
    ensures var w := WriterOfBytes(bytes);
            |x| <= |ChunkMut(w)| && |x| <= |ChunkMut(PutChunk(w, x))|
            && Log(PutChunk(PutChunk(w, x), x)) == BytesToBits([0xF0, 0xF0])
  {
    var w := WriterOfBytes(bytes);
    var zeros := [false, false, false, false];
    assert ByteToBits(0) == zeros + zeros;
    assert ByteToBits(0xF0) == x + zeros by {
      assert GetBit(0xF0, 0) && GetBit(0xF0, 1) && GetBit(0xF0, 2) && GetBit(0xF0, 3);
      assert !GetBit(0xF0, 4) && !GetBit(0xF0, 5) && !GetBit(0xF0, 6) && !GetBit(0xF0, 7);
    }
    BytesToBitsPair(0, 0);
    BytesToBitsPair(0xF0, 0xF0);
    assert Region(w) == (zeros + zeros) + (zeros + zeros);
    ByteSlicePutWithinByte(OfBytes(bytes), 0, x);
    var w1 := PutChunk(w, x);
    assert Region(w1) == zeros + zeros;
    ByteSlicePutWithinByte(w1.handle.bytes, 0, x);
  }

  /** The same bytes written through their bit view: what is put twice lands packed, one
      bit after the other, whatever the lengths. */
  lemma BitViewPacksPartialPuts(bytes: seq<byte>, x: seq<bool>, y: seq<bool>)
    requires 8 * |bytes| <= USIZE_MAX && |x| + |y| <= 8 * |bytes|
    ensures var w := WriterOfBitSlice(OfBytes(bytes));
            |x| <= RemainingMut(w) && |y| <= RemainingMut(PutBitSlice(w, x))
            && Log(PutBitSlice(PutBitSlice(w, x), y)) == x + y
  {
    var w := WriterOfBitSlice(OfBytes(bytes));
    var w1 := PutBitSlice(w, x);
    assert Log(w1) == x;
  }
}

=== FILE: bit_cursor.dfy ===
// `BitCursor<T>` (src/bit_cursor.rs): a bit position over an inner bit slice, with `Seek`,
// bit reads and byte-level `Read`/`Write`; and its `BitBuf` implementation
// (src/buf/bit_buf_impls.rs:237-314). The position is a `u64`.

module BitCursor {
  import opened BitUtil
  import opened Errors
  import opened BitSliceRef

  /** The inner buffer is a `BitVec`, whose length fits a `u64`; the position is any `u64`. */
  datatype Cursor = Cursor(inner: SliceRef, pos: nat)
  {
    predicate Valid() {
      inner.Valid() && inner.Len() <= U64_MAX && pos <= U64_MAX
    }
  }

  /** `new`: the position starts at 0 whatever the inner buffer holds. */
  function New(inner: SliceRef): (c: Cursor)
    requires inner.Valid() && inner.Len() <= U64_MAX
    ensures c.Valid() && c.pos == 0 && c.inner == inner
  {
    Cursor(inner, 0)
  }

  /** `set_position`: any `u64`, with no bounds check against the inner length. */
  function SetPosition(c: Cursor, pos: nat): (r: Cursor)
    requires c.Valid() && pos <= U64_MAX
    ensures r.Valid() && r.pos == pos && r.inner == c.inner
  {
    c.(pos := pos)
  }

  /** `remaining_slice`: the inner bits from `min(pos, len)` on. */
  function RemainingSlice(c: Cursor): (s: SliceRef)
    requires c.Valid()
    ensures s.Valid() && s.storage == c.inner.storage && s.end == c.inner.end
    ensures s.Bits() == c.inner.Bits()[Min(c.pos, c.inner.Len())..]
  {
    Drop(c.inner, Min(c.pos, c.inner.Len()))
  }

  /** `is_empty` as the code is written: the position is compared with the length of the
      REMAINING slice rather than of the whole inner slice. */
  predicate IsEmptyAsWritten(c: Cursor)
    requires c.Valid()
  {
    c.pos >= RemainingSlice(c).Len()
  }

  /** Halfway through an 8-bit buffer the as-written `is_empty` already reports empty while
      four bits remain. */
  lemma IsEmptyAsWrittenTooEarly()
    ensures var c := Cursor(OfBytes([0xF0]), 4);
            c.Valid() && IsEmptyAsWritten(c) && |RemainingSlice(c).Bits()| == 4
  {
  }

  /** `is_empty` comparing the position with the inner length: the cursor is empty exactly
      when no bits remain. */
  predicate IsEmpty(c: Cursor)
    requires c.Valid()
    ensures IsEmpty(c) <==> |RemainingSlice(c).Bits()| == 0
  {
    c.pos >= c.inner.Len()
  }

  // ---------------------------------------------------------------------------------------
  // Seek (src/bit_cursor.rs:71-96)

  /** The range of the `i64` offsets of `SeekFrom::End` and `SeekFrom::Current`. */
  const I64_MIN: int := -0x8000_0000_0000_0000
  const I64_MAX: int := 0x7FFF_FFFF_FFFF_FFFF

  /** `std::io::SeekFrom`. */
  datatype SeekFrom = Start(n: nat) | End(offset: int) | Current(offset: int)

  /** `seek`: `Start(n)` sets the position unconditionally; `End` and `Current` add a signed
      offset to the inner length or the current position, and a result below zero or above
      `u64::MAX` is `InvalidInput` with the position unchanged. */
  function Seek(c: Cursor, style: SeekFrom): (r: (Cursor, Result<nat>))
    requires c.Valid()
    requires style.Start? ==> style.n <= U64_MAX
    requires !style.Start? ==> I64_MIN <= style.offset <= I64_MAX
    ensures r.0.Valid() && r.0.inner == c.inner
    ensures r.1.Ok? ==> r.0.pos == r.1.value
    ensures r.1.Err? ==> r.1 == Err(Io(InvalidInput)) && r.0 == c
    ensures style.Start? ==> r.1 == Ok(style.n)
    ensures style.End? ==> (r.1.Ok? <==> 0 <= c.inner.Len() + style.offset <= U64_MAX)
    ensures style.End? && r.1.Ok? ==> r.1.value == c.inner.Len() + style.offset
    ensures style.Current? ==> (r.1.Ok? <==> 0 <= c.pos + style.offset <= U64_MAX)
    ensures style.Current? && r.1.Ok? ==> r.1.value == c.pos + style.offset
  {
    match style
    case Start(n) => (c.(pos := n), Ok(n))
    case End(offset) => SeekBy(c, c.inner.Len(), offset)
    case Current(offset) => SeekBy(c, c.pos, offset)
  }

  /** `base.checked_add_signed(offset)` and its two outcomes. */
  function SeekBy(c: Cursor, base: nat, offset: int): (r: (Cursor, Result<nat>))
    requires c.Valid()
  {
    var target := base + offset;
    if 0 <= target <= U64_MAX then (c.(pos := target), Ok(target))
    else (c, IoErr(InvalidInput))
  }

  /** Seeking to where the cursor already is, from the start or by a zero offset, changes
      nothing and reports the position. */
  lemma SeekInPlace(c: Cursor)
    requires c.Valid()
    ensures Seek(c, Start(c.pos)) == (c, Ok(c.pos))
    ensures Seek(c, Current(0)) == (c, Ok(c.pos))
  {
  }

  /** A relative seek that succeeds is undone by the opposite relative seek. */
  lemma SeekCurrentUndone(c: Cursor, k: int)
    requires c.Valid() && I64_MIN < k <= I64_MAX
    ensures var s1 := Seek(c, Current(k));
            s1.1.Ok? ==> Seek(s1.0, Current(-k)) == (c, Ok(c.pos))
  {
  }

  /** Two relative seeks that both succeed land where one seek by their sum lands. */
  lemma SeekCurrentAdds(c: Cursor, a: int, b: int)
    requires c.Valid()
    requires I64_MIN <= a <= I64_MAX && I64_MIN <= b <= I64_MAX && I64_MIN <= a + b <= I64_MAX
    ensures var s1 := Seek(c, Current(a));
            var s2 := Seek(s1.0, Current(b));
            s1.1.Ok? && s2.1.Ok? ==> Seek(c, Current(a + b)) == s2
  {
  }

  /** A seek from the end that succeeds is the seek from the start to the same place. */
  lemma SeekEndAsStart(c: Cursor, k: int)
    requires c.Valid() && I64_MIN <= k <= I64_MAX
    ensures var s := Seek(c, End(k));
            s.1.Ok? ==> 0 <= c.inner.Len() + k <= U64_MAX
                        && s == Seek(c, Start(c.inner.Len() + k))
  {
  }

  // ---------------------------------------------------------------------------------------
  // Reading and writing (src/bit_cursor.rs:98-170)

  /** `read_bits`: the remaining bits fill the front of `buf` as far as both go; the rest of
      `buf` is unchanged and the position moves past what was read. The result is the cursor
      afterwards, `buf` afterwards and the count. */
  function ReadBits(c: Cursor, buf: seq<bool>): (r: (Cursor, seq<bool>, nat))
    requires c.Valid()
    ensures r.0.Valid() && r.0.inner == c.inner
    ensures r.2 == Min(|RemainingSlice(c).Bits()|, |buf|)
    ensures r.1 == RemainingSlice(c).Bits()[..r.2] + buf[r.2..]
    ensures r.0.pos == c.pos + r.2
  {
    var rem := RemainingSlice(c).Bits();
    var n := Min(|rem|, |buf|);
    (c.(pos := c.pos + n), rem[..n] + buf[n..], n)
  }

  /** Byte-level `Read`: refused with `Other` off a byte boundary; otherwise whole bytes of
      the remaining slice, and the position moves by eight bits per byte. */
  function Read(c: Cursor, bufLen: nat): (r: Result<(Cursor, seq<byte>)>)
    requires c.Valid()
    ensures c.pos % 8 != 0 <==> r == Err(Io(Other))
    ensures r.Ok? ==> |r.value.1| == Min(bufLen, RemainingSlice(c).Len() / 8)
    ensures r.Ok? ==> BytesToBits(r.value.1) == RemainingSlice(c).Bits()[..8 * |r.value.1|]
    ensures r.Ok? ==> r.value.0.Valid() && r.value.0.pos == c.pos + 8 * |r.value.1|
  {
    if c.pos % 8 != 0 then IoErr(Other)
    else
      var (_, bytes) := ReadBytes(RemainingSlice(c), bufLen);
      Ok((c.(pos := c.pos + 8 * |bytes|), bytes))
  }

  /** Byte-level `Write`: refused with `Other` off a byte boundary; otherwise whole bytes of
      `src` are stored at the position, and the position moves by eight bits per byte. */
  function Write(c: Cursor, src: seq<byte>): (r: Result<(Cursor, nat)>)
    requires c.Valid()
    ensures c.pos % 8 != 0 <==> r == Err(Io(Other))
    ensures r.Ok? ==> r.value.1 == Min(|src|, RemainingSlice(c).Len() / 8)
    ensures r.Ok? ==> r.value.0.Valid() && r.value.0.pos == c.pos + 8 * r.value.1
    ensures r.Ok? ==> r.value.0.inner.start == c.inner.start
    ensures r.Ok? ==> r.value.0.inner.end == c.inner.end
    ensures r.Ok? ==> RemainingSlice(r.value.0).Bits() == RemainingSlice(c).Bits()[8 * r.value.1..]
    ensures r.Ok? ==> RemainingSlice(r.value.0.(pos := c.pos)).Bits()
                      == BytesToBits(src[..r.value.1]) + RemainingSlice(c).Bits()[8 * r.value.1..]
  {
    if c.pos % 8 != 0 then IoErr(Other)
    else
      var rem := RemainingSlice(c);
      var (after, n) := WriteBytes(rem, src);
      var inner := c.inner.(storage := after.storage);
      assert inner.Valid();
      var r := Cursor(inner, c.pos + 8 * n);
      assert RemainingSlice(r).Bits() == after.storage[rem.start + 8 * n .. rem.end];
      assert RemainingSlice(r.(pos := c.pos)).Bits() == after.storage[rem.start .. rem.end];
      assert after.storage[rem.start .. rem.end]
          == after.storage[rem.start .. rem.start + 8 * n] + after.storage[rem.start + 8 * n .. rem.end];
      Ok((r, n))
  }

  /** A byte written through `Write` reads back through `Read` from the same position. */
  lemma WriteThenRead(c: Cursor, src: seq<byte>)
    requires c.Valid() && c.pos % 8 == 0
    requires 8 * |src| <= RemainingSlice(c).Len()
    ensures var w := Write(c, src);
            w.Ok? && Read(w.value.0.(pos := c.pos), |src|) == Ok((w.value.0, src))
  {
    var w := Write(c, src);
    assert w.Ok? && w.value.1 == |src|;
    var after := w.value.0;
    var back := after.(pos := c.pos);
    assert src[..|src|] == src;
    var bits := RemainingSlice(back).Bits();
    assert bits == BytesToBits(src) + RemainingSlice(c).Bits()[8 * |src|..];
    assert bits[..8 * |src|] == BytesToBits(src);
    var read := Read(back, |src|);
    assert read.Ok? && |read.value.1| == |src|;
    ReadBackSame(read.value.1, src, bits);
    assert read.value.0 == after;
  }

  /** Bytes whose bits are the first bits of the same sequence are the same bytes. */
  lemma ReadBackSame(got: seq<byte>, src: seq<byte>, bits: seq<bool>)
    requires |got| == |src| && 8 * |src| <= |bits|
    requires BytesToBits(got) == bits[..8 * |got|] && bits[..8 * |src|] == BytesToBits(src)
    ensures got == src
  {
    BytesRoundTrip(got, []);
    BytesRoundTrip(src, []);
  }

  /** The MSB-first bits of `0b11110000, 0b00001111`. */
  lemma NibbleBits()
    ensures OfBytes([0xF0, 0x0F]).Bits() == [true, true, true, true, false, false, false, false,
                                             false, false, false, false, true, true, true, true]
  {
    assert ByteToBits(0xF0) == [true, true, true, true, false, false, false, false] by {
      assert GetBit(0xF0, 0) && GetBit(0xF0, 1) && GetBit(0xF0, 2) && GetBit(0xF0, 3);
      assert !GetBit(0xF0, 4) && !GetBit(0xF0, 5) && !GetBit(0xF0, 6) && !GetBit(0xF0, 7);
    }
    assert ByteToBits(0x0F) == [false, false, false, false, true, true, true, true] by {
      assert !GetBit(0x0F, 0) && !GetBit(0x0F, 1) && !GetBit(0x0F, 2) && !GetBit(0x0F, 3);
      assert GetBit(0x0F, 4) && GetBit(0x0F, 5) && GetBit(0x0F, 6) && GetBit(0x0F, 7);
    }
    BytesToBitsPair(0xF0, 0x0F);
  }

  /** The MSB-first bits of `0b11001100, 0b00110011`. */
  lemma PairBits()
    ensures OfBytes([0xCC, 0x33]).Bits() == [true, true, false, false, true, true, false, false,
                                             false, false, true, true, false, false, true, true]
  {
    assert ByteToBits(0xCC) == [true, true, false, false, true, true, false, false] by {
      assert GetBit(0xCC, 0) && GetBit(0xCC, 1) && !GetBit(0xCC, 2) && !GetBit(0xCC, 3);
      assert GetBit(0xCC, 4) && GetBit(0xCC, 5) && !GetBit(0xCC, 6) && !GetBit(0xCC, 7);
    }
    assert ByteToBits(0x33) == [false, false, true, true, false, false, true, true] by {
      assert !GetBit(0x33, 0) && !GetBit(0x33, 1) && GetBit(0x33, 2) && GetBit(0x33, 3);
      assert !GetBit(0x33, 4) && !GetBit(0x33, 5) && GetBit(0x33, 6) && GetBit(0x33, 7);
    }
    BytesToBitsPair(0xCC, 0x33);
  }

  /** Reading `|buf|` bits from a position at least that far from the end returns exactly
      the inner bits at that position. */
  lemma ReadBitsWithin(c: Cursor, buf: seq<bool>)
    requires c.Valid() && c.pos + |buf| <= c.inner.Len()
    ensures ReadBits(c, buf) == (c.(pos := c.pos + |buf|), c.inner.Bits()[c.pos .. c.pos + |buf|], |buf|)
  {
    var rem := RemainingSlice(c).Bits();
    assert rem[..|buf|] + buf[|buf|..] == c.inner.Bits()[c.pos .. c.pos + |buf|];
  }

  /** Reading four bits at a time from `0b11110000, 0b00001111` yields the four nibbles in
      order, then nothing. */
  lemma ReadBitsNibbles()
    ensures var c0 := New(OfBytes([0xF0, 0x0F]));
            var buf := [false, false, false, false];
            var r1 := ReadBits(c0, buf);
            var r2 := ReadBits(r1.0, buf);
            var r3 := ReadBits(r2.0, buf);
            var r4 := ReadBits(r3.0, buf);
            var r5 := ReadBits(r4.0, buf);
            r1.1 == [true, true, true, true] && r2.1 == [false, false, false, false]
            && r3.1 == [false, false, false, false] && r4.1 == [true, true, true, true]
            && r1.2 == 4 && r4.2 == 4 && r5.2 == 0
  {
    NibbleBits();
    var c0 := New(OfBytes([0xF0, 0x0F]));
    var buf := [false, false, false, false];
    ReadBitsWithin(c0, buf);
    ReadBitsWithin(c0.(pos := 4), buf);
    ReadBitsWithin(c0.(pos := 8), buf);
    ReadBitsWithin(c0.(pos := 12), buf);
  }

  /** On a cursor over `0b11001100, 0b00110011` (see `PairBits`), seeking two bits before
      the end reads `1, 1`; four bits back from there reads `0, 0`; from bit 4 reads `1, 1`. */
  lemma SeekThenRead(c0: Cursor)
    requires c0.Valid() && c0.pos == 0
    requires c0.inner.Bits() == [true, true, false, false, true, true, false, false,
                                 false, false, true, true, false, false, true, true]
    ensures var buf := [false, false];
            var s1 := Seek(c0, End(-2));
            var r1 := ReadBits(s1.0, buf);
            var r2 := ReadBits(r1.0, buf);
            var s2 := Seek(r2.0, Current(-4));
            var r3 := ReadBits(s2.0, buf);
            var s3 := Seek(r3.0, Start(4));
            var r4 := ReadBits(s3.0, buf);
            s1.1 == Ok(14) && r1.1 == [true, true] && r2.2 == 0
            && s2.1 == Ok(12) && r3.1 == [false, false]
            && s3.1 == Ok(4) && r4.1 == [true, true]
  {
    var buf := [false, false];
    var bits := c0.inner.Bits();
    assert c0.inner.Len() == 16;
    var s1 := Seek(c0, End(-2));
    assert s1 == (c0.(pos := 14), Ok(14));
    ReadBitsWithin(s1.0, buf);
    var r1 := ReadBits(s1.0, buf);
    assert r1.0 == c0.(pos := 16) && r1.1 == bits[14..16];
    var r2 := ReadBits(r1.0, buf);
    assert r2.2 == 0 && r2.0 == r1.0;
    var s2 := Seek(r2.0, Current(-4));
    assert s2 == (c0.(pos := 12), Ok(12));
    ReadBitsWithin(s2.0, buf);
    var r3 := ReadBits(s2.0, buf);
    assert r3.0 == c0.(pos := 14) && r3.1 == bits[12..14];
    var s3 := Seek(r3.0, Start(4));
    assert s3 == (c0.(pos := 4), Ok(4));
    ReadBitsWithin(s3.0, buf);
    assert ReadBits(s3.0, buf).1 == bits[4..6];
  }

  // ---------------------------------------------------------------------------------------
  // `BitBuf for BitCursor<T>` (src/buf/bit_buf_impls.rs:237-314)

  /** `remaining`: `len.saturating_sub(pos)`. */
  function Remaining(c: Cursor): (r: nat)
    requires c.Valid()
    ensures r == |RemainingSlice(c).Bits()|
  {
    if c.inner.Len() >= c.pos then c.inner.Len() - c.pos else 0
  }

  /** `advance`: panics past the remaining bits, otherwise moves the position by `count`. */
  function Advance(c: Cursor, count: nat): (r: Cursor)
    requires c.Valid() && count <= Remaining(c)
    ensures r.Valid() && r.inner == c.inner
    ensures RemainingSlice(r).Bits() == RemainingSlice(c).Bits()[count..]
    ensures ByteAligned(c) && count % 8 == 0 ==> ByteAligned(r)
  {
    WholeBytesAdd(RemainingSlice(c).start, count);
    c.(pos := c.pos + count)
  }

  /** `byte_aligned` as the code is written: the domain of the WHOLE inner slice, whatever the
      position. */
  predicate ByteAlignedAsWritten(c: Cursor) {
    c.inner.Aligned()
  }

  /** `chunk_bytes` as the code is written: the body of the WHOLE inner slice, whatever the
      position. */
  function ChunkBytesAsWritten(c: Cursor): (r: seq<byte>)
    requires c.Valid() && ByteAlignedAsWritten(c)
    ensures BytesToBits(r) == c.inner.Bits()
  {
    Body(c.inner)
  }

  /** After one byte has been consumed the as-written `chunk_bytes` still starts with the
      first byte, and a cursor halfway into a byte still reports byte alignment. */
  lemma ChunkBytesAsWrittenIgnoresPosition()
    ensures var c := Advance(New(OfBytes([0xAB, 0xCD])), 8);
            ByteAlignedAsWritten(c) && ChunkBytesAsWritten(c)[0] == 0xAB
            && RemainingSlice(c).Bits() == BytesToBits([0xCD])
    ensures var c := Advance(New(OfBytes([0xAB, 0xCD])), 4);
            ByteAlignedAsWritten(c) && c.pos % 8 == 4
  {
    var c := Advance(New(OfBytes([0xAB, 0xCD])), 8);
    var b := ChunkBytesAsWritten(c);
    BytesRoundTrip(b, []);
    BytesRoundTrip([0xAB, 0xCD], []);
    assert b == [0xAB, 0xCD];
    BytesToBitsSlice([0xAB, 0xCD], 1, 2);
    assert [0xAB, 0xCD][1..2] == [0xCD];
  }

  /** `byte_aligned` taken over the remaining slice. */
  predicate ByteAligned(c: Cursor)
    requires c.Valid()
  {
    RemainingSlice(c).Aligned()
  }

  /** `chunk_bytes` taken over the remaining slice: the remaining bits as bytes. */
  function ChunkBytes(c: Cursor): (r: seq<byte>)
    requires c.Valid() && ByteAligned(c)
    ensures BytesToBits(r) == RemainingSlice(c).Bits()
  {
    Body(RemainingSlice(c))
  }
}

=== FILE: bit_io.dfy ===
// The `std::io`-style layer: `BitRead::read_bits_exact` (src/io/bit_read.rs),
// `BitWrite::write_all_bits` (src/bit_write.rs), the bit-slice readers and writers they run
// on (src/io/bit_slice_traits.rs, src/bit_slice_traits.rs) and the numeric extensions on top
// (src/bit_read_exts.rs, src/bit_write_exts.rs).
//
// A reader or writer is any state `S` together with its `read_bits` / `write_bits`, passed
// as a function: `read(s, k)` fills up to `k` bits of the destination and yields the bits
// it wrote (their count is the `usize` it returns); `write(s, src)` takes up to `|src|`
// bits and yields how many it took.

module BitIo {
  import opened BitUtil
  import opened Errors
  import opened ByteOrder

  type ReadFn<!S> = (S, nat) -> Result<(S, seq<bool>)>
  type WriteFn<!S> = (S, seq<bool>) -> Result<(S, nat)>

  /** Along the run of `read_bits_exact` for `want` bits from `s`, the reader never claims to
      have filled more of the destination than it was given; the loop would panic slicing
      `dest[n..]` otherwise. */
  predicate ReadsWithin<S>(read: ReadFn<S>, s: S, want: nat)
    decreases want
  {
    if want == 0 then true
    else
      match read(s, want)
      case Err(_) => true
      case Ok((s1, bits)) => |bits| <= want && (|bits| == 0 || ReadsWithin(read, s1, want - |bits|))
  }

  /** Along the run of `write_all_bits` of `source` from `s`, the writer never claims to have
      taken more bits than it was given; the loop would panic slicing `source[n..]`
      otherwise. */
  predicate WritesWithin<S>(write: WriteFn<S>, s: S, source: seq<bool>)
    decreases |source|
  {
    if |source| == 0 then true
    else
      match write(s, source)
      case Err(_) => true
      case Ok((s1, n)) => n <= |source| && (n == 0 || WritesWithin(write, s1, source[n..]))
  }

  // ---------------------------------------------------------------------------------------
  // read_bits_exact and write_all_bits

  /** `read_bits_exact`: call `read_bits` on the unfilled rest of the destination until it is
      full; an error is returned at once, and a read of zero bits before the destination is
      full is `UnexpectedEof`. An empty destination succeeds without reading.
      (src/io/bit_read.rs:17-39) */
  function ReadBitsExact<S>(read: ReadFn<S>, s: S, want: nat): (r: Result<(S, seq<bool>)>)
    requires ReadsWithin(read, s, want)
    ensures r.Ok? ==> |r.value.1| == want
    ensures want == 0 ==> r == Ok((s, []))
    ensures want > 0 && read(s, want).Err? ==> r == Err(read(s, want).error)
    ensures want > 0 && read(s, want).Ok? && read(s, want).value.1 == [] ==>
              r == Err(Io(UnexpectedEof))
    decreases want
  {
    if want == 0 then Ok((s, []))
    else
      match read(s, want)
      case Err(e) => Err(e)
      case Ok((s1, bits)) =>
        if |bits| == 0 then IoErr(UnexpectedEof)
        else
          match ReadBitsExact(read, s1, want - |bits|)
          case Err(e) => Err(e)
          case Ok((s2, rest)) => Ok((s2, bits + rest))
  }

  /** `write_all_bits`: call `write_bits` on the rest of the source until it is empty; an
      error is returned at once and a write of zero bits is `WriteZero`. An empty source
      succeeds without writing. (src/bit_write.rs:9-21) */
  function WriteAllBits<S>(write: WriteFn<S>, s: S, source: seq<bool>): (r: Result<S>)
    requires WritesWithin(write, s, source)
    ensures source == [] ==> r == Ok(s)
    ensures source != [] && write(s, source).Err? ==> r == Err(write(s, source).error)
    ensures source != [] && write(s, source).Ok? && write(s, source).value.1 == 0 ==>
              r == Err(Io(WriteZero))
    decreases |source|
  {
    if |source| == 0 then Ok(s)
    else
      match write(s, source)
      case Err(e) => Err(e)
      case Ok((s1, n)) =>
        if n == 0 then IoErr(WriteZero)
        else WriteAllBits(write, s1, source[n..])
  }

  // ---------------------------------------------------------------------------------------
  // Bit-slice readers and writers

  /** One `read_bits` or `write_bits` call on a bit slice: the count it returns, and the bits
      of the destination (`dest` for a read, the slice for a write) afterwards. */
  datatype Transfer = Transfer(count: nat, bits: seq<bool>)

  /** The copy both bit-slice transfers make: `n = min(from.len(), onto.len())` bits are
      copied from the front of `from` over the front of `onto`, the rest of `onto` is left
      alone, and neither side is advanced. `read_bits` of a bit slice into `dest` is
      `CopyFront(slice, dest)` (src/io/bit_slice_traits.rs:3-9, and the legacy loop over `u1`
      arrays in src/bit_slice_traits.rs:12-18); `write_bits` of `source` into a bit slice is
      `CopyFront(source, slice)` (src/io/bit_slice_traits.rs:11-19, and
      src/bit_slice_traits.rs:27-33). */
  function CopyFront(from: seq<bool>, onto: seq<bool>): (r: Transfer)
    ensures r.count == Min(|from|, |onto|) && |r.bits| == |onto|
    ensures r.bits[..r.count] == from[..r.count] && r.bits[r.count..] == onto[r.count..]
  {
    var n := Min(|from|, |onto|);
    Transfer(n, from[..n] + onto[n..])
  }

  /** `&BitSlice` as a `BitRead`: each call reads from the same, unmoved slice. */
  function SliceRead(slice: seq<bool>, k: nat): Result<(seq<bool>, seq<bool>)> {
    var n := Min(|slice|, k);
    Ok((slice, slice[..n]))
  }

  /** `&mut BitSlice` as a `BitWrite`: each call writes to the front of the same, unmoved
      slice. */
  function SliceWrite(slice: seq<bool>, source: seq<bool>): Result<(seq<bool>, nat)> {
    var w := CopyFront(source, slice);
    Ok((w.bits, w.count))
  }

  /** `read_bits_exact` over `&BitSlice` reads the slice's bits again and again: a two-bit
      slice fills a four-bit destination with `1 0 1 0` and reports success instead of
      `UnexpectedEof`. */
  lemma SliceReadRepeats(slice: seq<bool>)
    requires slice == [true, false]
    ensures ReadsWithin(SliceRead, slice, 4)
    ensures ReadBitsExact(SliceRead, slice, 4) == Ok((slice, [true, false, true, false]))
  {
    assert slice[..2] == [true, false];
    assert SliceRead(slice, 4) == Ok((slice, [true, false]));
    assert SliceRead(slice, 2) == Ok((slice, [true, false]));
    assert ReadBitsExact(SliceRead, slice, 0) == Ok((slice, []));
    assert [true, false] + [] == [true, false];
    assert ReadBitsExact(SliceRead, slice, 2) == Ok((slice, [true, false]));
    assert [true, false] + [true, false] == [true, false, true, false];
  }


  /** `write_all_bits` into `&mut BitSlice` keeps writing to the slice's front: four bits of
      room take eight bits of source, the last four overwriting the first, and the call
      reports success instead of `WriteZero`. */
  lemma SliceWriteOverwrites(slice: seq<bool>, source: seq<bool>)
    requires slice == [false, false, false, false]
    requires source == [true, true, true, true, false, true, false, true]
    ensures WritesWithin(SliceWrite, slice, source)
    ensures WriteAllBits(SliceWrite, slice, source) == Ok([false, true, false, true])
  {
    var first := source[..4] + slice[4..];
    assert SliceWrite(slice, source) == Ok((first, 4));
    var rest := source[4..];
    assert rest == [false, true, false, true];
    assert rest[..4] + first[4..] == rest;
    assert SliceWrite(first, rest) == Ok((rest, 4));
    assert rest[4..] == [];
  }

  /** A reader over a bit slice that moves past what it reads, as `&[u8]` does under
      `std::io::Read`: the state is the unread rest. */
  function AdvancingRead(rest: seq<bool>, k: nat): Result<(seq<bool>, seq<bool>)> {
    var n := Min(|rest|, k);
    Ok((rest[n..], rest[..n]))
  }

  /** With an advancing slice reader `read_bits_exact` does what it promises: the next `want`
      bits, consumed, when there are that many, and `UnexpectedEof` otherwise. */
  lemma {:induction false} AdvancingReadExact(rest: seq<bool>, want: nat)
    ensures ReadsWithin(AdvancingRead, rest, want)
    ensures var r := ReadBitsExact(AdvancingRead, rest, want);
            (|rest| < want <==> r == Err(Io(UnexpectedEof)))
            && (want <= |rest| ==> r == Ok((rest[want..], rest[..want])))
    decreases want
  {
    if want > 0 && |rest| > 0 {
      var n := Min(|rest|, want);
      AdvancingReadExact(rest[n..], want - n);
      if want <= |rest| {
        assert rest[..n] + rest[n..][..want - n] == rest[..want];
        assert rest[n..][want - n..] == rest[want..];
      }
    }
  }

  /** A writer into a bit slice that moves past what it writes, as `&mut [u8]` does under
      `std::io::Write`: the state is what has been written and the room left. */
  datatype Sink = Sink(written: seq<bool>, room: seq<bool>)

  function AdvancingWrite(s: Sink, source: seq<bool>): Result<(Sink, nat)> {
    var n := Min(|s.room|, |source|);
    Ok((Sink(s.written + source[..n], s.room[n..]), n))
  }

  /** With an advancing slice writer `write_all_bits` does what it promises: the whole source
      appended in order when there is room for it, and `WriteZero` otherwise. */
  lemma {:induction false} AdvancingWriteAll(s: Sink, source: seq<bool>)
    ensures WritesWithin(AdvancingWrite, s, source)
    ensures var r := WriteAllBits(AdvancingWrite, s, source);
            (|s.room| < |source| <==> r == Err(Io(WriteZero)))
            && (|source| <= |s.room| ==>
                  r == Ok(Sink(s.written + source, s.room[|source|..])))
    decreases |source|
  {
    if |source| == 0 {
      assert s.written + source == s.written && s.room[|source|..] == s.room;
    } else if |s.room| == 0 {
      assert AdvancingWrite(s, source) == Ok((Sink(s.written + source[..0], s.room), 0));
    } else {
      var n := Min(|s.room|, |source|);
      var s1 := Sink(s.written + source[..n], s.room[n..]);
      assert AdvancingWrite(s, source) == Ok((s1, n));
      AdvancingWriteAll(s1, source[n..]);
      if |source| <= |s.room| {
        assert source[..n] == source && source[n..] == [];
        assert WriteAllBits(AdvancingWrite, s1, []) == Ok(s1);
      } else {
        assert s1.room == [] && source[n..] != [];
      }
    }
  }

  // ---------------------------------------------------------------------------------------
  // The numeric extensions

  /** `read_uN`: `n` bits read with `read_bits_exact`, whose error is passed on, then
      decoded by `read_u32_from_bits` in the given order. (src/bit_read_exts.rs:6-10) */
  function ReadUN<S>(order: Order, read: ReadFn<S>, s: S, n: nat): (r: Result<(S, nat)>)
    requires ReadsWithin(read, s, n) && n <= 32
    ensures ReadBitsExact(read, s, n).Err? <==> r.Err?
    ensures r.Err? ==> r.error == ReadBitsExact(read, s, n).error
    ensures r.Ok? ==> r.value.0 == ReadBitsExact(read, s, n).value.0
    ensures r.Ok? ==> r.value.1 < Pow2(n) && r.value.1 < U32_BOUND
    ensures r.Ok? ==> WriteU32ToBits(order, r.value.1, n) == ReadBitsExact(read, s, n).value.1
  {
    match ReadBitsExact(read, s, n)
    case Err(e) => Err(e)
    case Ok((s1, bits)) =>
      RoundTripBits(order, bits);
      Ok((s1, ReadU32FromBits(order, bits)))
  }

  /** `read_u1` .. `read_u8`: `read_uN` in big endian. (src/bit_read_exts.rs:18-48) */
  function ReadU1To8<S>(read: ReadFn<S>, s: S, n: nat): (r: Result<(S, nat)>)
    requires ReadsWithin(read, s, n) && 1 <= n <= 8
    ensures ReadBitsExact(read, s, n).Err? <==> r.Err?
    ensures r.Ok? ==> ToBits(r.value.1, n) == ReadBitsExact(read, s, n).value.1
  {
    var r := ReadUN(BigEndian, read, s, n);
    if r.Ok? then
      assert WriteU32ToBits(BigEndian, r.value.1, n) == ToBits(r.value.1, n);
      r
    else r
  }

  /** `read_bool`: `read_u1` compared with zero, which is the bit read.
      (src/bit_read_exts.rs:14-16) */
  function ReadBool<S>(read: ReadFn<S>, s: S): (r: Result<(S, bool)>)
    requires ReadsWithin(read, s, 1)
    ensures ReadBitsExact(read, s, 1).Err? <==> r.Err?
    ensures r.Ok? ==> [r.value.1] == ReadBitsExact(read, s, 1).value.1
  {
    match ReadU1To8(read, s, 1)
    case Err(e) => Err(e)
    case Ok((s1, v)) =>
      assert ToBits(v, 1) == [BitOf(v, 0)];
      Ok((s1, v != 0))
  }

  /** `read_u9` .. `read_u32` as written: `read_uN` in big endian whatever byte order the
      caller names. (src/bit_read_exts.rs:50-144) */
  function ReadU9To32AsWritten<S>(order: Order, read: ReadFn<S>, s: S, n: nat): (r: Result<(S, nat)>)
    requires ReadsWithin(read, s, n) && 9 <= n <= 32
    ensures ReadBitsExact(read, s, n).Err? <==> r.Err?
    ensures r.Ok? ==> r.value.1 < Pow2(n) && r.value.1 < U32_BOUND
    ensures r.Ok? ==> WriteU32ToBits(BigEndian, r.value.1, n) == ReadBitsExact(read, s, n).value.1
  {
    ReadUN(BigEndian, read, s, n)
  }

  /** `read_u9` .. `read_u32` as their byte-order parameter evidently intends: `read_uN` in
      that order. */
  function ReadU9To32<S>(order: Order, read: ReadFn<S>, s: S, n: nat): (r: Result<(S, nat)>)
    requires ReadsWithin(read, s, n) && 9 <= n <= 32
    ensures ReadBitsExact(read, s, n).Err? <==> r.Err?
    ensures r.Ok? ==> r.value.1 < Pow2(n) && r.value.1 < U32_BOUND
    ensures r.Ok? ==> WriteU32ToBits(order, r.value.1, n) == ReadBitsExact(read, s, n).value.1
  {
    ReadUN(order, read, s, n)
  }

  /** `write_uN`: the value's `N`-bit encoding in the given order, handed to
      `write_all_bits`, whose errors are passed on; `write_u9` .. `write_u32` call it with
      the caller's byte order. (src/bit_write_exts.rs:5-12) */
  function WriteUN<S>(order: Order, write: WriteFn<S>, s: S, n: nat, value: nat): (r: Result<S>)
    requires n <= 32 && value < U32_BOUND && WritesWithin(write, s, WriteU32ToBits(order, value, n))
    ensures n == 0 ==> r == Ok(s)
    ensures var x := WriteU32ToBits(order, value, n);
            n > 0 && write(s, x).Err? ==> r == Err(write(s, x).error)
    ensures var x := WriteU32ToBits(order, value, n);
            n > 0 && write(s, x).Ok? && write(s, x).value.1 == 0 ==> r == Err(Io(WriteZero))
  {
    WriteAllBits(write, s, WriteU32ToBits(order, value, n))
  }

  /** `write_u1` .. `write_u8`: `write_uN` in big endian, so the bits handed over are the
      value's `N`-bit encoding, most significant bit first. (src/bit_write_exts.rs:20-50) */
  function WriteU1To8<S>(write: WriteFn<S>, s: S, n: nat, value: nat): (r: Result<S>)
    requires 1 <= n <= 8 && value < Pow2(n) && WritesWithin(write, s, ToBits(value, n))
    ensures r == WriteAllBits(write, s, ToBits(value, n))
  {
    Pow2Monotone(n, 32);
    Pow2Values();
    assert WriteU32ToBits(BigEndian, value, n) == ToBits(value, n);
    WriteUN(BigEndian, write, s, n, value)
  }

  /** `write_bool`: `write_u1` of the flag, so the one bit handed over is the flag.
      (src/bit_write_exts.rs:16-18) */
  function WriteBool<S>(write: WriteFn<S>, s: S, value: bool): (r: Result<S>)
    requires WritesWithin(write, s, [value])
    ensures r == WriteAllBits(write, s, [value])
  {
    var v := if value then 1 else 0;
    assert Pow2(1) == 2;
    assert ToBits(v, 1) == [BitOf(v, 0)] == [value];
    WriteU1To8(write, s, 1, v)
  }

  /** `write_uN` into an advancing slice writer appends exactly the value's `N`-bit encoding
      when there is room for it and fails with `WriteZero` otherwise. */
  lemma WriteUNAppends(order: Order, s: Sink, n: nat, value: nat)
    requires n <= 32 && value < U32_BOUND
    ensures WritesWithin(AdvancingWrite, s, WriteU32ToBits(order, value, n))
    ensures var r := WriteUN(order, AdvancingWrite, s, n, value);
            (|s.room| < n <==> r == Err(Io(WriteZero)))
            && (n <= |s.room| ==>
                  r == Ok(Sink(s.written + WriteU32ToBits(order, value, n), s.room[n..])))
  {
    AdvancingWriteAll(s, WriteU32ToBits(order, value, n));
  }

  /** What `write_uN` puts, `read_uN` in the same order reads back from an advancing
      reader: the value, reduced to its `N` bits. */
  lemma WriteThenReadUN(order: Order, n: nat, value: nat, after: seq<bool>)
    requires n <= 32 && value < U32_BOUND
    ensures ReadsWithin(AdvancingRead, WriteU32ToBits(order, value, n) + after, n)
    ensures var r := ReadUN(order, AdvancingRead, WriteU32ToBits(order, value, n) + after, n);
            r == Ok((after, value % Pow2(n)))
  {
    var bits := WriteU32ToBits(order, value, n);
    AdvancingReadExact(bits + after, n);
    assert (bits + after)[..n] == bits && (bits + after)[n..] == after;
    RoundTripValue(order, value, n);
  }

  /** `write_u9::<LittleEndian>(1)` followed by `read_u9::<LittleEndian>` reads 256: the
      writer honours the byte order and the reader does not. */
  lemma LittleEndianReadBackAsWritten()
    ensures ReadsWithin(AdvancingRead, WriteU32ToBits(LittleEndian, 1, 9), 9)
    ensures var bits := WriteU32ToBits(LittleEndian, 1, 9);
            ReadU9To32AsWritten(LittleEndian, AdvancingRead, bits, 9) == Ok(([], 256))
  {
    var bits := WriteU32ToBits(LittleEndian, 1, 9);
    AdvancingReadExact(bits, 9);
    assert bits[..9] == bits && bits[9..] == [];
    assert BitOf(1, 0) && !BitOf(1, 1) && !BitOf(1, 2) && !BitOf(1, 3) && !BitOf(1, 4);
    assert !BitOf(1, 5) && !BitOf(1, 6) && !BitOf(1, 7) && !BitOf(1, 8);
    assert BitOf(256, 8) && !BitOf(256, 7) && !BitOf(256, 6) && !BitOf(256, 5);
    assert !BitOf(256, 4) && !BitOf(256, 3) && !BitOf(256, 2) && !BitOf(256, 1) && !BitOf(256, 0);
    assert bits == WriteU32ToBits(BigEndian, 256, 9);
    assert Pow2(9) == 512;
    RoundTripValue(BigEndian, 256, 9);
  }

  /** With the byte order honoured, every `u9` .. `u32` written is read back. */
  lemma ReadU9To32RoundTrip(order: Order, n: nat, value: nat, after: seq<bool>)
    requires 9 <= n <= 32 && value < Pow2(n)
    ensures Pow2(n) <= U32_BOUND
    ensures ReadsWithin(AdvancingRead, WriteU32ToBits(order, value, n) + after, n)
    ensures var r := ReadU9To32(order, AdvancingRead, WriteU32ToBits(order, value, n) + after, n);
            r == Ok((after, value))
  {
    Pow2Monotone(n, 32);
    Pow2Values();
    WriteThenReadUN(order, n, value, after);
    ModOfSmall(value, Pow2(n));
  }
}

=== FILE: bit_util.dfy ===
/** Bit-level helpers shared by every layer: the MSB-first numbering of bits within a byte
    (src/util.rs:6-42), `bytes_needed` (src/buf/util.rs:2-4), the conversion of a range of
    bit indices to a half-open pair (src/util.rs:47-63), and the conversions between bytes and
    bit sequences that the rest of the model builds on.

    Storage bit `j` of a byte sequence is bit `7 - j % 8` of byte `j / 8`: index 0 within a
    byte is its most significant bit. */
module BitUtil {

  type byte = x: int | 0 <= x < 256

  /** `usize::MAX` and `u64::MAX` on the 64-bit targets the library is built for. */
  const USIZE_MAX: nat := 0xFFFF_FFFF_FFFF_FFFF
  const U64_MAX: nat := 0xFFFF_FFFF_FFFF_FFFF

  function Pow2(n: nat): (r: nat)
    ensures r >= 1
  {
    if n == 0 then 1 else 2 * Pow2(n - 1)
  }

  function Min(a: int, b: int): int {
    if a <= b then a else b
  }

  function Max(a: int, b: int): int {
    if a >= b then a else b
  }

  /** `usize::saturating_add`. */
  function SaturatingAdd(x: nat, y: nat): nat {
    if x + y <= USIZE_MAX then x + y else USIZE_MAX
  }

  /** Bit `k` of `v`, counting from the least significant end: `(v >> k) & 1 == 1`. */
  predicate BitOf(v: nat, k: nat)
    decreases k
  {
    if k == 0 then v % 2 == 1 else BitOf(v / 2, k - 1)
  }

  /** The `n`-bit encoding of `v`, most significant bit first. Bits of `v` at or above
      position `n` are dropped. */
  function ToBits(v: nat, n: nat): (bits: seq<bool>)
    ensures |bits| == n
  {
    seq(n, i requires 0 <= i < n => BitOf(v, n - 1 - i))
  }

  /** The unsigned value of `bits` read most significant bit first: the fold
      `acc = 2 * acc + bit` over the bits in order. */
  function ValueOf(bits: seq<bool>): nat
    decreases |bits|
  {
    if |bits| == 0 then 0
    else 2 * ValueOf(bits[..|bits| - 1]) + (if bits[|bits| - 1] then 1 else 0)
  }

  // ---------------------------------------------------------------------------------------
  // Arithmetic facts about powers of two

  lemma MulMonotone(d: nat, a: nat, b: nat)
    requires a <= b
    ensures d * a <= d * b
    decreases b - a
  {
    if a < b {
      MulMonotone(d, a, b - 1);
      assert d * b == d * (b - 1) + d;
    }
  }

  /** Quotient and remainder are determined by `v == d * q + m` with `m < d`. */
  lemma DivModUnique(v: nat, d: nat, q: nat, m: nat)
    requires d > 0 && v == d * q + m && m < d
    ensures v / d == q && v % d == m
  {
    var q0 := v / d;
    var m0 := v % d;
    assert v == d * q0 + m0;
    if q0 < q {
      MulMonotone(d, q0 + 1, q);
      assert false;
    } else if q < q0 {
      MulMonotone(d, q + 1, q0);
      assert false;
    }
  }

  /** Whole bytes plus whole bytes are whole bytes. */
  lemma WholeBytesAdd(x: nat, y: nat)
    ensures x % 8 == 0 && y % 8 == 0 ==> (x + y) % 8 == 0
  {
    if x % 8 == 0 && y % 8 == 0 {
      DivModUnique(x + y, 8, x / 8 + y / 8, 0);
    }
  }

  /** A whole number of bytes short of one byte is none. */
  lemma NoWholeByte(x: nat)
    ensures x % 8 == 0 && x < 8 ==> x == 0
  {
  }

  /** Whole bytes less whole bytes are whole bytes. */
  lemma WholeBytesSub(x: nat, y: nat)
    requires y <= x
    ensures x % 8 == 0 && y % 8 == 0 ==> (x - y) % 8 == 0
  {
    if x % 8 == 0 && y % 8 == 0 {
      DivModUnique(x - y, 8, x / 8 - y / 8, 0);
    }
  }

  /** The remainder modulo `a * p` splits into the remainder modulo `a` and the remainder of
      `v / a` modulo `p`. */
  lemma ModMul(v: nat, a: nat, p: nat)
    requires a > 0 && p > 0
    ensures v % (a * p) == v % a + a * ((v / a) % p)
    ensures v / (a * p) == (v / a) / p
  {
    var q := (v / a) / p;
    var c := (v / a) % p;
    assert v / a == p * q + c;
    assert v == a * (v / a) + v % a;
    MulAssoc(a, p, q);
    MulDistrib(a, p * q, c);
    assert v == (a * p) * q + (a * c + v % a);
    MulMonotone(a, c, p - 1);
    MulDistrib(a, p - 1, 1);
    assert a * c + v % a < a * p;
    DivModUnique(v, a * p, q, a * c + v % a);
  }

  lemma MulAssoc(a: nat, b: nat, c: nat)
    ensures (a * b) * c == a * (b * c)
  {
  }

  lemma MulDistrib(a: nat, b: nat, c: nat)
    ensures a * (b + c) == a * b + a * c
  {
  }

  lemma {:induction false} Pow2Add(a: nat, b: nat)
    ensures Pow2(a + b) == Pow2(a) * Pow2(b)
    decreases a
  {
    if a > 0 {
      Pow2Add(a - 1, b);
    }
  }

  lemma Pow2Values()
    ensures Pow2(8) == 0x100
    ensures Pow2(16) == 0x1_0000
    ensures Pow2(24) == 0x100_0000
    ensures Pow2(32) == 0x1_0000_0000
  {
    assert Pow2(8) == 0x100;
    Pow2Add(8, 8);
    Pow2Add(16, 8);
    Pow2Add(16, 16);
  }

  lemma {:induction false} Pow2Monotone(a: nat, b: nat)
    requires a <= b
    ensures Pow2(a) <= Pow2(b)
    decreases b
  {
    if a < b {
      Pow2Monotone(a, b - 1);
    }
  }

  lemma Assoc2(p: nat, q: nat)
    ensures (2 * p) * q == 2 * (p * q)
  {
  }

  lemma MulDouble(a: nat, p: nat)
    ensures a * (2 * p) == 2 * (a * p)
  {
  }

  /** The remainder modulo `2p` is the remainder of `v / 2` modulo `p`, doubled, plus the
      last bit. */
  lemma ModDouble(v: nat, p: nat)
    requires p > 0
    ensures v % (2 * p) == 2 * ((v / 2) % p) + v % 2
  {
    var q := (v / 2) / p;
    var c := (v / 2) % p;
    assert v / 2 == p * q + c;
    Assoc2(p, q);
    assert v == (2 * p) * q + (2 * c + v % 2);
    DivModUnique(v, 2 * p, q, 2 * c + v % 2);
  }

  // ---------------------------------------------------------------------------------------
  // Values and their MSB-first encodings

  lemma {:induction false} ValueOfBound(bits: seq<bool>)
    ensures ValueOf(bits) < Pow2(|bits|)
    decreases |bits|
  {
    if |bits| > 0 {
      ValueOfBound(bits[..|bits| - 1]);
    }
  }

  /** Encoding the low `n` bits of `v` and reading them back gives `v mod 2^n`. */
  lemma {:induction false} ValueOfToBits(v: nat, n: nat)
    ensures ValueOf(ToBits(v, n)) == v % Pow2(n)
    decreases n
  {
    if n > 0 {
      var bits := ToBits(v, n);
      var init := bits[..n - 1];
      forall i | 0 <= i < n - 1
        ensures init[i] == ToBits(v / 2, n - 1)[i]
      {
        assert BitOf(v, n - 1 - i) == BitOf(v / 2, n - 2 - i);
      }
      assert init == ToBits(v / 2, n - 1);
      assert bits[n - 1] == BitOf(v, 0);
      assert bits[..|bits| - 1] == init;
      assert ValueOf(bits) == 2 * ValueOf(init) + (if bits[n - 1] then 1 else 0);
      ValueOfToBits(v / 2, n - 1);
      ModDouble(v, Pow2(n - 1));
      assert Pow2(n) == 2 * Pow2(n - 1);
    }
  }

  /** Reading `bits` as a value and re-encoding it in `|bits|` bits gives `bits` back. */
  lemma {:induction false} ToBitsValueOf(bits: seq<bool>)
    ensures ToBits(ValueOf(bits), |bits|) == bits
    decreases |bits|
  {
    var n := |bits|;
    if n > 0 {
      var init := bits[..n - 1];
      var w := ValueOf(init);
      var v := ValueOf(bits);
      assert v == 2 * w + (if bits[n - 1] then 1 else 0);
      assert v / 2 == w;
      ToBitsValueOf(init);
      forall i | 0 <= i < n
        ensures ToBits(v, n)[i] == bits[i]
      {
        if i < n - 1 {
          assert BitOf(v, n - 1 - i) == BitOf(w, n - 2 - i);
          assert ToBits(w, n - 1)[i] == init[i];
        } else {
          assert ToBits(v, n)[i] == BitOf(v, 0);
          assert v % 2 == (if bits[n - 1] then 1 else 0);
        }
      }
    }
  }

  /** Two bit strings of one length are equal exactly when their values are. */
  lemma ValueOfInjective(a: seq<bool>, b: seq<bool>)
    requires |a| == |b|
    ensures ValueOf(a) == ValueOf(b) <==> a == b
  {
    if ValueOf(a) == ValueOf(b) {
      ToBitsValueOf(a);
      ToBitsValueOf(b);
    }
  }

  lemma {:induction false} ValueOfAppend(a: seq<bool>, b: seq<bool>)
    ensures ValueOf(a + b) == ValueOf(a) * Pow2(|b|) + ValueOf(b)
    decreases |b|
  {
    if |b| == 0 {
      assert a + b == a;
    } else {
      var n := |b|;
      assert (a + b)[..|a + b| - 1] == a + b[..n - 1];
      ValueOfAppend(a, b[..n - 1]);
      assert Pow2(n) == 2 * Pow2(n - 1);
      MulDouble(ValueOf(a), Pow2(n - 1));
    }
  }

  // ---------------------------------------------------------------------------------------
  // Single bits of a byte (src/util.rs)

  /** `get_bit(byte, i)`: bit `i` of `b`, where index 0 is the most significant bit. An index
      of 8 or more is unreachable in the source, hence the precondition. */
  predicate GetBit(b: byte, i: nat)
    requires i < 8
  {
    BitOf(b, 7 - i)
  }

  /** The eight bits of `b`, most significant first (bitvec's `Msb0` view of one byte). */
  function ByteToBits(b: byte): (bits: seq<bool>)
    ensures |bits| == 8
  {
    seq(8, i requires 0 <= i < 8 => GetBit(b, i))
  }

  /** The byte whose MSB-first bits are `bits`. */
  function BitsToByte(bits: seq<bool>): byte
    requires |bits| == 8
  {
    ValueOfBound(bits);
    ValueOf(bits)
  }

  /** Only the low `n` bits of a value reach its `n`-bit encoding. */
  lemma ToBitsMod(v: nat, n: nat)
    ensures ToBits(v, n) == ToBits(v % Pow2(n), n)
  {
    ValueOfToBits(v, n);
    ToBitsValueOf(ToBits(v, n));
  }

  lemma ModOfSmall(v: nat, p: nat)
    requires v < p
    ensures v % p == v && v / p == 0
  {
    DivModUnique(v, p, 0, v);
  }

  /** Bits that are the `|bits|`-bit encoding of `v` spell `v`. */
  lemma ValueOfEncoding(bits: seq<bool>, v: nat)
    requires v < Pow2(|bits|) && bits == ToBits(v, |bits|)
    ensures ValueOf(bits) == v
  {
    ValueOfToBits(v, |bits|);
    ModOfSmall(v, Pow2(|bits|));
  }

  lemma ByteToBitsIsToBits(b: byte)
    ensures ByteToBits(b) == ToBits(b, 8)
  {
  }

  /** Viewing a byte as bits and packing them again is the identity, in both directions. */
  lemma ByteRoundTrip(b: byte, bits: seq<bool>)
    requires |bits| == 8
    ensures BitsToByte(ByteToBits(b)) == b
    ensures ByteToBits(BitsToByte(bits)) == bits
  {
    ByteToBitsIsToBits(b);
    ValueOfToBits(b, 8);
    assert Pow2(8) == 256;
    ToBitsValueOf(bits);
    ByteToBitsIsToBits(BitsToByte(bits));
  }

  /** `set_bit(byte, i, value)`: clears bit `i` with a one-zero mask, then ors in `value`
      shifted to position `7 - i`. */
  function SetBit(b: byte, i: nat, value: bool): (r: byte)
    requires i < 8
    ensures forall j :: 0 <= j < 8 ==> GetBit(r, j) == (if j == i then value else GetBit(b, j))
  {
    var p := Pow2(7 - i);
    var cleared := if GetBit(b, i) then b - p else b;
    var r := if value then cleared + p else cleared;
    SetBitMeaning(b, i, value, r);
    r
  }

  lemma SetBitMeaning(b: byte, i: nat, value: bool, r: int)
    requires i < 8
    requires r == (if GetBit(b, i) then b - Pow2(7 - i) else b) + (if value then Pow2(7 - i) else 0)
    ensures 0 <= r < 256
    ensures ByteToBits(b)[i := value] == ToBits(r, 8)
    ensures forall j :: 0 <= j < 8 ==> GetBit(r, j) == (if j == i then value else GetBit(b, j))
  {
    SetBitValue(b, i, value, r);
    var updated := ByteToBits(b)[i := value];
    forall j | 0 <= j < 8
      ensures GetBit(r, j) == (if j == i then value else GetBit(b, j))
    {
      assert GetBit(r, j) == ToBits(r, 8)[j] == updated[j];
    }
  }

  /** The arithmetic of `set_bit` spells the byte's bits with bit `i` replaced. */
  lemma SetBitValue(b: byte, i: nat, value: bool, r: int)
    requires i < 8
    requires r == (if GetBit(b, i) then b - Pow2(7 - i) else b) + (if value then Pow2(7 - i) else 0)
    ensures 0 <= r < 256
    ensures ByteToBits(b)[i := value] == ToBits(r, 8)
  {
    var bits := ByteToBits(b);
    var updated := bits[i := value];
    ByteToBitsIsToBits(b);
    ValueOfToBits(b, 8);
    assert Pow2(8) == 256;
    assert ValueOf(bits) == b;
    assert bits[i] == GetBit(b, i) && |bits| - 1 - i == 7 - i;
    ValueOfUpdate(bits, i, value);
    assert ValueOf(updated) == r;
    ValueOfBound(updated);
    ToBitsValueOf(updated);
  }

  /** Changing one bit of a bit string moves its value by that bit's weight. */
  lemma {:induction false} ValueOfUpdate(bits: seq<bool>, i: nat, value: bool)
    requires i < |bits|
    ensures ValueOf(bits[i := value]) ==
            ValueOf(bits) - (if bits[i] then Pow2(|bits| - 1 - i) else 0)
                          + (if value then Pow2(|bits| - 1 - i) else 0)
    decreases |bits|
  {
    var n := |bits|;
    var u := bits[i := value];
    if i == n - 1 {
      assert u[..n - 1] == bits[..n - 1];
    } else {
      assert u[..n - 1] == bits[..n - 1][i := value];
      ValueOfUpdate(bits[..n - 1], i, value);
      assert Pow2(n - 1 - i) == 2 * Pow2(n - 2 - i);
    }
  }

  /** Setting a bit to the value it already has leaves the byte unchanged. */
  lemma SetBitSameIsIdentity(b: byte, i: nat)
    requires i < 8
    ensures SetBit(b, i, GetBit(b, i)) == b
  {
    var r := SetBit(b, i, GetBit(b, i));
    assert ByteToBits(r) == ByteToBits(b);
    ByteRoundTrip(r, ByteToBits(b));
    ByteRoundTrip(b, ByteToBits(b));
  }

  // ---------------------------------------------------------------------------------------
  // Byte sequences as bit sequences

  /** bitvec's `Msb0` view of a byte slice: `8 * |bytes|` bits. */
  function BytesToBits(bytes: seq<byte>): (bits: seq<bool>)
    ensures |bits| == 8 * |bytes|
  {
    seq(8 * |bytes|, j requires 0 <= j < 8 * |bytes| => GetBit(bytes[j / 8], j % 8))
  }

  /** Packs a whole number of bytes' worth of bits into bytes. */
  function BitsToBytes(bits: seq<bool>): (bytes: seq<byte>)
    requires |bits| % 8 == 0
    ensures 8 * |bytes| == |bits|
  {
    seq(|bits| / 8, k requires 0 <= k < |bits| / 8 => BitsToByte(bits[8 * k .. 8 * k + 8]))
  }

  lemma BytesToBitsChunk(bytes: seq<byte>, k: nat)
    requires k < |bytes|
    ensures BytesToBits(bytes)[8 * k .. 8 * k + 8] == ByteToBits(bytes[k])
  {
    var bits := BytesToBits(bytes);
    forall i | 0 <= i < 8
      ensures bits[8 * k + i] == ByteToBits(bytes[k])[i]
    {
      assert (8 * k + i) / 8 == k;
      assert (8 * k + i) % 8 == i;
    }
  }

  /** Bits packed into bytes and viewed as bits again are unchanged, and bytes viewed as bits
      and packed again are unchanged. */
  lemma BytesRoundTrip(bytes: seq<byte>, bits: seq<bool>)
    requires |bits| % 8 == 0
    ensures BitsToBytes(BytesToBits(bytes)) == bytes
    ensures BytesToBits(BitsToBytes(bits)) == bits
  {
    var packed := BitsToBytes(BytesToBits(bytes));
    forall k | 0 <= k < |bytes|
      ensures packed[k] == bytes[k]
    {
      BytesToBitsChunk(bytes, k);
      ByteRoundTrip(bytes[k], ByteToBits(bytes[k]));
    }
    var unpacked := BytesToBits(BitsToBytes(bits));
    forall j | 0 <= j < |bits|
      ensures unpacked[j] == bits[j]
    {
      var k := j / 8;
      var chunk := bits[8 * k .. 8 * k + 8];
      ByteRoundTrip(0, chunk);
      assert ByteToBits(BitsToByte(chunk))[j % 8] == chunk[j % 8];
    }
  }

  /** Two bytes viewed as bits are the first byte's eight bits, then the second's. */
  lemma BytesToBitsPair(x: byte, y: byte)
    ensures BytesToBits([x, y]) == ByteToBits(x) + ByteToBits(y)
  {
    BytesToBitsChunk([x, y], 0);
    BytesToBitsChunk([x, y], 1);
    var bits := BytesToBits([x, y]);
    assert bits == bits[0..8] + bits[8..16];
  }

  /** Bytes are determined by their bits. */
  lemma BytesToBitsInjective(a: seq<byte>, b: seq<byte>)
    requires BytesToBits(a) == BytesToBits(b)
    ensures a == b
  {
    BytesRoundTrip(a, []);
    BytesRoundTrip(b, []);
  }

  lemma BytesToBitsAppend(a: seq<byte>, b: seq<byte>)
    ensures BytesToBits(a + b) == BytesToBits(a) + BytesToBits(b)
  {
    var l := BytesToBits(a + b);
    var r := BytesToBits(a) + BytesToBits(b);
    forall j | 0 <= j < |l|
      ensures l[j] == r[j]
    {
      if j >= 8 * |a| {
        assert (j - 8 * |a|) / 8 == j / 8 - |a|;
        assert (j - 8 * |a|) % 8 == j % 8;
      }
    }
  }

  /** Whole bytes `[i, j)` of the storage viewed as bits are the bits of those bytes. */
  lemma BytesToBitsSlice(bytes: seq<byte>, i: nat, j: nat)
    requires i <= j <= |bytes|
    ensures BytesToBits(bytes)[8 * i .. 8 * j] == BytesToBits(bytes[i..j])
  {
    var l := BytesToBits(bytes)[8 * i .. 8 * j];
    var r := BytesToBits(bytes[i..j]);
    forall k | 0 <= k < |r|
      ensures l[k] == r[k]
    {
      assert (8 * i + k) / 8 == i + k / 8;
      assert (8 * i + k) % 8 == k % 8;
    }
  }

  lemma BitsToBytesSlice(bits: seq<bool>, k: nat)
    requires |bits| % 8 == 0 && 8 * k <= |bits|
    ensures BitsToBytes(bits)[..k] == BitsToBytes(bits[..8 * k])
  {
    var l := BitsToBytes(bits)[..k];
    var r := BitsToBytes(bits[..8 * k]);
    forall i | 0 <= i < k
      ensures l[i] == r[i]
    {
      assert bits[..8 * k][8 * i .. 8 * i + 8] == bits[8 * i .. 8 * i + 8];
    }
  }

  // ---------------------------------------------------------------------------------------
  // bytes_needed (src/buf/util.rs:2-4)

  /** `bytes_needed(n)`: the number of bytes that hold `n` bits, `(n + 7) / 8`. The result is
      the least byte count whose bits cover `n`. */
  function BytesNeeded(n: nat): (r: nat)
    ensures 8 * r >= n
    ensures n > 0 ==> 8 * (r - 1) < n
    ensures n == 0 ==> r == 0
  {
    (n + 7) / 8
  }

  lemma BytesNeededWhole(k: nat)
    ensures BytesNeeded(8 * k) == k
  {
  }

  lemma BytesNeededMonotone(a: nat, b: nat)
    requires a <= b
    ensures BytesNeeded(a) <= BytesNeeded(b)
  {
  }

  // ---------------------------------------------------------------------------------------
  // Range bounds (src/util.rs:47-63)

  /** One end of a Rust range, `std::ops::Bound`. */
  datatype Bound = Included(n: nat) | Excluded(n: nat) | Unbounded

  /** `RangeBounds::contains`: whether index `k` lies within the range. */
  predicate InRange(start: Bound, end: Bound, k: nat) {
    (match start
     case Included(s) => s <= k
     case Excluded(s) => s < k
     case Unbounded => true)
    &&
    (match end
     case Included(e) => k <= e
     case Excluded(e) => k < e
     case Unbounded => true)
  }

  /** `get_start_end_bit_index_from_range`: the half-open pair `[start, end)` of the indices
      the range contains, where an unbounded end stops at `max(len, 1)`. */
  function StartEndFromRange(start: Bound, end: Bound, len: nat): (r: (nat, nat))
    ensures forall k: nat :: r.0 <= k < r.1 <==>
      InRange(start, end, k) && (end.Unbounded? ==> k < Max(len, 1))
  {
    var s := match start
      case Included(s) => s
      case Excluded(s) => s + 1
      case Unbounded => 0;
    var e := match end
      case Included(e) => e + 1
      case Excluded(e) => e
      case Unbounded => Max(len, 1);
    (s, e)
  }
}

=== FILE: bits.dfy ===
// `Bits` (src/buf/bits.rs): an immutable, cheaply cloned view onto shared byte storage.
// Methods that take `&mut self` become functions returning the updated handle; where a
// method also returns a new handle, the result is the pair (self afterwards, returned handle).

module Bits {
  import opened BitUtil
  import opened Errors

  /** `bitLen` bits starting `bitStart` bits into the shared storage `inner` (MSB-first). */
  datatype Bits = Bits(inner: seq<byte>, bitStart: nat, bitLen: nat)
  {
    /** The view lies inside the storage, so that dereferencing it does not panic. */
    predicate Valid() {
      bitStart + bitLen <= 8 * |inner|
    }

    /** `Deref`: the bits in view. */
    function View(): (v: seq<bool>)
      requires Valid()
      ensures |v| == bitLen
    {
      BytesToBits(inner)[bitStart .. bitStart + bitLen]
    }

    /** `BitBuf::byte_aligned`: the view starts and ends on byte boundaries of the storage. */
    predicate ByteAligned() {
      bitStart % 8 == 0 && bitLen % 8 == 0
    }
  }

  // ---------------------------------------------------------------------------------------
  // Construction

  /** `from_bytes`: a view of every bit of the bytes. */
  function FromBytes(bytes: seq<byte>): (r: Bits)
    ensures r.Valid() && r.ByteAligned() && r.bitStart == 0
    ensures |r.View()| == 8 * |bytes|
    ensures forall j :: 0 <= j < 8 * |bytes| ==> r.View()[j] == GetBit(bytes[j / 8], j % 8)
  {
    Bits(bytes, 0, 8 * |bytes|)
  }

  /** Packing the view of `from_bytes` gives back the bytes. */
  lemma FromBytesRoundTrip(bytes: seq<byte>)
    ensures BitsToBytes(FromBytes(bytes).View()) == bytes
  {
    assert FromBytes(bytes).View() == BytesToBits(bytes);
    BytesRoundTrip(bytes, []);
  }

  /** Zero padding that fills the last byte of `n` bits. */
  function Padding(n: nat): (p: seq<bool>)
    ensures n + |p| == 8 * BytesNeeded(n)
    ensures forall j :: 0 <= j < |p| ==> !p[j]
  {
    seq(8 * BytesNeeded(n) - n, _ => false)
  }

  /** `copy_from_bit_slice`: a fresh, zero-padded storage of `bytes_needed(len)` bytes whose
      first bits are a copy of `bits`. */
  function CopyFromBitSlice(bits: seq<bool>): (r: Bits)
    ensures r.Valid() && r.bitStart == 0
    ensures |r.inner| == BytesNeeded(|bits|)
    ensures r.View() == bits
    ensures forall j :: |bits| <= j < 8 * |r.inner| ==> !BytesToBits(r.inner)[j]
  {
    var padded := bits + Padding(|bits|);
    BytesRoundTrip([], padded);
    assert padded[..|bits|] == bits;
    Bits(BitsToBytes(padded), 0, |bits|)
  }

  // ---------------------------------------------------------------------------------------
  // Slicing

  /** `slice_bits` as the code is written: the range is relative to the view's start, but its
      end is checked against `bitStart + bitLen`, the view's end measured from the start of
      the storage. Within the view the result is the intended sub-view. */
  function SliceBitsAsWritten(b: Bits, start: nat, end: nat): (r: Bits)
    requires start <= end <= b.bitStart + b.bitLen
    ensures r.inner == b.inner
    ensures b.Valid() && end <= b.bitLen ==> r.Valid() && r.View() == b.View()[start..end]
  {
    Bits(b.inner, b.bitStart + start, end - start)
  }

  /** The check in `slice_bits` admits ranges past the end of a view that does not start at
      the beginning of its storage: the slice can be longer than the view it was cut from,
      exposing storage bits outside it, or can reach past the storage altogether. */
  lemma SliceBitsAsWrittenEscapesView()
    ensures var b := SliceBits(FromBytes([0, 0xFF, 0, 0]), 8, 16);
            var s := SliceBitsAsWritten(b, 0, 12);
            s.Valid() && |s.View()| > |b.View()|
    ensures var b := SliceBits(FromBytes([0xAB, 0xCD]), 8, 16);
            16 <= b.bitStart + b.bitLen && !SliceBitsAsWritten(b, 0, 16).Valid()
  {
  }

  /** `slice_bits` with the bound checked against the view's length: the sub-view
      `[start, end)` of the view, sharing the storage. */
  function SliceBits(b: Bits, start: nat, end: nat): (r: Bits)
    requires b.Valid() && start <= end <= b.bitLen
    ensures r.Valid() && r.inner == b.inner
    ensures r.View() == b.View()[start..end]
  {
    SliceBitsAsWritten(b, start, end)
  }

  /** `slice_bytes`: the sub-view of whole bytes `[start, end)` counted from the view's start
      (which need not be a byte boundary of the storage). The code checks
      `8 * end <= bit_start + bit_len`, the same bound as `SliceBitsAsWritten`; this is the
      corrected one. */
  function SliceBytes(b: Bits, start: nat, end: nat): (r: Bits)
    requires b.Valid() && start <= end && 8 * end <= b.bitLen
    ensures r.Valid() && r.inner == b.inner
    ensures |r.View()| == 8 * (end - start)
    ensures forall j :: 0 <= j < |r.View()| ==> r.View()[j] == b.View()[8 * start + j]
  {
    SliceBits(b, 8 * start, 8 * end)
  }

  // ---------------------------------------------------------------------------------------
  // Splitting and shortening

  /** `inc_start_bits`: drop the first `n` bits from the view. */
  function IncStartBits(b: Bits, n: nat): (r: Bits)
    requires b.Valid() && n <= b.bitLen
    ensures r.Valid() && r.inner == b.inner
    ensures b.View() == b.View()[..n] + r.View()
  {
    Bits(b.inner, b.bitStart + n, b.bitLen - n)
  }

  /** `split_to_bits`: `r.1` is returned holding the first `at` bits and `r.0` (self
      afterwards) holds the rest; the two views are adjacent in the shared storage. */
  function SplitToBits(b: Bits, at: nat): (r: (Bits, Bits))
    requires b.Valid() && at <= b.bitLen
    ensures r.0.Valid() && r.1.Valid()
    ensures r.0.inner == b.inner && r.1.inner == b.inner
    ensures |r.1.View()| == at && r.1.View() + r.0.View() == b.View()
    ensures r.1.bitStart + r.1.bitLen == r.0.bitStart
  {
    (IncStartBits(b, at), b.(bitLen := at))
  }

  /** `split_to_bytes`: `split_to_bits` at `8 * at`. */
  function SplitToBytes(b: Bits, at: nat): (r: (Bits, Bits))
    requires b.Valid() && 8 * at <= b.bitLen
    ensures r.0.Valid() && r.1.Valid()
    ensures |r.1.View()| == 8 * at && r.1.View() + r.0.View() == b.View()
  {
    SplitToBits(b, 8 * at)
  }

  /** `split_off_bits`: `r.0` (self afterwards) keeps the first `at` bits and the returned
      `r.1` holds the rest. */
  function SplitOffBits(b: Bits, at: nat): (r: (Bits, Bits))
    requires b.Valid() && at <= b.bitLen
    ensures r.0.Valid() && r.1.Valid()
    ensures r.0.inner == b.inner && r.1.inner == b.inner
    ensures |r.0.View()| == at && r.0.View() + r.1.View() == b.View()
    ensures r.0.bitStart + r.0.bitLen == r.1.bitStart
  {
    (b.(bitLen := at), IncStartBits(b, at))
  }

  /** `split_off_bytes`: `split_off_bits` at `8 * at`. */
  function SplitOffBytes(b: Bits, at: nat): (r: (Bits, Bits))
    requires b.Valid() && 8 * at <= b.bitLen
    ensures r.0.Valid() && r.1.Valid()
    ensures |r.0.View()| == 8 * at && r.0.View() + r.1.View() == b.View()
  {
    SplitOffBits(b, 8 * at)
  }

  /** `truncate_bits`: keep the first `len` bits; no effect when `len` is not shorter. */
  function TruncateBits(b: Bits, len: nat): (r: Bits)
    requires b.Valid()
    ensures r.Valid() && r.inner == b.inner && r.bitStart == b.bitStart
    ensures r.View() == b.View()[..Min(len, b.bitLen)]
  {
    if len < b.bitLen then
      var r := b.(bitLen := len);
      assert r.View() == b.View()[..len];
      r
    else b
  }

  /** `truncate_bytes`: keep the first `len` whole bytes; no effect when not shorter. */
  function TruncateBytes(b: Bits, len: nat): (r: Bits)
    requires b.Valid()
    ensures r.Valid() && r.bitStart == b.bitStart
    ensures r.View() == b.View()[..Min(8 * len, b.bitLen)]
  {
    if 8 * len < b.bitLen then b.(bitLen := 8 * len) else b
  }

  /** `clear`: the view becomes empty. */
  function Clear(b: Bits): (r: Bits)
    requires b.Valid()
    ensures r.Valid() && r.View() == []
  {
    TruncateBits(b, 0)
  }

  /** `truncate_bits` keeps what `split_off_bits` keeps, as the documentation says. */
  lemma TruncateIsSplitOff(b: Bits, len: nat)
    requires b.Valid() && len <= b.bitLen
    ensures TruncateBits(b, len).View() == SplitOffBits(b, len).0.View()
  {
  }

  /** `len_bytes`: the number of complete bytes in view. */
  function LenBytes(b: Bits): (r: nat)
    ensures 8 * r <= b.bitLen < 8 * r + 8
  {
    b.bitLen / 8
  }

  // ---------------------------------------------------------------------------------------
  // Equality

  /** `PartialEq` as the code is written: two byte-aligned views compare their `chunk_bytes`,
      which run from the view's first byte to the END OF THE STORAGE, not of the view. */
  predicate EqAsWritten(a: Bits, b: Bits)
    requires a.Valid() && b.Valid()
  {
    if a.ByteAligned() && b.ByteAligned() then ChunkBytesAsWritten(a) == ChunkBytesAsWritten(b)
    else a.View() == b.View()
  }

  /** The aligned comparison in `PartialEq` ignores the view's end: a view and its own
      truncation compare equal, while two equal views over storage that differs after them
      compare unequal. */
  lemma EqAsWrittenIgnoresLength()
    ensures var a := FromBytes([1, 2]);
            var b := TruncateBytes(a, 1);
            EqAsWritten(a, b) && a.View() != b.View()
    ensures var a := TruncateBytes(FromBytes([1, 2]), 1);
            var b := TruncateBytes(FromBytes([1, 3]), 1);
            !EqAsWritten(a, b) && a.View() == b.View()
  {
    var a := TruncateBytes(FromBytes([1, 2]), 1);
    var b := TruncateBytes(FromBytes([1, 3]), 1);
    assert a.View() == BytesToBits([1, 2])[..8];
    BytesToBitsSlice([1, 2], 0, 1);
    BytesToBitsSlice([1, 3], 0, 1);
    assert [1, 2][0..1] == [1, 3][0..1];
  }

  /** `PartialEq` with the aligned fast path comparing the bytes in view: two handles are
      equal exactly when they view the same bits. */
  predicate Eq(a: Bits, b: Bits)
    requires a.Valid() && b.Valid()
    ensures Eq(a, b) <==> a.View() == b.View()
  {
    if a.ByteAligned() && b.ByteAligned() then
      BytesRoundTrip(ChunkBytes(a), []);
      BytesRoundTrip(ChunkBytes(b), []);
      ChunkBytes(a) == ChunkBytes(b)
    else a.View() == b.View()
  }

  // ---------------------------------------------------------------------------------------
  // `BitBuf for Bits` (src/buf/bit_buf_impls.rs:5-60)

  /** `advance`: consume `count` bits from the front of the view. */
  function Advance(b: Bits, count: nat): (r: Bits)
    requires b.Valid() && count <= b.bitLen
    ensures r.Valid() && r.bitLen == b.bitLen - count
    ensures r.View() == b.View()[count..]
    ensures b.ByteAligned() && count % 8 == 0 ==> r.ByteAligned()
  {
    WholeBytesAdd(b.bitStart, count);
    WholeBytesSub(b.bitLen, count);
    IncStartBits(b, count)
  }

  /** `chunk_bytes` as the code is written: the storage from the view's first byte to the
      end of the STORAGE. Its first bytes are the view's, but it runs on past the view's end. */
  function ChunkBytesAsWritten(b: Bits): (r: seq<byte>)
    requires b.Valid() && b.ByteAligned()
    ensures 8 * |r| >= b.bitLen
    ensures BytesToBits(r)[..b.bitLen] == b.View()
  {
    BytesToBitsSlice(b.inner, b.bitStart / 8, |b.inner|);
    b.inner[b.bitStart / 8..]
  }

  /** The trait promises `chunk_bytes` no longer than `remaining_bytes`; a view shorter than
      its storage breaks that promise. */
  lemma ChunkBytesAsWrittenExceedsRemaining()
    ensures var b := TruncateBytes(FromBytes([1, 2]), 1);
            b.ByteAligned() && |ChunkBytesAsWritten(b)| == 2 && LenBytes(b) == 1
  {
  }

  /** `chunk_bytes` cut at the view's end: exactly the bytes in view. */
  function ChunkBytes(b: Bits): (r: seq<byte>)
    requires b.Valid() && b.ByteAligned()
    ensures |r| == LenBytes(b)
    ensures BytesToBits(r) == b.View()
  {
    BytesToBitsSlice(b.inner, b.bitStart / 8, (b.bitStart + b.bitLen) / 8);
    b.inner[b.bitStart / 8 .. (b.bitStart + b.bitLen) / 8]
  }

  /** `try_copy_to_slice_bytes` as the code is written: the checks and the copied bytes are
      right, but the view advances by `count` BITS where `count` is a number of BYTES.
      The result is the handle afterwards and the bytes written into `dest`. */
  function TryCopyToSliceBytesAsWritten(b: Bits, count: nat): (r: Result<(Bits, seq<byte>)>)
    requires b.Valid()
    ensures !b.ByteAligned() ==> r == Err(Io(InvalidData))
    ensures b.ByteAligned() && b.bitLen / 8 < count ==> r == Err(Io(UnexpectedEof))
    ensures r.Ok? ==> r.value.0.Valid() && BytesToBits(r.value.1) == b.View()[..8 * count]
    ensures r.Ok? ==> r.value.0.bitLen == b.bitLen - count
  {
    if !b.ByteAligned() then IoErr(InvalidData)
    else if LenBytes(b) < count then IoErr(UnexpectedEof)
    else
      var src := ChunkBytesAsWritten(b);
      assert BytesToBits(src)[..8 * count] == BytesToBits(src[..count]) by {
        BytesToBitsSlice(src, 0, count);
      }
      Ok((Advance(b, count), src[..count]))
  }

  /** Copying two bytes out of a two-byte view leaves 14 bits behind instead of none. */
  lemma TryCopyToSliceBytesAsWrittenUnderAdvances()
    ensures var r := TryCopyToSliceBytesAsWritten(FromBytes([0x12, 0x34]), 2);
            r.Ok? && r.value.1 == [0x12, 0x34] && r.value.0.bitLen == 14
  {
    var r := TryCopyToSliceBytesAsWritten(FromBytes([0x12, 0x34]), 2);
    assert [0x12, 0x34][0..] == [0x12, 0x34];
  }
}

=== FILE: bits_mut.dfy ===
// `BitsMut` (src/buf/bits_mut.rs): a growable, writable view with a capacity. The storage is
// kept as bits (a whole number of bytes); `innerLen` is the byte length of the underlying
// `BytesMut`. `split_to`/`split_off` clone the `BytesMut`, which copies it, so each handle
// owns its own storage; the model gives each result its own copy.

module BitsMut {
  import opened BitUtil

  datatype BitsMut = BitsMut(storage: seq<bool>, innerLen: nat, bitStart: nat, bitLen: nat,
                             capacity: nat)
  {
    /** The capacity lies inside the storage and the view inside the capacity. */
    predicate Valid() {
      |storage| % 8 == 0 && bitStart + capacity <= |storage| && bitLen <= capacity
    }

    /** `Deref`: the bits in view. */
    function View(): (v: seq<bool>)
      requires Valid()
      ensures |v| == bitLen
    {
      storage[bitStart .. bitStart + bitLen]
    }

    /** The capacity after the view: where the next bits are written. */
    function Spare(): (s: seq<bool>)
      requires Valid()
      ensures |s| == capacity - bitLen
    {
      storage[bitStart + bitLen .. bitStart + capacity]
    }

    /** `byte_aligned` / `byte_aligned_mut` (src/buf/bit_buf_impls.rs:115-117,
        src/buf/bit_buf_mut_impls.rs:41-43). */
    predicate ByteAligned() {
      bitStart % 8 == 0 && bitLen % 8 == 0
    }
  }

  function Zeros(n: nat): (z: seq<bool>)
    ensures |z| == n && forall j :: 0 <= j < n ==> !z[j]
  {
    seq(n, _ => false)
  }

  // ---------------------------------------------------------------------------------------
  // Construction

  /** `with_capacity`: an empty view over `bytes_needed(capacity)` fresh bytes, able to take
      `capacity` bits. The fresh bytes are uninitialised in the code; the model zeroes them. */
  function WithCapacity(capacity: nat): (r: BitsMut)
    ensures r.Valid() && r.bitStart == 0 && r.View() == [] && r.innerLen == 0
    ensures r.capacity == capacity && |r.Spare()| == capacity
    ensures |r.storage| == 8 * BytesNeeded(capacity)
  {
    BitsMut(Zeros(8 * BytesNeeded(capacity)), 0, 0, 0, capacity)
  }

  /** `new`: `with_capacity(0)`. */
  function New(): (r: BitsMut)
    ensures r.Valid() && r.View() == [] && r.capacity == 0
  {
    WithCapacity(0)
  }

  /** `with_capacity_bytes`: `with_capacity(8 * capacity)`. */
  function WithCapacityBytes(capacity: nat): (r: BitsMut)
    ensures r.Valid() && r.View() == [] && r.capacity == 8 * capacity
    ensures |r.storage| == 8 * capacity
  {
    BytesNeededWhole(capacity);
    WithCapacity(8 * capacity)
  }

  /** `zeroed`: `len` zero bits over `bytes_needed(len)` zeroed bytes, with no spare capacity. */
  function Zeroed(len: nat): (r: BitsMut)
    ensures r.Valid() && r.bitStart == 0 && r.capacity == len
    ensures r.View() == Zeros(len)
    ensures r.innerLen == BytesNeeded(len) && |r.storage| == 8 * r.innerLen
  {
    BitsMut(Zeros(8 * BytesNeeded(len)), BytesNeeded(len), 0, len, len)
  }

  /** `zeroed_bytes`: `zeroed(8 * len)`. */
  function ZeroedBytes(len: nat): (r: BitsMut)
    ensures r.Valid() && r.View() == Zeros(8 * len) && r.capacity == 8 * len
  {
    Zeroed(8 * len)
  }

  /** `From<BitVec>` and `From<&BitSlice>`: a left-aligned copy whose capacity is every bit of
      the `bytes_needed(len)` bytes it occupies. */
  function FromBitVec(bv: seq<bool>): (r: BitsMut)
    ensures r.Valid() && r.bitStart == 0 && r.View() == bv
    ensures r.capacity == 8 * BytesNeeded(|bv|) && r.innerLen == BytesNeeded(|bv|)
  {
    var storage := bv + Zeros(8 * BytesNeeded(|bv|) - |bv|);
    assert storage[..|bv|] == bv;
    BitsMut(storage, BytesNeeded(|bv|), 0, |bv|, |storage|)
  }

  // ---------------------------------------------------------------------------------------
  // Splitting

  /** `advance_unchecked`: move the start by `count`, shortening the view (saturating) and
      the capacity; the end of the capacity stays where it was. */
  function AdvanceUnchecked(m: BitsMut, count: nat): (r: BitsMut)
    requires m.Valid() && count <= m.capacity
    ensures r.Valid() && r.storage == m.storage
    ensures r.View() == m.View()[Min(count, m.bitLen)..]
    ensures r.bitStart == m.bitStart + count && r.capacity == m.capacity - count
    ensures count == 0 ==> r == m
  {
    if count == 0 then m
    else
      m.(bitStart := m.bitStart + count,
         bitLen := if m.bitLen >= count then m.bitLen - count else 0,
         capacity := m.capacity - count)
  }

  /** `split_to`: the returned handle `r.1` holds the first `at` bits with capacity `at`, and
      `r.0` (self afterwards) keeps the rest of the view and of the capacity. The two cover
      adjacent, disjoint ranges of the storage. */
  function SplitTo(m: BitsMut, at: nat): (r: (BitsMut, BitsMut))
    requires m.Valid() && at <= m.bitLen
    ensures r.0.Valid() && r.1.Valid()
    ensures r.1.View() + r.0.View() == m.View() && |r.1.View()| == at
    ensures r.1.capacity == at && r.0.capacity == m.capacity - at
    ensures r.1.bitStart == m.bitStart && r.1.bitStart + r.1.capacity == r.0.bitStart
  {
    var rest := AdvanceUnchecked(m, at);
    var head := m.(capacity := at, bitLen := at);
    assert head.View() + rest.View() == m.View() by {
      assert m.View() == m.View()[..at] + m.View()[at..];
    }
    (rest, head)
  }

  /** `split_to_bytes`: `split_to(8 * at)`. */
  function SplitToBytes(m: BitsMut, at: nat): (r: (BitsMut, BitsMut))
    requires m.Valid() && 8 * at <= m.bitLen
    ensures r.0.Valid() && r.1.Valid()
    ensures r.1.View() + r.0.View() == m.View() && |r.1.View()| == 8 * at
  {
    SplitTo(m, 8 * at)
  }

  /** `split`: all of the view goes to the returned handle; self keeps an empty view and the
      spare capacity. */
  function Split(m: BitsMut): (r: (BitsMut, BitsMut))
    requires m.Valid()
    ensures r.0.Valid() && r.1.Valid()
    ensures r.1.View() == m.View() && r.0.View() == []
    ensures r.0.capacity == m.capacity - m.bitLen && r.0.Spare() == m.Spare()
  {
    SplitTo(m, m.bitLen)
  }

  /** `split_off`: self (`r.0`) keeps capacity `at` and the part of the view inside it, the
      returned handle `r.1` takes the rest of the view and of the capacity. The bound is the
      capacity, not the length. */
  function SplitOff(m: BitsMut, at: nat): (r: (BitsMut, BitsMut))
    requires m.Valid() && at <= m.capacity
    ensures r.0.Valid() && r.1.Valid()
    ensures r.0.View() + r.1.View() == m.View() && |r.0.View()| == Min(m.bitLen, at)
    ensures r.0.capacity == at && r.1.capacity == m.capacity - at
    ensures r.0.bitStart == m.bitStart && r.0.bitStart + r.0.capacity == r.1.bitStart
  {
    var other := AdvanceUnchecked(m, at);
    var kept := m.(capacity := at, bitLen := Min(m.bitLen, at));
    assert kept.View() + other.View() == m.View() by {
      assert m.View() == m.View()[..Min(m.bitLen, at)] + m.View()[Min(m.bitLen, at)..];
    }
    (kept, other)
  }

  /** `split_off_bytes`: `split_off(8 * at)`. */
  function SplitOffBytes(m: BitsMut, at: nat): (r: (BitsMut, BitsMut))
    requires m.Valid() && 8 * at <= m.capacity
    ensures r.0.Valid() && r.1.Valid()
    ensures r.0.View() + r.1.View() == m.View() && r.0.capacity == 8 * at
  {
    SplitOff(m, 8 * at)
  }

  /** `len_bytes`: the number of complete bytes in view. */
  function LenBytes(m: BitsMut): (r: nat)
    ensures 8 * r <= m.bitLen < 8 * r + 8
  {
    m.bitLen / 8
  }

  // ---------------------------------------------------------------------------------------
  // `BitBuf for BitsMut` (src/buf/bit_buf_impls.rs:62-118)

  /** `advance`: consume `count` bits from the front; the capacity shrinks with the view, so
      the spare capacity is untouched. */
  function Advance(m: BitsMut, count: nat): (r: BitsMut)
    requires m.Valid() && count <= m.bitLen
    ensures r.Valid() && r.View() == m.View()[count..] && r.Spare() == m.Spare()
    ensures r.capacity == m.capacity - count
    ensures m.ByteAligned() && count % 8 == 0 ==> r.ByteAligned()
  {
    WholeBytesAdd(m.bitStart, count);
    WholeBytesSub(m.bitLen, count);
    var r := BitsMut(m.storage, m.innerLen, m.bitStart + count, m.bitLen - count,
                     m.capacity - count);
    assert r.bitStart + r.bitLen == m.bitStart + m.bitLen;
    assert r.bitStart + r.capacity == m.bitStart + m.capacity;
    r
  }

  /** `chunk_bytes` as the code is written: the `BytesMut`'s bytes from the view's first byte
      to the `BytesMut`'s length, so the slice index panics when the view starts past that
      length. The bytes in view come first, but after a `split_off`, which keeps the whole
      `BytesMut`, it runs on past the view's end. */
  function ChunkBytesAsWritten(m: BitsMut): (r: seq<byte>)
    requires m.Valid() && m.ByteAligned()
    requires m.bitStart / 8 <= m.innerLen && 8 * m.innerLen <= |m.storage|
    ensures |r| == m.innerLen - m.bitStart / 8
    ensures BytesToBits(r) == m.storage[m.bitStart .. 8 * m.innerLen]
    ensures m.bitStart + m.bitLen <= 8 * m.innerLen ==> BytesToBits(r)[..m.bitLen] == m.View()
  {
    var bits := m.storage[m.bitStart .. 8 * m.innerLen];
    assert |bits| == 8 * (m.innerLen - m.bitStart / 8);
    BytesRoundTrip([], bits);
    BitsToBytes(bits)
  }

  /** `zeroed_bytes(2).split_off(8)` keeps the whole two-byte `BytesMut` in the handle it
      leaves behind, with one byte in view. */
  lemma SplitOffKeepsWholeBuffer()
    ensures SplitOff(ZeroedBytes(2), 8).0 == BitsMut(Zeros(16), 2, 0, 8, 8)
  {
    BytesNeededWhole(2);
  }

  /** The trait promises `chunk_bytes` no longer than `remaining_bytes`: a handle over a
      two-byte `BytesMut` with one byte in view, as `split_off(8)` leaves it
      (`SplitOffKeepsWholeBuffer`), hands out two bytes. */
  lemma ChunkBytesAsWrittenExceedsView(storage: seq<bool>)
    requires |storage| == 16
    ensures var k := BitsMut(storage, 2, 0, 8, 8);
            k.Valid() && k.ByteAligned() && LenBytes(k) == 1
            && |ChunkBytesAsWritten(k)| == 2 && |ChunkBytes(k)| == 1
  {
  }

  /** `chunk_bytes` cut at the view's end: exactly the bytes in view. */
  function ChunkBytes(m: BitsMut): (r: seq<byte>)
    requires m.Valid() && m.ByteAligned()
    ensures 8 * |r| == m.bitLen && BytesToBits(r) == m.View()
  {
    BytesRoundTrip([], m.View());
    BitsToBytes(m.View())
  }

  // ---------------------------------------------------------------------------------------
  // `BitBufMut for BitsMut` (src/buf/bit_buf_mut_impls.rs:7-44)

  /** `remaining_mut_bits`: `usize::MAX - bit_len`, the bits that could still be appended. */
  function RemainingMut(m: BitsMut): (r: nat)
    requires m.bitLen <= USIZE_MAX
    ensures m.bitLen + r == USIZE_MAX
  {
    USIZE_MAX - m.bitLen
  }

  /** `reserve_bits`, which is not part of this model: the capacity grows to `capacity` over
      fresh zeroed storage, and every bit already in the storage stays where it was. */
  function Reserve(m: BitsMut, capacity: nat): (r: BitsMut)
    requires m.Valid() && m.capacity <= capacity
    ensures r.Valid() && r.View() == m.View() && r.bitStart == m.bitStart
    ensures r.bitLen == m.bitLen && r.innerLen == m.innerLen && r.capacity == capacity
    ensures r.Spare()[..|m.Spare()|] == m.Spare()
  {
    var extra := 8 * BytesNeeded(capacity - m.capacity);
    var r := m.(storage := m.storage + Zeros(extra), capacity := capacity);
    assert r.Valid();
    assert r.View() == m.View();
    assert r.Spare()[..|m.Spare()|] == m.Spare() by {
      assert r.storage[..|m.storage|] == m.storage;
      forall i | 0 <= i < |m.Spare()|
        ensures r.Spare()[i] == m.Spare()[i]
      {
        assert r.Spare()[i] == r.storage[m.bitStart + m.bitLen + i];
      }
    }
    r
  }

  /** Writing `x` at the start of the spare capacity (what a caller does to the slice
      `chunk_mut_bits` returns); the view and everything past `x` are untouched. */
  function WriteSpare(m: BitsMut, x: seq<bool>): (r: BitsMut)
    requires m.Valid() && |x| <= m.capacity - m.bitLen
    ensures r.Valid() && r.View() == m.View()
    ensures r.Spare() == x + m.Spare()[|x|..]
    ensures r.bitStart == m.bitStart && r.bitLen == m.bitLen && r.capacity == m.capacity
    ensures r.innerLen == m.innerLen
  {
    var at := m.bitStart + m.bitLen;
    var r := m.(storage := m.storage[..at] + x + m.storage[at + |x|..]);
    assert r.View() == m.View();
    assert r.Spare() == x + m.Spare()[|x|..];
    r
  }

  /** `advance_mut_bits` as the code is written. It asserts only `cnt <= remaining_mut_bits`,
      and `BytesMut::advance_mut` checks only the bytes it grows by against the bytes it holds
      (the storage here). The length grows by `cnt` and the capacity stays, so the result keeps
      the `BitsMut` invariant exactly when `cnt` fits in the spare capacity; where it does, it is
      `AdvanceMut`. */
  function AdvanceMutAsWritten(m: BitsMut, cnt: nat): (r: BitsMut)
    requires m.Valid() && m.bitLen + cnt <= USIZE_MAX
    requires m.innerLen + (BytesNeeded(m.bitLen + cnt) - BytesNeeded(m.bitLen)) <= |m.storage| / 8
    ensures r.storage == m.storage && r.bitStart == m.bitStart && r.capacity == m.capacity
    ensures r.bitLen == m.bitLen + cnt
    ensures r.Valid() <==> m.bitLen + cnt <= m.capacity
    ensures m.bitLen + cnt <= m.capacity ==> r == AdvanceMut(m, cnt)
  {
    var current := BytesNeeded(m.bitLen);
    var newLen := m.bitLen + cnt;
    BytesNeededMonotone(m.bitLen, newLen);
    var grown := if BytesNeeded(newLen) > current then m.innerLen + (BytesNeeded(newLen) - current)
                 else m.innerLen;
    m.(bitLen := newLen, innerLen := grown)
  }

  /** `with_capacity(4)` holds one byte, so `advance_mut_bits(8)` passes both checks and leaves
      eight bits in view with a capacity of four. `split_to(8)` then passes its own check
      (`8 <= bit_len`) and calls `advance_unchecked(8)`, whose caller must keep the count within
      the capacity. */
  lemma AdvanceMutAsWrittenPassesCapacity()
    ensures var m := WithCapacity(4);
            m.innerLen + (BytesNeeded(8) - BytesNeeded(0)) <= |m.storage| / 8
            && var r := AdvanceMutAsWritten(m, 8);
            !r.Valid() && r.bitLen == 8 && r.capacity == 4
  {
    assert BytesNeeded(4) == 1 && BytesNeeded(8) == 1 && BytesNeeded(0) == 0;
  }

  /** `advance_mut_bits` with the bound the trait's comment implies (the next chunk starts `cnt`
      bits further into the memory `chunk_mut_bits` handed out): the first `cnt` spare bits join
      the view, and the `BytesMut` grows by the number of bytes the view newly reaches. */
  function AdvanceMut(m: BitsMut, cnt: nat): (r: BitsMut)
    requires m.Valid() && m.bitLen + cnt <= USIZE_MAX && m.bitLen + cnt <= m.capacity
    ensures r.Valid() && r.View() == m.View() + m.Spare()[..cnt]
    ensures r.Spare() == m.Spare()[cnt..]
    ensures r.innerLen == m.innerLen + (BytesNeeded(m.bitLen + cnt) - BytesNeeded(m.bitLen))
  {
    var current := BytesNeeded(m.bitLen);
    var newLen := m.bitLen + cnt;
    BytesNeededMonotone(m.bitLen, newLen);
    var grown := if BytesNeeded(newLen) > current then m.innerLen + (BytesNeeded(newLen) - current)
                 else m.innerLen;
    var r := m.(bitLen := newLen, innerLen := grown);
    AdjacentSlices(m.storage, m.bitStart, m.bitStart + m.bitLen, m.bitStart + newLen);
    assert m.Spare()[..cnt] == m.storage[m.bitStart + m.bitLen .. m.bitStart + newLen];
    r
  }

  /** Two adjacent slices of a sequence make up the slice across both. */
  lemma AdjacentSlices<T>(s: seq<T>, i: nat, j: nat, k: nat)
    requires i <= j <= k <= |s|
    ensures s[i..k] == s[i..j] + s[j..k]
  {
    assert s[i..k] == s[i..k][..j - i] + s[i..k][j - i..];
  }

  /** When the view starts on a byte boundary, `advance_mut_bits` keeps the `BytesMut` length
      equal to the bytes the view reaches: `inner_len == bytes_needed(bit_start + bit_len)`. */
  lemma AdvanceMutKeepsInnerLen(m: BitsMut, cnt: nat)
    requires m.Valid() && m.bitLen + cnt <= USIZE_MAX && m.bitLen + cnt <= m.capacity
    requires m.bitStart % 8 == 0 && m.innerLen == BytesNeeded(m.bitStart + m.bitLen)
    ensures var r := AdvanceMut(m, cnt); r.innerLen == BytesNeeded(r.bitStart + r.bitLen)
  {
    var k := m.bitStart / 8;
    assert m.bitStart == 8 * k;
    BytesNeededShift(k, m.bitLen);
    BytesNeededShift(k, m.bitLen + cnt);
  }

  lemma BytesNeededShift(k: nat, n: nat)
    ensures BytesNeeded(8 * k + n) == k + BytesNeeded(n)
  {
    assert 8 * k + n + 7 == 8 * k + (n + 7);
    DivModUnique(8 * k + n + 7, 8, k + (n + 7) / 8, (n + 7) % 8);
  }
}

=== FILE: buf_byte_order.dfy ===
/** The byte orders of the buffer layer, src/buf/byte_order.rs: loading and storing an integer
    in a span of bits (bitvec's `load_be`/`load_le`/`store_be`/`store_le` over `Msb0` storage),
    and packing `u16`, `u24` and `u32` values into whole bytes. */
module BufByteOrder {
  import opened BitUtil
  import opened ByteOrder

  /** bitvec's `load_le` over a span that starts on a storage byte boundary: the span splits
      into 8-bit groups from its start, the first group is the least significant, each group is
      read most significant bit first, and a trailing partial group supplies the top bits. */
  function LoadLe(bits: seq<bool>): nat
    decreases |bits|
  {
    if |bits| <= 8 then ValueOf(bits)
    else ValueOf(bits[..8]) + 256 * LoadLe(bits[8..])
  }

  /** bitvec's `store_le`: the inverse layout of `LoadLe`, keeping the low `n` bits of `value`. */
  function StoreLe(value: nat, n: nat): (bits: seq<bool>)
    ensures |bits| == n
    decreases n
  {
    if n <= 8 then ToBits(value, n)
    else ToBits(value, 8) + StoreLe(value / 256, n - 8)
  }

  /** `ByteOrder::load`: big endian is `load_be`, the span read most significant bit first;
      little endian is `load_le`. bitvec panics on an empty span or one wider than the target
      integer; the widest target used is `u32`. */
  function Load(order: Order, bits: seq<bool>): (v: nat)
    requires 0 < |bits| <= 32
    ensures v < Pow2(|bits|)
  {
    match order
    case BigEndian => ValueOfBound(bits); ValueOf(bits)
    case LittleEndian => LoadLeBound(bits); LoadLe(bits)
  }

  /** `ByteOrder::store` into a span of `n` bits: `store_be` or `store_le` of the low `n` bits. */
  function Store(order: Order, value: nat, n: nat): (bits: seq<bool>)
    requires 0 < n <= 32
    ensures |bits| == n
  {
    match order
    case BigEndian => ToBits(value, n)
    case LittleEndian => StoreLe(value, n)
  }

  lemma {:induction false} LoadLeBound(bits: seq<bool>)
    ensures LoadLe(bits) < Pow2(|bits|)
    decreases |bits|
  {
    ValueOfBound(bits);
    if |bits| > 8 {
      var n := |bits|;
      ValueOfBound(bits[..8]);
      LoadLeBound(bits[8..]);
      Pow2Add(8, n - 8);
      Pow2Values();
      MulMonotone(256, LoadLe(bits[8..]) + 1, Pow2(n - 8));
    }
  }

  lemma {:induction false} LoadStoreLe(value: nat, n: nat)
    ensures LoadLe(StoreLe(value, n)) == value % Pow2(n)
    decreases n
  {
    if n <= 8 {
      ValueOfToBits(value, n);
    } else {
      var bits := StoreLe(value, n);
      assert bits[..8] == ToBits(value, 8);
      assert bits[8..] == StoreLe(value / 256, n - 8);
      ValueOfToBits(value, 8);
      LoadStoreLe(value / 256, n - 8);
      Pow2Values();
      Pow2Add(8, n - 8);
      ModMul(value, 256, Pow2(n - 8));
    }
  }

  lemma {:induction false} StoreLoadLe(bits: seq<bool>)
    ensures StoreLe(LoadLe(bits), |bits|) == bits
    decreases |bits|
  {
    var n := |bits|;
    if n <= 8 {
      ToBitsValueOf(bits);
    } else {
      var x := ValueOf(bits[..8]);
      var y := LoadLe(bits[8..]);
      var v := x + 256 * y;
      ValueOfBound(bits[..8]);
      Pow2Values();
      DivModUnique(v, 256, y, x);
      ToBitsMod(v, 8);
      ToBitsValueOf(bits[..8]);
      StoreLoadLe(bits[8..]);
      assert bits == bits[..8] + bits[8..];
    }
  }

  /** Storing a value into `n` bits and loading it back gives the value modulo `2^n`, in either
      byte order. */
  lemma LoadStore(order: Order, value: nat, n: nat)
    requires 0 < n <= 32
    ensures Load(order, Store(order, value, n)) == value % Pow2(n)
  {
    match order
    case BigEndian => ValueOfToBits(value, n);
    case LittleEndian => LoadStoreLe(value, n);
  }

  /** Loading a span and storing the value back into a span of the same length reproduces the
      span, in either byte order. */
  lemma StoreLoad(order: Order, bits: seq<bool>)
    requires 0 < |bits| <= 32
    ensures Store(order, Load(order, bits), |bits|) == bits
  {
    match order
    case BigEndian => ToBitsValueOf(bits);
    case LittleEndian => StoreLoadLe(bits);
  }

  // ---------------------------------------------------------------------------------------
  // Loads in place, at any offset into the storage

  /** bitvec's `load_le` over a span that begins `head` bits into a storage byte. The load
      goes element by element: the span's part of its first byte (its last `8 - head` bits,
      or the whole span when it ends inside that byte) is the least significant group, and
      the rest is grouped by whole storage bytes as in `LoadLe`. */
  function LoadLeAt(head: nat, bits: seq<bool>): nat
    requires head < 8
  {
    var g := 8 - head;
    if |bits| <= g then ValueOf(bits)
    else ValueOf(bits[..g]) + Pow2(g) * LoadLe(bits[g..])
  }

  /** A span that begins on a storage byte boundary loads in place as `LoadLe` groups it. */
  lemma {:induction false} LoadLeAtZero(bits: seq<bool>)
    ensures LoadLeAt(0, bits) == LoadLe(bits)
  {
    Pow2Values();
  }

  lemma {:induction false} LoadLeAtBound(head: nat, bits: seq<bool>)
    requires head < 8
    ensures LoadLeAt(head, bits) < Pow2(|bits|)
  {
    if |bits| <= 8 - head {
      ValueOfBound(bits);
    } else {
      HeadGroupBound(8 - head, bits);
    }
  }

  /** A head group of `g` bits below the bytes grouped by `LoadLe` keeps the value below
      `2^|bits|`. */
  lemma {:induction false} HeadGroupBound(g: nat, bits: seq<bool>)
    requires g < |bits|
    ensures ValueOf(bits[..g]) + Pow2(g) * LoadLe(bits[g..]) < Pow2(|bits|)
  {
    var x, y, n := ValueOf(bits[..g]), LoadLe(bits[g..]), |bits|;
    ValueOfBound(bits[..g]);
    LoadLeBound(bits[g..]);
    DigitsBelowPow2(x, y, g, n);
  }

  /** A low digit of `g` bits and a high digit of `n - g` bits make a number of `n` bits. */
  lemma {:induction false} DigitsBelowPow2(x: nat, y: nat, g: nat, n: nat)
    requires g <= n && x < Pow2(g) && y < Pow2(n - g)
    ensures x + Pow2(g) * y < Pow2(n)
  {
    DigitBound(x, y, Pow2(g), Pow2(n - g));
    Pow2Add(g, n - g);
  }

  /** A low digit below `p` and a high digit below `q` make a number below `p * q`. */
  lemma {:induction false} DigitBound(x: nat, y: nat, p: nat, q: nat)
    requires x < p && y < q
    ensures x + p * y < p * q
  {
    MulMonotone(p, y + 1, q);
    MulDistrib(p, y, 1);
  }

  /** `ByteOrder::load` run in place on a span `head` bits into its first storage byte:
      `load_be` reads the span most significant bit first whatever the offset, and `load_le`
      is `LoadLeAt`. On a byte boundary, and in big endian everywhere, it is `Load`. */
  function LoadAt(order: Order, head: nat, bits: seq<bool>): (v: nat)
    requires head < 8 && 0 < |bits| <= 32
    ensures v < Pow2(|bits|)
    ensures head == 0 || order == BigEndian ==> v == Load(order, bits)
  {
    match order
    case BigEndian => Load(order, bits)
    case LittleEndian =>
      LoadLeAtBound(head, bits);
      LoadLeAtZero(bits);
      LoadLeAt(head, bits)
  }

  // ---------------------------------------------------------------------------------------
  // Whole-byte integers

  /** `u16::from_be_bytes` / `from_le_bytes`: the slice must be exactly two bytes long
      (`try_into().unwrap()` panics otherwise). */
  function LoadU16(order: Order, src: seq<byte>): (v: nat)
    requires |src| == 2
    ensures v < 0x1_0000
  {
    match order
    case BigEndian => (src[0] as int) * 0x100 + (src[1] as int)
    case LittleEndian => (src[1] as int) * 0x100 + (src[0] as int)
  }

  /** `load_u24`: ors the first three bytes together, shifting by 8 between them; the slice
      must hold at least three bytes. */
  function LoadU24(order: Order, src: seq<byte>): (v: nat)
    requires |src| >= 3
    ensures v < 0x100_0000
  {
    match order
    case BigEndian => ((src[0] as int) * 0x100 + (src[1] as int)) * 0x100 + (src[2] as int)
    case LittleEndian => ((src[2] as int) * 0x100 + (src[1] as int)) * 0x100 + (src[0] as int)
  }

  /** `u32::from_be_bytes` / `from_le_bytes`: the slice must be exactly four bytes long. */
  function LoadU32(order: Order, src: seq<byte>): (v: nat)
    requires |src| == 4
    ensures v < U32_BOUND
  {
    match order
    case BigEndian => (((src[0] as int) * 0x100 + (src[1] as int)) * 0x100 + (src[2] as int)) * 0x100 + (src[3] as int)
    case LittleEndian => (((src[3] as int) * 0x100 + (src[2] as int)) * 0x100 + (src[1] as int)) * 0x100 + (src[0] as int)
  }

  /** `value >> shift` truncated by `as u8`. */
  function ByteAt(value: nat, shift: nat): byte {
    (value / Pow2(shift)) % 0x100
  }

  /** The bytes of `value`, most significant first, `count` of them. */
  function BigEndianBytes(value: nat, count: nat): (r: seq<byte>)
    ensures |r| == count
  {
    seq(count, i requires 0 <= i < count => ByteAt(value, 8 * (count - 1 - i)))
  }

  /** `store_u16`, `store_u24`, `store_u32`: overwrite the first `count` bytes of `dest`
      (which must be at least that long, or the indexing panics) with `value`, most significant
      byte first for big endian and least significant first for little endian. */
  function StoreBytes(order: Order, dest: seq<byte>, value: nat, count: nat): (r: seq<byte>)
    requires count <= |dest|
    ensures |r| == |dest| && r[count..] == dest[count..]
  {
    var bytes := match order
      case BigEndian => BigEndianBytes(value, count)
      case LittleEndian => Reverse(BigEndianBytes(value, count));
    bytes + dest[count..]
  }

  function StoreU16(order: Order, dest: seq<byte>, value: nat): (r: seq<byte>)
    requires |dest| >= 2 && value < 0x1_0000
    ensures |r| == |dest| && r[2..] == dest[2..]
    ensures LoadU16(order, r[..2]) == value
  {
    var r := StoreBytes(order, dest, value, 2);
    StoreU16Loads(order, dest, value);
    r
  }

  function StoreU24(order: Order, dest: seq<byte>, value: nat): (r: seq<byte>)
    requires |dest| >= 3 && value < 0x100_0000
    ensures |r| == |dest| && r[3..] == dest[3..]
    ensures LoadU24(order, r) == value
  {
    var r := StoreBytes(order, dest, value, 3);
    StoreU24Loads(order, dest, value);
    r
  }

  function StoreU32(order: Order, dest: seq<byte>, value: nat): (r: seq<byte>)
    requires |dest| >= 4 && value < U32_BOUND
    ensures |r| == |dest| && r[4..] == dest[4..]
    ensures LoadU32(order, r[..4]) == value
  {
    var r := StoreBytes(order, dest, value, 4);
    StoreU32Loads(order, dest, value);
    r
  }

  /** Splitting a value below `256 * hi` into its low byte and the rest. */
  lemma SplitLowByte(value: nat, hi: nat)
    requires value < 0x100 * hi
    ensures value == (value / 0x100) * 0x100 + value % 0x100
    ensures value / 0x100 < hi
  {
  }

  lemma ByteAtShift(value: nat, k: nat)
    ensures ByteAt(value, 8 * (k + 1)) == ByteAt(value / 0x100, 8 * k)
  {
    Pow2Values();
    Pow2Add(8, 8 * k);
    ModMul(value, 0x100, Pow2(8 * k));
  }

  lemma ByteAtZero(value: nat)
    ensures ByteAt(value, 0) == value % 0x100
  {
  }

  lemma StoreU16Loads(order: Order, dest: seq<byte>, value: nat)
    requires |dest| >= 2 && value < 0x1_0000
    ensures LoadU16(order, StoreBytes(order, dest, value, 2)[..2]) == value
  {
    var b := BigEndianBytes(value, 2);
    ByteAtShift(value, 0);
    ByteAtZero(value);
    ByteAtZero(value / 0x100);
    SplitLowByte(value, 0x100);
    ModOfSmall(value / 0x100, 0x100);
    assert b[0] == value / 0x100 && b[1] == value % 0x100;
  }

  lemma StoreU24Loads(order: Order, dest: seq<byte>, value: nat)
    requires |dest| >= 3 && value < 0x100_0000
    ensures LoadU24(order, StoreBytes(order, dest, value, 3)) == value
  {
    var b := BigEndianBytes(value, 3);
    var v1 := value / 0x100;
    ByteAtZero(value);
    ByteAtShift(value, 0);
    ByteAtZero(v1);
    ByteAtShift(value, 1);
    ByteAtShift(v1, 0);
    ByteAtZero(v1 / 0x100);
    SplitLowByte(value, 0x1_0000);
    SplitLowByte(v1, 0x100);
    ModOfSmall(v1 / 0x100, 0x100);
    assert b[0] == v1 / 0x100 && b[1] == v1 % 0x100 && b[2] == value % 0x100;
  }

  lemma StoreU32Loads(order: Order, dest: seq<byte>, value: nat)
    requires |dest| >= 4 && value < U32_BOUND
    ensures LoadU32(order, StoreBytes(order, dest, value, 4)[..4]) == value
  {
    var b := BigEndianBytes(value, 4);
    var v1 := value / 0x100;
    var v2 := v1 / 0x100;
    ByteAtZero(value);
    ByteAtShift(value, 0);
    ByteAtZero(v1);
    ByteAtShift(value, 1);
    ByteAtShift(v1, 0);
    ByteAtZero(v2);
    ByteAtShift(value, 2);
    ByteAtShift(v1, 1);
    ByteAtShift(v2, 0);
    ByteAtZero(v2 / 0x100);
    SplitLowByte(value, 0x100_0000);
    SplitLowByte(v1, 0x1_0000);
    SplitLowByte(v2, 0x100);
    ModOfSmall(v2 / 0x100, 0x100);
    assert b[0] == v2 / 0x100 && b[1] == v2 % 0x100 && b[2] == v1 % 0x100 && b[3] == value % 0x100;
  }

  /** Loading two bytes and storing the value back reproduces them, in either byte order. */
  lemma StoreLoadU16(order: Order, dest: seq<byte>)
    requires |dest| >= 2
    ensures StoreU16(order, dest, LoadU16(order, dest[..2])) == dest
  {
    var r := StoreU16(order, dest, LoadU16(order, dest[..2]));
    LoadU16Injective(order, r[..2], dest[..2]);
    assert r == r[..2] + r[2..];
    assert dest == dest[..2] + dest[2..];
  }

  /** Loading three bytes and storing the value back reproduces them, in either byte order. */
  lemma StoreLoadU24(order: Order, dest: seq<byte>)
    requires |dest| >= 3
    ensures StoreU24(order, dest, LoadU24(order, dest)) == dest
  {
    var r := StoreU24(order, dest, LoadU24(order, dest));
    LoadU24Injective(order, r, dest);
    assert r == r[..3] + r[3..];
    assert dest == dest[..3] + dest[3..];
  }

  /** Loading four bytes and storing the value back reproduces them, in either byte order. */
  lemma StoreLoadU32(order: Order, dest: seq<byte>)
    requires |dest| >= 4
    ensures StoreU32(order, dest, LoadU32(order, dest[..4])) == dest
  {
    var r := StoreU32(order, dest, LoadU32(order, dest[..4]));
    LoadU32Injective(order, r[..4], dest[..4]);
    assert r == r[..4] + r[4..];
    assert dest == dest[..4] + dest[4..];
  }

  lemma BaseDigits(hi1: nat, lo1: byte, hi2: nat, lo2: byte)
    requires hi1 * 0x100 + lo1 == hi2 * 0x100 + lo2
    ensures hi1 == hi2 && lo1 == lo2
  {
    DivModUnique(hi1 * 0x100 + lo1, 0x100, hi1, lo1);
    DivModUnique(hi2 * 0x100 + lo2, 0x100, hi2, lo2);
  }

  lemma LoadU16Injective(order: Order, a: seq<byte>, b: seq<byte>)
    requires |a| == 2 && |b| == 2 && LoadU16(order, a) == LoadU16(order, b)
    ensures a == b
  {
    match order
    case BigEndian => BaseDigits(a[0], a[1], b[0], b[1]);
    case LittleEndian => BaseDigits(a[1], a[0], b[1], b[0]);
  }

  lemma LoadU24Injective(order: Order, a: seq<byte>, b: seq<byte>)
    requires |a| >= 3 && |b| >= 3 && LoadU24(order, a) == LoadU24(order, b)
    ensures a[..3] == b[..3]
  {
    match order
    case BigEndian =>
      BaseDigits((a[0] as int) * 0x100 + a[1], a[2], (b[0] as int) * 0x100 + b[1], b[2]);
      BaseDigits(a[0], a[1], b[0], b[1]);
    case LittleEndian =>
      BaseDigits((a[2] as int) * 0x100 + a[1], a[0], (b[2] as int) * 0x100 + b[1], b[0]);
      BaseDigits(a[2], a[1], b[2], b[1]);
  }

  lemma LoadU32Injective(order: Order, a: seq<byte>, b: seq<byte>)
    requires |a| == 4 && |b| == 4 && LoadU32(order, a) == LoadU32(order, b)
    ensures a == b
  {
    match order
    case BigEndian =>
      BaseDigits(((a[0] as int) * 0x100 + a[1]) * 0x100 + a[2], a[3], ((b[0] as int) * 0x100 + b[1]) * 0x100 + b[2], b[3]);
      BaseDigits((a[0] as int) * 0x100 + a[1], a[2], (b[0] as int) * 0x100 + b[1], b[2]);
      BaseDigits(a[0], a[1], b[0], b[1]);
    case LittleEndian =>
      BaseDigits(((a[3] as int) * 0x100 + a[2]) * 0x100 + a[1], a[0], ((b[3] as int) * 0x100 + b[2]) * 0x100 + b[1], b[0]);
      BaseDigits((a[3] as int) * 0x100 + a[2], a[1], (b[3] as int) * 0x100 + b[2], b[1]);
      BaseDigits(a[3], a[2], b[3], b[2]);
  }

  /** The little-endian bytes of a value are its big-endian bytes reversed. */
  lemma LittleEndianBytesReversed(dest: seq<byte>, value: nat, count: nat)
    requires count <= |dest|
    ensures StoreBytes(LittleEndian, dest, value, count)[..count]
         == Reverse(StoreBytes(BigEndian, dest, value, count)[..count])
  {
  }

  // ---------------------------------------------------------------------------------------
  // Agreement between the byte loads and the bit loads

  /** The big-endian base-256 value of a byte sequence. */
  function BeValue(bytes: seq<byte>): nat
    decreases |bytes|
  {
    if |bytes| == 0 then 0 else BeValue(bytes[..|bytes| - 1]) * 0x100 + bytes[|bytes| - 1]
  }

  lemma {:induction false} ValueOfBytes(bytes: seq<byte>)
    ensures ValueOf(BytesToBits(bytes)) == BeValue(bytes)
    decreases |bytes|
  {
    var n := |bytes|;
    if n > 0 {
      var init := bytes[..n - 1];
      assert bytes == init + [bytes[n - 1]];
      BytesToBitsAppend(init, [bytes[n - 1]]);
      assert BytesToBits([bytes[n - 1]]) == ByteToBits(bytes[n - 1]);
      ValueOfAppend(BytesToBits(init), ByteToBits(bytes[n - 1]));
      ByteRoundTrip(bytes[n - 1], ByteToBits(bytes[n - 1]));
      Pow2Values();
      ValueOfBytes(init);
    }
  }

  lemma {:induction false} LoadLeBytes(bytes: seq<byte>)
    requires |bytes| > 0
    ensures LoadLe(BytesToBits(bytes)) == BeValue(Reverse(bytes))
    decreases |bytes|
  {
    var bits := BytesToBits(bytes);
    BytesToBitsChunk(bytes, 0);
    ByteRoundTrip(bytes[0], ByteToBits(bytes[0]));
    if |bytes| == 1 {
      assert bits == bits[..8];
      assert Reverse(bytes)[..0] == [];
    } else {
      var rest := bytes[1..];
      assert bytes == [bytes[0]] + rest;
      BytesToBitsAppend([bytes[0]], rest);
      assert bits[8..] == BytesToBits(rest);
      LoadLeBytes(rest);
      var rr := Reverse(bytes);
      assert rr[..|rr| - 1] == Reverse(rest);
    }
  }

  lemma BeValueExpand(s: seq<byte>)
    ensures |s| == 2 ==> BeValue(s) == (s[0] as int) * 0x100 + s[1]
    ensures |s| == 3 ==> BeValue(s) == ((s[0] as int) * 0x100 + s[1]) * 0x100 + s[2]
    ensures |s| == 4 ==> BeValue(s) == (((s[0] as int) * 0x100 + s[1]) * 0x100 + s[2]) * 0x100 + s[3]
  {
    if 2 <= |s| <= 4 {
      var n := |s|;
      assert s[..1][..0] == [];
      assert BeValue(s[..1]) == s[0];
      assert s[..2][..1] == s[..1];
      assert BeValue(s[..2]) == BeValue(s[..1]) * 0x100 + s[1];
      if n >= 3 {
        assert s[..3][..2] == s[..2];
        assert BeValue(s[..3]) == BeValue(s[..2]) * 0x100 + s[2];
      }
      if n == 4 {
        assert s[..4] == s;
        assert BeValue(s) == BeValue(s[..3]) * 0x100 + s[3];
      }
      assert s[..n] == s;
    }
  }

  /** The whole-byte loads agree with the bit-span loads over the same bytes, so the aligned
      fast paths of the numeric getters decode exactly what the bit path would. */
  lemma ByteLoadsAgreeWithBitLoads(order: Order, bytes: seq<byte>)
    ensures |bytes| == 2 ==> LoadU16(order, bytes) == Load(order, BytesToBits(bytes))
    ensures |bytes| == 3 ==> LoadU24(order, bytes) == Load(order, BytesToBits(bytes))
    ensures |bytes| == 4 ==> LoadU32(order, bytes) == Load(order, BytesToBits(bytes))
  {
    if 2 <= |bytes| <= 4 {
      ValueOfBytes(bytes);
      LoadLeBytes(bytes);
      BeValueExpand(bytes);
      BeValueExpand(Reverse(bytes));
    }
  }
}

=== FILE: buf_exts.dfy ===
// The numeric readers of src/buf/bit_buf_exts.rs, available on every `BitBuf`. A read
// consumes bits from the front of the stream and yields them, through the byte order's
// `load`, as an unsigned value of the requested width.

module BufExts {
  import opened BitUtil
  import opened Errors
  import opened ByteOrder
  import BufByteOrder
  import opened BitBuf
  import B = Bits

  /** `get_uN::<O, N>`, corrected so that both paths read the same value: when the first
      chunk holds `N` bits they are advanced over, otherwise `N` bits are copied out
      (`UnexpectedEof` when the stream is shorter); either way the value is the load of the
      stream's first `N` bits as they would lie from a byte boundary, and exactly those bits
      are consumed. `GetUNAsWritten` is the code's fast path, which loads in place.
      (src/buf/bit_buf_exts.rs:8-32) */
  function GetUN(order: Order, b: Buf, n: nat): (r: Result<(Buf, nat)>)
    requires Valid(b) && 0 < n <= 32
    ensures |Stream(b)| < n <==> r == Err(Io(UnexpectedEof))
    ensures r.Ok? ==> |Stream(b)| >= n && Valid(r.value.0) && Stream(r.value.0) == Stream(b)[n..]
    ensures r.Ok? ==> r.value.1 == BufByteOrder.Load(order, Stream(b)[..n]) && r.value.1 < Pow2(n)
  {
    var slice := Chunk(b);
    if |slice| >= n then
      assert slice[..n] == Stream(b)[..n];
      Ok((Advance(b, n), BufByteOrder.Load(order, slice[..n])))
    else
      match TryCopyToBitSlice(b, n)
      case Err(e) => Err(e)
      case Ok((rest, bits)) => Ok((rest, BufByteOrder.Load(order, bits)))
  }

  /** `get_uN::<O, N>` as written: the fast path runs `O::load` on the chunk where it lies
      in storage (`BufByteOrder.LoadAt` at the chunk's offset), while the slow path loads a
      fresh `BitVec`, which starts on a byte boundary. The `U::try_from` of the value cannot
      fail, since the load of `N` bits is below `2^N`. (src/buf/bit_buf_exts.rs:8-32) */
  function GetUNAsWritten(order: Order, b: Buf, n: nat): (r: Result<(Buf, nat)>)
    requires Valid(b) && 0 < n <= 32
    ensures |Stream(b)| < n <==> r == Err(Io(UnexpectedEof))
    ensures r.Ok? ==> |Stream(b)| >= n && Valid(r.value.0) && Stream(r.value.0) == Stream(b)[n..]
    ensures r.Ok? ==> r.value.1 < Pow2(n)
    ensures r.Ok? && |Chunk(b)| >= n ==>
              r.value.1 == BufByteOrder.LoadAt(order, ChunkHead(b), Stream(b)[..n])
    ensures r.Ok? && |Chunk(b)| < n ==> r.value.1 == BufByteOrder.Load(order, Stream(b)[..n])
  {
    var slice := Chunk(b);
    if |slice| >= n then
      assert slice[..n] == Stream(b)[..n];
      Ok((Advance(b, n), BufByteOrder.LoadAt(order, ChunkHead(b), slice[..n])))
    else
      match TryCopyToBitSlice(b, n)
      case Err(e) => Err(e)
      case Ok((rest, bits)) => Ok((rest, BufByteOrder.Load(order, bits)))
  }

  /** The two `get_uN`s agree, in what they return and what they leave, in big endian, when
      the chunk begins on a storage byte boundary, and when the slow path is taken. */
  lemma GetUNAsWrittenAgrees(order: Order, b: Buf, n: nat)
    requires Valid(b) && 0 < n <= 32
    requires order == BigEndian || ChunkHead(b) == 0 || |Chunk(b)| < n
    ensures GetUNAsWritten(order, b, n) == GetUN(order, b, n)
  {
  }

  /** The paths of the code's `get_u16::<LittleEndian>` disagree on the same sixteen bits.
      `one` is `from_bytes([0x08, 0x01, 0x20])` advanced by four bits, whose chunk holds all
      twenty remaining bits four bits into a byte; `two` chains two eight-bit views of bits
      4..20 of the same bytes, so its first chunk is too short. The in-place load gives
      0x2018 (the head group `1000` least significant), the copy gives 0x1280, and the
      corrected `GetUN` gives 0x1280 for both. */
  lemma GetUNAsWrittenPathsDisagree(one: Buf, two: Buf)
    requires one == Leaf(OfBits(B.Bits([0x08, 0x01, 0x20], 4, 20)))
    requires two == Chain(Leaf(OfBits(B.Bits([0x08, 0x01, 0x20], 4, 8))),
                          Leaf(OfBits(B.Bits([0x08, 0x01, 0x20], 12, 8))))
    ensures Valid(one) && Valid(two) && Stream(one)[..16] == Stream(two)
    ensures GetUNAsWritten(LittleEndian, one, 16).Ok?
            && GetUNAsWritten(LittleEndian, one, 16).value.1 == 0x2018
    ensures GetUNAsWritten(LittleEndian, two, 16).Ok?
            && GetUNAsWritten(LittleEndian, two, 16).value.1 == 0x1280
    ensures GetUN(LittleEndian, one, 16).Ok? && GetUN(LittleEndian, one, 16).value.1 == 0x1280
  {
    var d := ExampleSixteen();
    ExampleStreams(one, two, d);
    LittleEndianSixteenInPlace(d);
    LittleEndianSixteenAligned(d);
    assert |Chunk(one)| == 20 && ChunkHead(one) == 4;
    assert |Chunk(two)| == 8 && Stream(two)[..16] == d;
  }

  /** Bits 4..20 of `[0x08, 0x01, 0x20]`: `1000`, `0000 0001`, `0010`. */
  function ExampleSixteen(): seq<bool> {
    [true, false, false, false, false, false, false, false,
     false, false, false, true, false, false, true, false]
  }

  /** Both buffers of `GetUNAsWrittenPathsDisagree` start with `ExampleSixteen`. */
  lemma ExampleStreams(one: Buf, two: Buf, d: seq<bool>)
    requires one == Leaf(OfBits(B.Bits([0x08, 0x01, 0x20], 4, 20)))
    requires two == Chain(Leaf(OfBits(B.Bits([0x08, 0x01, 0x20], 4, 8))),
                          Leaf(OfBits(B.Bits([0x08, 0x01, 0x20], 12, 8))))
    requires d == ExampleSixteen()
    ensures Valid(one) && Valid(two) && Stream(one)[..16] == d && Stream(two) == d
  {
    var all := BytesToBits([0x08, 0x01, 0x20]);
    assert forall j :: 4 <= j < 20 ==> all[j] == d[j - 4];
    assert Stream(one)[..16] == all[4..20] == d;
    assert Stream(two) == all[4..12] + all[12..20] == d;
  }

  /** `ExampleSixteen` loads as 0x2018 in little endian four bits into a byte: the groups
      are `1000` (least significant), `0000 0001` and `0010`. */
  lemma LittleEndianSixteenInPlace(d: seq<bool>)
    requires d == ExampleSixteen()
    ensures BufByteOrder.LoadAt(LittleEndian, 4, d) == 0x2018
  {
    assert Pow2(4) == 16;
    assert d[..4] == ToBits(8, 4);
    ValueOfEncoding(d[..4], 8);
    LittleEndianTwelveOf513(d[4..]);
    assert BufByteOrder.LoadLeAt(4, d) == 8 + 16 * 513;
  }

  /** `0000 0001 0010` in little endian from a byte boundary: 1 + 256 * 2. */
  lemma LittleEndianTwelveOf513(rest: seq<bool>)
    requires rest == [false, false, false, false, false, false, false, true,
                      false, false, true, false]
    ensures BufByteOrder.LoadLe(rest) == 513
  {
    Pow2Values();
    assert rest[..8] == ToBits(1, 8);
    ValueOfEncoding(rest[..8], 1);
    assert rest[8..] == ToBits(2, 4);
    ValueOfEncoding(rest[8..], 2);
  }

  /** `ExampleSixteen` loads as 0x1280 in little endian from a byte boundary: the groups are
      `1000 0000` (least significant) and `0001 0010`. */
  lemma LittleEndianSixteenAligned(d: seq<bool>)
    requires d == ExampleSixteen()
    ensures BufByteOrder.Load(LittleEndian, d) == 0x1280
  {
    Pow2Values();
    assert d[..8] == ToBits(128, 8);
    ValueOfEncoding(d[..8], 128);
    assert d[8..] == ToBits(18, 8);
    ValueOfEncoding(d[8..], 18);
    assert BufByteOrder.LoadLe(d) == 128 + 256 * 18;
  }

  /** A stream that starts with `Store(order, value, n)` reads back `value` through `get_uN`:
      the getter inverts the byte order's store. */
  lemma GetUNReadsStore(order: Order, b: Buf, n: nat, value: nat)
    requires Valid(b) && 0 < n <= 32 && value < Pow2(n)
    requires |Stream(b)| >= n && Stream(b)[..n] == BufByteOrder.Store(order, value, n)
    ensures GetUN(order, b, n).Ok? && GetUN(order, b, n).value.1 == value
  {
    BufByteOrder.LoadStore(order, value, n);
    ModOfSmall(value, Pow2(n));
  }

  /** `get_u1` .. `get_u7`: `get_uN` in big endian, so the bits read are the value's `N`-bit
      encoding, most significant bit first. (src/buf/bit_buf_exts.rs:38-64) */
  function GetU1To7(b: Buf, n: nat): (r: Result<(Buf, nat)>)
    requires Valid(b) && 1 <= n <= 7
    ensures |Stream(b)| < n <==> r == Err(Io(UnexpectedEof))
    ensures r.Ok? ==> Valid(r.value.0) && Stream(r.value.0) == Stream(b)[n..]
    ensures r.Ok? ==> r.value.1 < Pow2(n) && ToBits(r.value.1, n) == Stream(b)[..n]
  {
    var r := GetUN(BigEndian, b, n);
    if r.Ok? then
      ToBitsValueOf(Stream(b)[..n]);
      r
    else r
  }

  /** `get_bool`: `get_u1` turned into a flag, which is the first bit of the stream.
      (src/buf/bit_buf_exts.rs:34-36) */
  function GetBool(b: Buf): (r: Result<(Buf, bool)>)
    requires Valid(b)
    ensures |Stream(b)| == 0 <==> r == Err(Io(UnexpectedEof))
    ensures r.Ok? ==> Valid(r.value.0) && Stream(r.value.0) == Stream(b)[1..]
    ensures r.Ok? ==> r.value.1 == Stream(b)[0]
  {
    match GetU1To7(b, 1)
    case Err(e) => Err(e)
    case Ok((rest, v)) =>
      assert ToBits(v, 1)[0] == BitOf(v, 0);
      Ok((rest, v != 0))
  }

  /** The byte whose `Msb0` bits are `bits` has the value those bits spell. */
  lemma ByteValue(x: byte, bits: seq<bool>)
    requires bits == ByteToBits(x)
    ensures ValueOf(bits) == x as nat
  {
    ByteToBitsIsToBits(x);
    ValueOfToBits(x as nat, 8);
    Pow2Values();
    ModOfSmall(x as nat, 256);
  }

  /** `get_u8`: on a byte-aligned buffer the first chunk byte is taken whole
      (`UnexpectedEof` without a whole byte left); otherwise `get_uN` of 8 bits. Either way
      the value is the first eight bits read most significant first.
      (src/buf/bit_buf_exts.rs:66-82) */
  function GetU8(b: Buf): (r: Result<(Buf, nat)>)
    requires Valid(b)
    ensures |Stream(b)| < 8 <==> r == Err(Io(UnexpectedEof))
    ensures r.Ok? ==> Valid(r.value.0) && Stream(r.value.0) == Stream(b)[8..]
    ensures r.Ok? ==> r.value.1 < 256 && ToBits(r.value.1, 8) == Stream(b)[..8]
  {
    Pow2Values();
    if ByteAligned(b) then
      if RemainingBytes(b) < 1 then IoErr(UnexpectedEof)
      else
        var bytes := ChunkBytes(b);
        BytesToBitsChunk(bytes, 0);
        assert Stream(b)[..8] == BytesToBits(bytes)[0..8];
        ByteToBitsIsToBits(bytes[0]);
        Ok((AdvanceBytes(b, 1), bytes[0] as nat))
    else
      var r := GetUN(BigEndian, b, 8);
      if r.Ok? then
        ToBitsValueOf(Stream(b)[..8]);
        r
      else r
  }

  /** `O::load_u16`, `load_u24` or `load_u32` of the bytes copied out. */
  function LoadWide(order: Order, dest: seq<byte>): (v: nat)
    requires 2 <= |dest| <= 4
    ensures v == BufByteOrder.Load(order, BytesToBits(dest))
  {
    BufByteOrder.ByteLoadsAgreeWithBitLoads(order, dest);
    if |dest| == 2 then BufByteOrder.LoadU16(order, dest)
    else if |dest| == 3 then BufByteOrder.LoadU24(order, dest)
    else BufByteOrder.LoadU32(order, dest)
  }

  /** `get_u16`, `get_u24` and `get_u32` (`k` bytes): on a byte-aligned buffer
      `UnexpectedEof` without `k` whole bytes left, otherwise `k` bytes copied out and loaded
      by the byte order's `load_u16` / `load_u24` / `load_u32`; unaligned, `get_uN` of `8 k`
      bits. Both paths read the same value: the byte loads agree with the bit load. */
  method GetWide(order: Order, b: Buf, k: nat) returns (r: Result<(Buf, nat)>)
    requires Valid(b) && 2 <= k <= 4
    ensures |Stream(b)| < 8 * k <==> r == Err(Io(UnexpectedEof))
    ensures r.Ok? ==> Valid(r.value.0) && Stream(r.value.0) == Stream(b)[8 * k..]
    ensures r.Ok? ==> r.value.1 == BufByteOrder.Load(order, Stream(b)[..8 * k])
  {
    if ByteAligned(b) {
      if RemainingBytes(b) < k {
        return Err(Io(UnexpectedEof));
      }
      var copied := TryCopyToSliceBytes(b, k);
      assert copied.Ok?;
      var (rest, dest) := copied.value;
      r := Ok((rest, LoadWide(order, dest)));
    } else {
      r := GetUN(order, b, 8 * k);
    }
  }

  /** `get_u16::<O>`. (src/buf/bit_buf_exts.rs:105-121) */
  method GetU16(order: Order, b: Buf) returns (r: Result<(Buf, nat)>)
    requires Valid(b)
    ensures |Stream(b)| < 16 <==> r == Err(Io(UnexpectedEof))
    ensures r.Ok? ==> Valid(r.value.0) && Stream(r.value.0) == Stream(b)[16..]
    ensures r.Ok? ==> r.value.1 == BufByteOrder.Load(order, Stream(b)[..16]) && r.value.1 < 0x1_0000
  {
    r := GetWide(order, b, 2);
    Pow2Values();
  }

  /** `get_u24::<O>`. (src/buf/bit_buf_exts.rs:143-159) */
  method GetU24(order: Order, b: Buf) returns (r: Result<(Buf, nat)>)
    requires Valid(b)
    ensures |Stream(b)| < 24 <==> r == Err(Io(UnexpectedEof))
    ensures r.Ok? ==> Valid(r.value.0) && Stream(r.value.0) == Stream(b)[24..]
    ensures r.Ok? ==> r.value.1 == BufByteOrder.Load(order, Stream(b)[..24]) && r.value.1 < 0x100_0000
  {
    r := GetWide(order, b, 3);
    Pow2Values();
  }

  /** `get_u32::<O>`. (src/buf/bit_buf_exts.rs:181-197) */
  method GetU32(order: Order, b: Buf) returns (r: Result<(Buf, nat)>)
    requires Valid(b)
    ensures |Stream(b)| < 32 <==> r == Err(Io(UnexpectedEof))
    ensures r.Ok? ==> Valid(r.value.0) && Stream(r.value.0) == Stream(b)[32..]
    ensures r.Ok? ==> r.value.1 == BufByteOrder.Load(order, Stream(b)[..32]) && r.value.1 < U32_BOUND
  {
    r := GetWide(order, b, 4);
    Pow2Values();
  }

  /** A big-endian read of `N` bits written by a big-endian `put_uN`-style encoding gives back
      the value: in big endian `write_u32_to_bits` and `load` are inverse. */
  lemma GetUNReadsBigEndianPut(b: Buf, n: nat, value: nat)
    requires Valid(b) && 0 < n <= 32 && value < Pow2(n) && value < U32_BOUND
    requires |Stream(b)| >= n && Stream(b)[..n] == WriteU32ToBits(BigEndian, value, n)
    ensures GetUN(BigEndian, b, n).Ok? && GetUN(BigEndian, b, n).value.1 == value
  {
    Pow2Monotone(n, 32);
    Pow2Values();
    assert WriteU32ToBits(BigEndian, value, n) == ToBits(value, n);
    GetUNReadsStore(BigEndian, b, n, value);
  }

  // ---------------------------------------------------------------------------------------
  // The reads of the module's tests, on any buffer carrying the test's bits

  /** A big-endian `get_uN` of a stream that starts with the `N`-bit encoding of `v` reads
      `v`. */
  lemma GetSpells(b: Buf, n: nat, v: nat)
    requires Valid(b) && 0 < n <= 32 && v < Pow2(n)
    requires |Stream(b)| >= n && Stream(b)[..n] == ToBits(v, n)
    ensures GetUN(BigEndian, b, n).Ok? && GetUN(BigEndian, b, n).value.1 == v
  {
    ValueOfEncoding(Stream(b)[..n], v);
  }

  /** `0110 0111` read as a `u4`, a `u1` and a `u3` gives 6, 0 and 7.
      (src/buf/bit_buf_exts.rs:208-218) */
  lemma NibbleBitTriple(b: Buf, data: seq<bool>)
    requires Valid(b) && Stream(b) == data
    requires data == [false, true, true, false, false, true, true, true]
    ensures var r1 := GetUN(BigEndian, b, 4);
            r1.Ok? && r1.value.1 == 6
            && var r2 := GetUN(BigEndian, r1.value.0, 1);
               r2.Ok? && r2.value.1 == 0
               && var r3 := GetUN(BigEndian, r2.value.0, 3);
                  r3.Ok? && r3.value.1 == 7
  {
    NibbleBitTripleCodes();
    assert data[..4] == ToBits(6, 4);
    GetSpells(b, 4, 6);
    var b1 := GetUN(BigEndian, b, 4).value.0;
    assert Stream(b1) == data[4..] && Stream(b1)[..1] == ToBits(0, 1);
    GetSpells(b1, 1, 0);
    var b2 := GetUN(BigEndian, b1, 1).value.0;
    assert Stream(b2) == data[5..] && Stream(b2)[..3] == ToBits(7, 3);
    GetSpells(b2, 3, 7);
  }

  /** The encodings the example reads: 6 in four bits, 0 in one, 7 in three. */
  lemma NibbleBitTripleCodes()
    ensures ToBits(6, 4) == [false, true, true, false] && ToBits(0, 1) == [false]
    ensures ToBits(7, 3) == [true, true, true]
    ensures 6 < Pow2(4) && 0 < Pow2(1) && 7 < Pow2(3)
  {
    assert !BitOf(6, 0) && BitOf(6, 1) && BitOf(6, 2) && !BitOf(6, 3);
    assert BitOf(7, 0) && BitOf(7, 1) && BitOf(7, 2);
    assert Pow2(3) == 8 && Pow2(4) == 16;
  }

  /** `1 0101 0101` read most significant bit first is 341. */
  lemma BigEndianNine(d: seq<bool>)
    requires d == [true, false, true, false, true, false, true, false, true]
    ensures ValueOf(d) == 341
  {
    assert BitOf(341, 0) && !BitOf(341, 1) && BitOf(341, 2) && !BitOf(341, 3) && BitOf(341, 4);
    assert !BitOf(341, 5) && BitOf(341, 6) && !BitOf(341, 7) && BitOf(341, 8);
    assert d == ToBits(341, 9);
    assert Pow2(9) == 512;
    ValueOfEncoding(d, 341);
  }

  /** `0111 1111 1000` read most significant bit first is 2040. */
  lemma BigEndianTwelve(d: seq<bool>)
    requires d == [false, true, true, true, true, true, true, true, true, false, false, false]
    ensures ValueOf(d) == 2040
  {
    assert !BitOf(2040, 0) && !BitOf(2040, 1) && !BitOf(2040, 2) && BitOf(2040, 3);
    assert BitOf(2040, 4) && BitOf(2040, 5) && BitOf(2040, 6) && BitOf(2040, 7);
    assert BitOf(2040, 8) && BitOf(2040, 9) && BitOf(2040, 10) && !BitOf(2040, 11);
    assert d == ToBits(2040, 12);
    assert Pow2(12) == 4096;
    ValueOfEncoding(d, 2040);
  }

  /** Big endian `u9` `1 0101 0101` is 341 and `u12` `0111 1111 1000` is 2040.
      (src/buf/bit_buf_exts.rs:220-243) */
  lemma BigEndianExamples(b9: Buf, d9: seq<bool>, b12: Buf, d12: seq<bool>)
    requires Valid(b9) && Stream(b9) == d9
    requires d9 == [true, false, true, false, true, false, true, false, true]
    requires Valid(b12) && Stream(b12) == d12
    requires d12 == [false, true, true, true, true, true, true, true, true, false, false, false]
    ensures GetUN(BigEndian, b9, 9).Ok? && GetUN(BigEndian, b9, 9).value.1 == 341
    ensures GetUN(BigEndian, b12, 12).Ok? && GetUN(BigEndian, b12, 12).value.1 == 2040
  {
    assert d9[..9] == d9 && d12[..12] == d12;
    BigEndianNine(d9);
    BigEndianTwelve(d12);
  }

  /** The little-endian load of `1010 1011 1`: the first eight bits are the low byte 0xAB
      and the ninth the high part, 1, giving `1_1010_1011` = 427. */
  lemma LittleEndianNine(d: seq<bool>)
    requires d == [true, false, true, false, true, false, true, true, true]
    ensures BufByteOrder.Load(LittleEndian, d) == 427
  {
    assert BitOf(0xAB, 0) && BitOf(0xAB, 1) && !BitOf(0xAB, 2) && BitOf(0xAB, 3);
    assert !BitOf(0xAB, 4) && BitOf(0xAB, 5) && !BitOf(0xAB, 6) && BitOf(0xAB, 7);
    assert d[..8] == ToBits(0xAB, 8);
    Pow2Values();
    ValueOfEncoding(d[..8], 0xAB);
    assert d[8..] == [true] == ToBits(1, 1);
    ValueOfEncoding(d[8..], 1);
    assert BufByteOrder.LoadLe(d[8..]) == 1;
    assert BufByteOrder.LoadLe(d) == 0xAB + 256 * 1;
  }

  /** The little-endian load of the twenty bits `1101 1110 1011 1100 1010`: bytes 0xDE and
      0xBC, then the high part 0xA, giving 0xABCDE. */
  lemma LittleEndianTwenty(d: seq<bool>)
    requires d == [true, true, false, true, true, true, true, false,
                   true, false, true, true, true, true, false, false,
                   true, false, true, false]
    ensures BufByteOrder.Load(LittleEndian, d) == 0xABCDE
  {
    Pow2Values();
    assert !BitOf(0xDE, 0) && BitOf(0xDE, 1) && BitOf(0xDE, 2) && BitOf(0xDE, 3);
    assert BitOf(0xDE, 4) && !BitOf(0xDE, 5) && BitOf(0xDE, 6) && BitOf(0xDE, 7);
    assert d[..8] == ToBits(0xDE, 8);
    ValueOfEncoding(d[..8], 0xDE);
    var e := d[8..];
    assert !BitOf(0xBC, 0) && !BitOf(0xBC, 1) && BitOf(0xBC, 2) && BitOf(0xBC, 3);
    assert BitOf(0xBC, 4) && BitOf(0xBC, 5) && !BitOf(0xBC, 6) && BitOf(0xBC, 7);
    assert e[..8] == ToBits(0xBC, 8);
    ValueOfEncoding(e[..8], 0xBC);
    assert !BitOf(0xA, 0) && BitOf(0xA, 1) && !BitOf(0xA, 2) && BitOf(0xA, 3);
    assert e[8..] == ToBits(0xA, 4);
    assert Pow2(4) == 16;
    ValueOfEncoding(e[8..], 0xA);
    assert BufByteOrder.LoadLe(e) == 0xBC + 256 * 0xA;
  }

  /** Little endian `u9` `1010 1011 1` is `1_1010_1011` = 427 and `u20`
      `1101 1110 1011 1100 1010` is 0xABCDE. (src/buf/bit_buf_exts.rs:245-286) */
  lemma LittleEndianExamples(b9: Buf, d9: seq<bool>, b20: Buf, d20: seq<bool>)
    requires Valid(b9) && Stream(b9) == d9
    requires d9 == [true, false, true, false, true, false, true, true, true]
    requires Valid(b20) && Stream(b20) == d20
    requires d20 == [true, true, false, true, true, true, true, false,
                     true, false, true, true, true, true, false, false,
                     true, false, true, false]
    ensures GetUN(LittleEndian, b9, 9).Ok? && GetUN(LittleEndian, b9, 9).value.1 == 427
    ensures GetUN(LittleEndian, b20, 20).Ok? && GetUN(LittleEndian, b20, 20).value.1 == 0xABCDE
  {
    assert d9[..9] == d9 && d20[..20] == d20;
    LittleEndianNine(d9);
    LittleEndianTwenty(d20);
  }
}

=== FILE: buf_mut_exts.dfy ===
// The numeric writers of src/buf/bit_buf_mut_exts.rs, available on every `BitBufMut`.
// `put_fixed` and `put_uN` call `chunk_mut` and `advance_mut`, which the trait does not
// define; they are read here as `chunk_mut_bits` and `advance_mut_bits`. `put_fixed2` calls
// `put_slice`, likewise undefined, read here as `put_bit_slice`.

module BufMutExts {
  import opened BitUtil
  import opened Errors
  import opened ByteOrder
  import BufByteOrder
  import opened BitBufMut

  /** What a successful put of the bits `x` into `b` leaves behind: a writer whose log keeps
      what was written before and grows by at least `x` (by exactly `x` without a `&mut [u8]`
      part), and, when the writer is ordered and advancing over `x` is exact, whose log is
      the old log followed by `x`. */
  predicate Wrote(b: Buf, r: Buf, x: seq<bool>)
    requires Valid(b)
  {
    && Valid(r) && BitExact(r) == BitExact(b)
    && |Log(r)| >= |Log(b)| + |x|
    && (BitExact(b) ==> |Log(r)| == |Log(b)| + |x|)
    && (Ordered(b) ==> Ordered(r) && Log(r)[..|Log(b)|] == Log(b))
    && (Ordered(b) && Exact(b, |x|) ==> Log(r) == Log(b) + x)
  }

  /** One round of writing into the chunk is a put of `x`. */
  lemma PutChunkWrote(b: Buf, x: seq<bool>)
    requires Valid(b) && |x| <= ChunkLen(b)
    ensures Wrote(b, PutChunk(b, x), x)
  {
    PutChunkKeepsLog(b, x);
    if Ordered(b) && Exact(b, |x|) {
      PutChunkAppends(b, x);
    }
  }

  /** The first bits of `ToBits(v, k)` are the encoding of `v / 2` one bit shorter. */
  lemma ToBitsInit(v: nat, k: nat)
    requires k > 0
    ensures ToBits(v, k)[..k - 1] == ToBits(v / 2, k - 1)
  {
    forall i | 0 <= i < k - 1
      ensures ToBits(v, k)[i] == ToBits(v / 2, k - 1)[i]
    {
      assert BitOf(v, k - 1 - i) == BitOf(v / 2, k - 2 - i);
    }
  }

  /** The loop of `put_fixed`: from the last of the `n` chunk bits back to the first, set the
      bit to the low bit of `val` and shift `val` right. The chunk ends up holding the low `n`
      bits of `value`, most significant first. (src/buf/bit_buf_mut_exts.rs:12-16) */
  method FixedBits(chunk: seq<bool>, n: nat, value: nat) returns (bits: seq<bool>)
    requires n <= |chunk| && value < 256
    ensures |bits| == |chunk| && bits[..n] == ToBits(value, n) && bits[n..] == chunk[n..]
  {
    bits := chunk;
    var val := value;
    var i := n;
    while i > 0
      invariant 0 <= i <= n && |bits| == |chunk| && bits[n..] == chunk[n..]
      invariant bits[i..n] == ToBits(value, n)[i..]
      invariant ToBits(value, n)[..i] == ToBits(val, i)
    {
      var bit := val % 2 == 1;
      assert ToBits(value, n)[i - 1] == bit by {
        assert ToBits(value, n)[..i][i - 1] == ToBits(val, i)[i - 1] == BitOf(val, 0);
      }
      ToBitsInit(val, i);
      assert ToBits(value, n)[..i - 1] == ToBits(value, n)[..i][..i - 1];
      var before := bits;
      i := i - 1;
      bits := bits[i := bit];
      assert bits[n..] == before[n..];
      assert bits[i..n] == [bit] + before[i + 1..n];
      assert ToBits(value, n)[i..] == [bit] + ToBits(value, n)[i + 1..];
      val := val / 2;
    }
  }

  /** `put_fixed::<N>`: `UnexpectedEof`, writing nothing, when the chunk holds fewer than `N`
      bits; otherwise the low `N` bits of `value`, most significant first, are put.
      (src/buf/bit_buf_mut_exts.rs:7-19) */
  function PutFixed(b: Buf, n: nat, value: nat): (r: Result<Buf>)
    requires Valid(b) && value < 256
    ensures |ChunkMut(b)| < n <==> r == Err(Io(UnexpectedEof))
    ensures r.Ok? ==> Wrote(b, r.value, ToBits(value, n))
  {
    if |ChunkMut(b)| < n then IoErr(UnexpectedEof)
    else
      PutChunkWrote(b, ToBits(value, n));
      Ok(PutChunk(b, ToBits(value, n)))
  }

  /** `put_u2` .. `put_u8`: `put_fixed` with `N` the width. Read back most significant bit
      first, the bits put are the value. (src/buf/bit_buf_mut_exts.rs:51-77) */
  function PutU2To8(b: Buf, n: nat, value: nat): (r: Result<Buf>)
    requires Valid(b) && 2 <= n <= 8 && value < Pow2(n)
    ensures |ChunkMut(b)| < n <==> r == Err(Io(UnexpectedEof))
    ensures r.Ok? ==> Wrote(b, r.value, ToBits(value, n))
    ensures r.Ok? && Ordered(b) && Exact(b, n) ==> ValueOf(Log(r.value)[|Log(b)|..]) == value
  {
    Pow2Monotone(n, 8);
    Pow2Values();
    var r := PutFixed(b, n, value);
    assert r.Ok? && Ordered(b) && Exact(b, n) ==> ValueOf(Log(r.value)[|Log(b)|..]) == value by {
      if r.Ok? && Ordered(b) && Exact(b, n) {
        assert Log(r.value)[|Log(b)|..] == ToBits(value, n);
        ValueOfToBits(value, n);
        ModOfSmall(value, Pow2(n));
      }
    }
    r
  }

  /** A `put_bit_slice` of a single bit is one round of writing into the chunk. */
  lemma PutOneBit(b: Buf, x: seq<bool>)
    requires Valid(b) && |x| == 1 && 1 <= RemainingMut(b)
    ensures |x| <= |ChunkMut(b)| && PutBitSlice(b, x) == PutChunk(b, x)
  {
    PutAllOne(b, x);
  }

  /** The put loop over a single bit that fits the chunk runs exactly one round. */
  lemma PutAllOne(b: Buf, x: seq<bool>)
    requires Valid(b) && |x| == 1 && 1 <= RemainingMut(b)
    ensures 1 <= |ChunkMut(b)| && PutAll(b, x) == PutChunk(b, x)
  {
    assert x[..1] == x && x[1..] == [];
  }

  /** `put_u1`: the value's bit alone (the last bit of its `Msb0` byte view) handed to
      `put_fixed2`, whose `put_slice` panics without room; it is then put and `Ok` returned.
      (src/buf/bit_buf_mut_exts.rs:34-37, 43-49) */
  function PutU1(b: Buf, value: nat): (r: Result<Buf>)
    requires Valid(b) && value < 2 && 1 <= RemainingMut(b)
    ensures r.Ok? && Wrote(b, r.value, [value == 1])
  {
    var x := [value == 1];
    PutOneBit(b, x);
    PutChunkWrote(b, x);
    Ok(PutBitSlice(b, x))
  }

  /** `put_bool`: `put_u1` of 1 for `true` and 0 for `false`, so the bit put is the flag.
      (src/buf/bit_buf_mut_exts.rs:39-41) */
  function PutBool(b: Buf, value: bool): (r: Result<Buf>)
    requires Valid(b) && 1 <= RemainingMut(b)
    ensures r.Ok? && Wrote(b, r.value, [value])
  {
    PutU1(b, if value then 1 else 0)
  }

  /** `put_uN::<O, N>`: `UnexpectedEof`, writing nothing, when the chunk holds fewer than `N`
      bits; otherwise `O::write_u32_to_bits` of the value into the first `N` bits of the
      chunk, which are then advanced over. (src/buf/bit_buf_mut_exts.rs:80-91) */
  function PutUN(order: Order, b: Buf, n: nat, value: nat): (r: Result<Buf>)
    requires Valid(b) && n <= 32 && value < U32_BOUND
    ensures |ChunkMut(b)| < n <==> r == Err(Io(UnexpectedEof))
    ensures r.Ok? ==> Wrote(b, r.value, WriteU32ToBits(order, value, n))
  {
    if |ChunkMut(b)| < n then IoErr(UnexpectedEof)
    else
      var x := WriteU32ToBits(order, value, n);
      PutChunkWrote(b, x);
      Ok(PutChunk(b, x))
  }

  /** `put_u9` .. `put_u32`: `put_uN` with `N` the width and the caller's byte order. In big
      endian the bits put read back, most significant first, as the value.
      (src/buf/bit_buf_mut_exts.rs:93-164) */
  function PutU9To32(order: Order, b: Buf, n: nat, value: nat): (r: Result<Buf>)
    requires Valid(b) && 9 <= n <= 32 && value < Pow2(n) && value < U32_BOUND
    ensures |ChunkMut(b)| < n <==> r == Err(Io(UnexpectedEof))
    ensures r.Ok? ==> Wrote(b, r.value, WriteU32ToBits(order, value, n))
    ensures r.Ok? && Ordered(b) && Exact(b, n) && order == BigEndian ==>
              BufByteOrder.Load(order, Log(r.value)[|Log(b)|..]) == value
  {
    Pow2Monotone(n, 32);
    Pow2Values();
    RoundTripFits(BigEndian, value, n);
    PutUN(order, b, n, value)
  }

  /** The nine bits `write_u32_to_bits` gives 1 in little endian, `1000_0000_0`, load back in
      little endian (`load_le`: the first eight bits are the low byte) as 128. */
  lemma LittleEndianNineBitsOfOne()
    ensures BufByteOrder.Load(LittleEndian, WriteU32ToBits(LittleEndian, 1, 9)) == 128
  {
    var x := WriteU32ToBits(LittleEndian, 1, 9);
    NineBitsOfOne();
    assert x[..8] == ToBits(128, 8) && x[8..] == [false];
    LoadLeNine(x, 128);
  }

  /** The nine little-endian bits of 1, and the byte they begin with. */
  lemma NineBitsOfOne()
    ensures WriteU32ToBits(LittleEndian, 1, 9) == ToBits(128, 8) + [false]
  {
    var x := WriteU32ToBits(LittleEndian, 1, 9);
    assert BitOf(1, 0) && !BitOf(1, 1) && !BitOf(1, 2) && !BitOf(1, 3) && !BitOf(1, 4);
    assert !BitOf(1, 5) && !BitOf(1, 6) && !BitOf(1, 7) && !BitOf(1, 8);
    assert BitOf(128, 7) && !BitOf(128, 6) && !BitOf(128, 5) && !BitOf(128, 4);
    assert !BitOf(128, 3) && !BitOf(128, 2) && !BitOf(128, 1) && !BitOf(128, 0);
  }

  /** Nine bits whose first byte spells `v` and whose last bit is clear load as `v`. */
  lemma LoadLeNine(x: seq<bool>, v: nat)
    requires v < 256 && |x| == 9 && x[..8] == ToBits(v, 8) && x[8..] == [false]
    ensures BufByteOrder.LoadLe(x) == v
  {
    ValueOfToBits(v, 8);
    Pow2Values();
    assert [false][..0] == [];
    assert ValueOf([false]) == 0;
    assert BufByteOrder.LoadLe(x) == ValueOf(x[..8]) + 256 * BufByteOrder.LoadLe(x[8..]);
  }

  /** `put_uN::<LittleEndian, 9>` of 1 into an ordered writer puts `1000_0000_0`, which
      `get_uN::<LittleEndian, 9>` reads back as 128. */
  lemma LittleEndianPutReadsBackWrong(b: Buf)
    requires Valid(b) && Ordered(b) && !ChunkOnBytes(b) && 9 <= ChunkLen(b)
    ensures var r := PutUN(LittleEndian, b, 9, 1);
            r.Ok? && BufByteOrder.Load(LittleEndian, Log(r.value)[|Log(b)|..]) == 128
  {
    var r := PutUN(LittleEndian, b, 9, 1);
    assert Log(r.value)[|Log(b)|..] == WriteU32ToBits(LittleEndian, 1, 9);
    LittleEndianNineBitsOfOne();
  }

  /** `put_uN` as its getter counterpart evidently expects: `O::store` (bitvec's `store_be` /
      `store_le`, the inverse of the `O::load` that `get_uN` uses) of the value into the first
      `N` bits of the chunk. What it puts reads back as the value in either byte order. */
  function PutUNStored(order: Order, b: Buf, n: nat, value: nat): (r: Result<Buf>)
    requires Valid(b) && 0 < n <= 32 && value < Pow2(n)
    ensures |ChunkMut(b)| < n <==> r == Err(Io(UnexpectedEof))
    ensures r.Ok? ==> Wrote(b, r.value, BufByteOrder.Store(order, value, n))
    ensures r.Ok? && Ordered(b) && Exact(b, n) ==>
              BufByteOrder.Load(order, Log(r.value)[|Log(b)|..]) == value
  {
    if |ChunkMut(b)| < n then IoErr(UnexpectedEof)
    else
      var x := BufByteOrder.Store(order, value, n);
      PutChunkWrote(b, x);
      BufByteOrder.LoadStore(order, value, n);
      ModOfSmall(value, Pow2(n));
      Ok(PutChunk(b, x))
  }

  /** Two one-byte `&mut [u8]` chained: `put_u16` finds only the first byte's eight bits in
      the chunk and fails with `UnexpectedEof`, although the chain has sixteen bits of room. */
  lemma ChainedPutU16Fails(left: seq<byte>, right: seq<byte>)
    requires |left| == 1 && |right| == 1
    ensures var c := Chain(WriterOfBytes(left), WriterOfBytes(right));
            Valid(c) && RemainingMut(c) == 16
            && PutU9To32(BigEndian, c, 16, 42) == Err(Io(UnexpectedEof))
  {
    Pow2Values();
    var a, z := WriterOfBytes(left), WriterOfBytes(right);
    assert Prepare(Chain(a, z)) == Chain(Prepare(a), z);
    assert |ChunkMut(Chain(a, z))| == |ChunkMut(a)| == 8;
  }

  /** `put_uN` writing through `try_put_bit_slice`, so that a value may span the chunks of
      several buffers, as the chained test (src/buf/chain.rs:157-166) expects:
      `UnexpectedEof` only when the whole room is shorter than `N`; what is put is `O::store`
      of the value, which reads back as the value. */
  function PutUNAcross(order: Order, b: Buf, n: nat, value: nat): (r: Result<Buf>)
    requires Valid(b) && 0 < n <= 32 && value < Pow2(n)
    ensures RemainingMut(b) < n <==> r == Err(Io(UnexpectedEof))
    ensures r.Ok? ==> Valid(r.value) && |Log(r.value)| >= |Log(b)| + n
    ensures r.Ok? && Ordered(b) ==> Ordered(r.value) && Log(r.value)[..|Log(b)|] == Log(b)
    ensures r.Ok? && BitExact(b) && Ordered(b) ==>
              Log(r.value) == Log(b) + BufByteOrder.Store(order, value, n)
              && BufByteOrder.Load(order, Log(r.value)[|Log(b)|..]) == value
  {
    var x := BufByteOrder.Store(order, value, n);
    BufByteOrder.LoadStore(order, value, n);
    ModOfSmall(value, Pow2(n));
    TryPutBitSlice(b, x)
  }

  /** The chained put of sixteen bits into two one-byte `&mut [u8]` goes through once the
      value may span both chunks: the first slice receives the high byte `0` and the second
      the low byte `42`, as the test expects. */
  lemma ChainedPutU16Succeeds(left: seq<byte>, right: seq<byte>)
    requires |left| == 1 && |right| == 1
    ensures 42 < Pow2(16)
    ensures var c := Chain(WriterOfBytes(left), WriterOfBytes(right));
            var r := PutUNAcross(BigEndian, c, 16, 42);
            Valid(c) && r.Ok? && r.value.Chain? && Valid(r.value)
            && Log(r.value.first) == BytesToBits([0]) && Log(r.value.last) == BytesToBits([42])
  {
    Pow2Values();
    var src := BufByteOrder.Store(BigEndian, 42, 16);
    BigEndianBytesOf42();
    ChainedPutTwoBytes(left, right, src);
  }

  /** `put_u16` of 42 big-endian stores the bytes 0 and 42. */
  lemma BigEndianBytesOf42()
    ensures BufByteOrder.Store(BigEndian, 42, 16) == BytesToBits([0]) + BytesToBits([42])
  {
    var src := BufByteOrder.Store(BigEndian, 42, 16);
    assert src == ToBits(42, 16);
    Pow2Values();
    ValueOfEncoding(src, 42);
    BytesOf42Spell42();
    ValueOfInjective(src, BytesToBits([0]) + BytesToBits([42]));
  }

  /** The bits of the bytes 0 and 42 spell 42. */
  lemma BytesOf42Spell42()
    ensures ValueOf(BytesToBits([0]) + BytesToBits([42])) == 42
  {
    var hi, lo := BytesToBits([0]), BytesToBits([42]);
    assert hi == ByteToBits(0) == ToBits(0, 8) && lo == ByteToBits(42) == ToBits(42, 8);
    assert Pow2(8) == 256;
    ValueOfEncoding(hi, 0);
    ValueOfEncoding(lo, 42);
    ValueOfAppend(hi, lo);
  }

  /** Putting sixteen bits into two chained one-byte `&mut [u8]` takes two rounds: the first
      fills the first slice with the first eight bits, the second the second with the rest. */
  lemma ChainedPutTwoBytes(left: seq<byte>, right: seq<byte>, src: seq<bool>)
    requires |left| == 1 && |right| == 1 && |src| == 16
    ensures var c := Chain(WriterOfBytes(left), WriterOfBytes(right));
            var w := PutAll(c, src);
            Valid(c) && RemainingMut(c) == 16 && w.Chain?
            && Log(w.first) == src[..8] && Log(w.last) == src[8..]
  {
    var c := Chain(WriterOfBytes(left), WriterOfBytes(right));
    var x, y := src[..8], src[8..];
    var a1 := FirstRound(left, right, x);
    var z1 := SecondRound(a1, right, y);
    assert PutAll(Chain(a1, WriterOfBytes(right)), y) == Chain(a1, z1) by {
      assert y[..8] == y && y[8..] == [];
    }
    assert PutAll(c, src) == Chain(a1, z1);
  }

  /** The first round of that put: the first slice's eight bits take `x`. */
  lemma FirstRound(left: seq<byte>, right: seq<byte>, x: seq<bool>) returns (a1: Buf)
    requires |left| == 1 && |right| == 1 && |x| == 8
    ensures var c := Chain(WriterOfBytes(left), WriterOfBytes(right));
            Valid(c) && ChunkLen(c) == 8 && PutChunk(c, x) == Chain(a1, WriterOfBytes(right))
            && Valid(a1) && Log(a1) == x && RemainingMut(a1) == 0
  {
    var a, z := WriterOfBytes(left), WriterOfBytes(right);
    var c := Chain(a, z);
    assert Prepare(c) == c && ChunkLen(c) == 8;
    PutChunkAppends(c, x);
    var a0 := WriteChunk(a, x);
    a1 := AdvanceMut(a0, 8);
    assert WriteChunk(c, x) == Chain(a0, z) && RemainingMut(a0) == 8;
    assert AdvanceMut(Chain(a0, z), 8) == Chain(a1, z);
    PutChunkRoom(c, x);
  }

  /** The second round: the first part is full, so the second slice's eight bits take `y`. */
  lemma SecondRound(a1: Buf, right: seq<byte>, y: seq<bool>) returns (z1: Buf)
    requires Valid(a1) && RemainingMut(a1) == 0 && |right| == 1 && |y| == 8
    ensures var c1 := Chain(a1, WriterOfBytes(right));
            Valid(c1) && ChunkLen(c1) == 8 && PutChunk(c1, y) == Chain(a1, z1)
            && Valid(z1) && Log(z1) == y
  {
    var z := WriterOfBytes(right);
    var c1 := Chain(a1, z);
    assert Prepare(c1) == Chain(a1, Prepare(z)) == c1 && ChunkLen(c1) == 8;
    var z0 := WriteChunk(z, y);
    z1 := AdvanceMut(z0, 8);
    assert WriteChunk(c1, y) == Chain(a1, z0);
    assert AdvanceMut(Chain(a1, z0), 8) == Chain(a1, z1);
    AdvanceAppends(z0, 8);
  }
}

=== FILE: byte_order.dfy ===
/** The bit-granular byte orders of src/byte_order.rs: encoding the low `n <= 32` bits of a
    `u32` into a span of `n` bits and decoding them again. Big endian places the most
    significant of the `n` bits first; little endian places the least significant bit first. */
module ByteOrder {
  import opened BitUtil

  /** The `BigEndian` and `LittleEndian` marker types (`NetworkOrder` is `BigEndian`). */
  datatype Order = BigEndian | LittleEndian

  const U32_BOUND: nat := 0x1_0000_0000

  function Reverse<T>(s: seq<T>): (r: seq<T>)
    ensures |r| == |s|
  {
    seq(|s|, i requires 0 <= i < |s| => s[|s| - 1 - i])
  }

  lemma ReverseReverse<T>(s: seq<T>)
    ensures Reverse(Reverse(s)) == s
  {
  }

  /** `write_u32_to_bits` into a span of `n` bits: big endian stores bit `n - 1 - i` of the
      value at position `i`, little endian stores bit `i` at position `i`. A span longer than
      32 bits panics, hence `n <= 32`. */
  function WriteU32ToBits(order: Order, value: nat, n: nat): (bits: seq<bool>)
    requires value < U32_BOUND && n <= 32
    ensures |bits| == n
  {
    match order
    case BigEndian => seq(n, i requires 0 <= i < n => BitOf(value, n - 1 - i))
    case LittleEndian => seq(n, i requires 0 <= i < n => BitOf(value, i))
  }

  /** `read_u32_from_bits`: big endian folds `acc = (acc << 1) | bit` over the bits in order,
      little endian runs the same fold over the bits in reverse. A span longer than 32 bits
      panics. The result always fits in the span's width. */
  function ReadU32FromBits(order: Order, bits: seq<bool>): (v: nat)
    requires |bits| <= 32
    ensures v < Pow2(|bits|)
    ensures v < U32_BOUND
  {
    var v := match order
      case BigEndian => ValueOf(bits)
      case LittleEndian => ValueOf(Reverse(bits));
    ValueOfBound(bits);
    ValueOfBound(Reverse(bits));
    Pow2Monotone(|bits|, 32);
    Pow2Values();
    v
  }

  /** The little-endian span is the big-endian span reversed. */
  lemma LittleEndianIsReversed(value: nat, n: nat)
    requires value < U32_BOUND && n <= 32
    ensures WriteU32ToBits(LittleEndian, value, n) == Reverse(WriteU32ToBits(BigEndian, value, n))
    ensures WriteU32ToBits(BigEndian, value, n) == ToBits(value, n)
  {
  }

  /** Writing a value into `n` bits and reading it back yields the value modulo `2^n`, in either
      byte order. */
  lemma RoundTripValue(order: Order, value: nat, n: nat)
    requires value < U32_BOUND && n <= 32
    ensures ReadU32FromBits(order, WriteU32ToBits(order, value, n)) == value % Pow2(n)
  {
    LittleEndianIsReversed(value, n);
    ReverseReverse(ToBits(value, n));
    ValueOfToBits(value, n);
  }

  /** Reading a span and writing the value back into a span of the same length reproduces the
      span, in either byte order. */
  lemma RoundTripBits(order: Order, bits: seq<bool>)
    requires |bits| <= 32
    ensures WriteU32ToBits(order, ReadU32FromBits(order, bits), |bits|) == bits
  {
    var v := ReadU32FromBits(order, bits);
    LittleEndianIsReversed(v, |bits|);
    match order
    case BigEndian =>
      ToBitsValueOf(bits);
    case LittleEndian =>
      ToBitsValueOf(Reverse(bits));
      ReverseReverse(bits);
  }

  /** A value that fits in `n` bits survives the round trip unchanged. */
  lemma RoundTripFits(order: Order, value: nat, n: nat)
    requires n <= 32 && value < Pow2(n)
    ensures value < U32_BOUND
    ensures ReadU32FromBits(order, WriteU32ToBits(order, value, n)) == value
  {
    Pow2Monotone(n, 32);
    Pow2Values();
    RoundTripValue(order, value, n);
    ModOfSmall(value, Pow2(n));
  }
}

=== FILE: byte_slice_buf.dfy ===
// `impl BitBuf for &[u8]` (src/buf/bit_buf_impls.rs:120-166) as the code writes it. Its
// `remaining` and `chunk` count bits, but its `advance` drops `count` BYTES, so every caller
// that advances by a number of bits (the trait's own `advance_bytes`, `copy_to_slice`, the
// `get_*` extension methods) consumes eight times too much. The corrected buffer is the
// byte slice viewed as bits, `BitBuf.Leaf(OfSlice(OfBytes(s)))`, which `AsBuf` builds.

module ByteSliceBuf {
  import opened BitUtil
  import opened Errors
  import opened BitSliceRef
  import BB = BitBuf

  /** `remaining`: eight bits per byte. */
  function Remaining(s: seq<byte>): (r: nat)
    ensures r == |BytesToBits(s)| && r % 8 == 0
  {
    |s| * 8
  }

  /** `chunk`: the whole slice viewed as bits. */
  function Chunk(s: seq<byte>): (r: seq<bool>)
    ensures |r| == Remaining(s)
  {
    BytesToBits(s)
  }

  /** `chunk_bytes`: the slice itself, whose bits are the whole chunk. */
  function ChunkBytes(s: seq<byte>): (r: seq<byte>)
    ensures BytesToBits(r) == Chunk(s) && 8 * |r| == Remaining(s)
  {
    s
  }

  /** `advance` as written: panics when fewer than `count` BYTES remain, otherwise drops
      `count` bytes. */
  function AdvanceAsWritten(s: seq<byte>, count: nat): (r: seq<byte>)
    requires count <= |s|
    ensures |r| == |s| - count && Remaining(r) == Remaining(s) - 8 * count
    ensures BytesToBits(r) == Chunk(s)[8 * count..]
  {
    BytesToBitsSlice(s, count, |s|);
    s[count..]
  }

  /** The trait's `advance_bytes(n)` is `advance(8 * n)`, which here drops `8 * n` bytes and
      panics unless eight times as many bytes as asked for remain. */
  function AdvanceBytesAsWritten(s: seq<byte>, n: nat): (r: seq<byte>)
    requires 8 * n <= |s|
    ensures |r| == |s| - 8 * n
  {
    AdvanceAsWritten(s, 8 * n)
  }

  /** Advancing one bit removes eight bits from what remains, so the bit after the first is
      not the next one a reader sees: `advance(1)` on `[0x80, 0x40]` skips straight to the
      second byte, where the trait promises the bits `0000_0000_0100_0000`. */
  lemma AdvanceAsWrittenSkipsBits()
    ensures var s: seq<byte> := [0x80, 0x40];
            Remaining(AdvanceAsWritten(s, 1)) == Remaining(s) - 8
            && BytesToBits(AdvanceAsWritten(s, 1)) != Chunk(s)[1..]
  {
    var s: seq<byte> := [0x80, 0x40];
    assert AdvanceAsWritten(s, 1) == [0x40];
    assert BytesToBits([0x40])[0] == GetBit(0x40, 0);
    assert !GetBit(0x40, 0);
    assert Chunk(s)[1..][0] == GetBit(0x80, 1);
    assert !GetBit(0x80, 1);
    assert BytesToBits([0x40])[1] == GetBit(0x40, 1);
    assert GetBit(0x40, 1);
    assert Chunk(s)[1..][1] == GetBit(0x80, 2);
    assert !GetBit(0x80, 2);
  }

  /** `try_copy_to_slice_bytes`, which this implementor overrides: `UnexpectedEof` when fewer
      than `count` bytes remain, otherwise the first `count` bytes with the slice moved past
      them. Here `advance` counts bytes, so this override is right as written. */
  function TryCopyToSliceBytes(s: seq<byte>, count: nat): (r: Result<(seq<byte>, seq<byte>)>)
    ensures |s| < count <==> r == Err(Io(UnexpectedEof))
    ensures r.Ok? ==> r.value.1 + r.value.0 == s && |r.value.1| == count
    ensures r.Ok? ==> BytesToBits(r.value.1) == Chunk(s)[..8 * count]
  {
    if |s| < count then IoErr(UnexpectedEof)
    else
      var rest := AdvanceAsWritten(s, count);
      BytesToBitsSlice(s, 0, count);
      assert s[0..count] == s[..count];
      assert s[..count] + rest == s;
      Ok((rest, s[..count]))
  }

  /** The corrected buffer: the byte slice viewed as bits. Everything the trait states about
      a `BitBuf` then holds; in particular it is aligned and reads the slice's bits. */
  function AsBuf(s: seq<byte>): (r: BB.Buf)
    ensures BB.Valid(r) <==> 8 * |s| <= USIZE_MAX
    ensures BB.Valid(r) ==> BB.Stream(r) == BytesToBits(s) && BB.ByteAligned(r)
  {
    var r := BB.Leaf(BB.OfSlice(OfBytes(s)));
    if BB.Valid(r) then AlignedWholeBytes(OfBytes(s)); r else r
  }

  /** On the corrected buffer, `advance_bytes(k)` moves past exactly `k` bytes: what remains
      is what the slice `s[k..]` holds. */
  lemma AdvanceBytesDropsBytes(s: seq<byte>, k: nat)
    requires 8 * |s| <= USIZE_MAX && k <= |s|
    ensures BB.Valid(AsBuf(s)) && k <= BB.RemainingBytes(AsBuf(s))
    ensures BB.Stream(BB.AdvanceBytes(AsBuf(s), k)) == BytesToBits(s[k..])
    ensures BB.Remaining(BB.AdvanceBytes(AsBuf(s), k)) == Remaining(s[k..])
  {
    BytesToBitsSlice(s, k, |s|);
  }
}

=== FILE: errors.dfy ===
/** Error values shared by every layer of the library.

    The buffer layer reports `std::io::Error` values, of which only the kind is observable to
    callers (src/buf/bit_buf.rs, src/buf/bit_buf_mut.rs); the legacy bit slices report the
    crate's own `SliceOutOfRange` error (src/error.rs:6-13); the legacy cursor reports
    `BufferOverflow` (src/bitcursor.rs). */
module Errors {

  /** The `std::io::ErrorKind` values the library produces. */
  datatype ErrorKind = UnexpectedEof | InvalidData | InvalidInput | WriteZero | Other

  datatype Error =
    | Io(kind: ErrorKind)
    | SliceOutOfRange(len: nat, sliceStart: nat, sliceEnd: nat)
    | BufferOverflow

  /** A failure-compatible result, usable with `:-`. */
  datatype Result<+T> = Ok(value: T) | Err(error: Error) {

    predicate IsFailure() {
      Err?
    }

    function PropagateFailure<U>(): Result<U>
      requires Err?
    {
      Err(error)
    }

    function Extract(): T
      requires Ok?
    {
      value
    }
  }

  function IoErr<T>(kind: ErrorKind): Result<T> {
    Err(Io(kind))
  }
}

=== FILE: legacy_bit_cursor.dfy ===
// The first-generation `BitCursor` (src/bitcursor.rs): a `std::io::Cursor` over a byte vector
// plus a bit offset `bit_pos` within the current byte. Reads take single bits MSB-first and
// never write.

module LegacyBitCursor {
  import opened BitUtil
  import opened Errors

  /** `BitCursor { byte_cursor, bit_pos }`: the bytes, the byte cursor's position and the bit
      offset within the byte at that position. */
  datatype Cursor = Cursor(data: seq<byte>, pos: nat, bitPos: nat)

  /** The absolute bit position, `8 * pos + bit_pos`. */
  function Position(c: Cursor): nat {
    8 * c.pos + c.bitPos
  }

  /** The cursor's bits, MSB-first within each byte. */
  function Storage(c: Cursor): seq<bool> {
    BytesToBits(c.data)
  }

  /** The states reachable from `new` by reads: the bit offset is below 8 and the position
      is not past the last bit. */
  predicate Valid(c: Cursor) {
    c.bitPos < 8 && Position(c) <= 8 * |c.data|
  }

  /** `new`: at the first bit of `data`. (src/bitcursor.rs:67-72) */
  function New(data: seq<byte>): (c: Cursor)
    ensures Valid(c) && Position(c) == 0 && c.data == data
  {
    Cursor(data, 0, 0)
  }

  /** `increment_bit_pos`: `bit_pos += n` as a `u8` (so the sum must stay below 256); from 7
      on, whole bytes move into the byte position and `bit_pos` keeps the rest. The absolute
      position moves by exactly `n`, whatever the split. (src/bitcursor.rs:74-82) */
  function IncrementBitPos(c: Cursor, n: nat): (r: Cursor)
    requires c.bitPos + n < 256
    ensures r.data == c.data && r.bitPos < 8
    ensures Position(r) == Position(c) + n
  {
    var bitPos := c.bitPos + n;
    if bitPos >= 7 then Cursor(c.data, c.pos + bitPos / 8, bitPos % 8)
    else Cursor(c.data, c.pos, bitPos)
  }

  /** `get_curr_byte`: the byte at the byte position, or `BufferOverflow` once the position
      is at or past the end. (src/bitcursor.rs:84-93) */
  function GetCurrByte(c: Cursor): (r: Result<byte>)
    ensures r.Err? <==> c.pos >= |c.data|
    ensures r.Err? ==> r.error == BufferOverflow
    ensures r.Ok? ==> ByteToBits(r.value) == Storage(c)[8 * c.pos .. 8 * c.pos + 8]
  {
    if c.pos >= |c.data| then Err(BufferOverflow)
    else
      BytesToBitsChunk(c.data, c.pos);
      Ok(c.data[c.pos])
  }

  /** `read_bit`: the bit at offset `bit_pos` of the current byte, counted from its most
      significant end, and one step forward; at the end, `BufferOverflow` with nothing moved.
      The source hands the bit back as a `u8` 0 or 1. (src/bitcursor.rs:95-101) */
  function ReadBit(c: Cursor): (r: (Cursor, Result<bool>))
    requires c.bitPos < 8
    ensures r.1.Err? <==> c.pos >= |c.data|
    ensures Valid(c) ==> (r.1.Err? <==> Position(c) == 8 * |c.data|)
    ensures r.1.Err? ==> r.0 == c && r.1.error == BufferOverflow
    ensures r.1.Ok? ==> r.0.data == c.data && Position(r.0) == Position(c) + 1
                        && r.1.value == Storage(c)[Position(c)]
    ensures Valid(c) ==> Valid(r.0)
  {
    match GetCurrByte(c)
    case Err(e) => (c, Err(e))
    case Ok(byte) =>
      assert Storage(c)[Position(c)] == ByteToBits(byte)[c.bitPos];
      (IncrementBitPos(c, 1), Ok(GetBit(byte, c.bitPos)))
  }

  /** The loop of `bit_read_helper`, `k` rounds to go: each round shifts the accumulator left
      by one within a `width`-bit integer (bits shifted out are lost) and ors in the next bit.
      A failed bit read ends it with that error, the bits read so far staying consumed. */
  function ReadBitsFrom(c: Cursor, k: nat, acc: nat, width: nat): (r: (Cursor, Result<nat>))
    requires Valid(c)
    ensures Valid(r.0) && r.0.data == c.data
    ensures r.1.Ok? <==> Position(c) + k <= 8 * |c.data|
    ensures r.1.Err? ==> r.1.error == BufferOverflow && Position(r.0) == 8 * |c.data|
    ensures r.1.Ok? ==>
              Position(r.0) == Position(c) + k
              && r.1.value == Folded(acc, Storage(c)[Position(c) .. Position(c) + k], Pow2(width))
    decreases k
  {
    if k == 0 then
      FoldedEmpty(acc, Storage(c)[Position(c) .. Position(c)], Pow2(width));
      (c, Ok(acc % Pow2(width)))
    else
      var (c1, bit) := ReadBit(c);
      if bit.Err? then (c1, Err(bit.error))
      else
        var b := if bit.value then 1 else 0;
        var r := ReadBitsFrom(c1, k - 1, (2 * acc + b) % Pow2(width), width);
        if r.1.Ok? then
          ReadBitsFromStep(c, c1, k, acc, b, width);
          r
        else r
  }

  /** The recursive call's value, one bit further on, is the fold from the first bit. */
  lemma ReadBitsFromStep(c: Cursor, c1: Cursor, k: nat, acc: nat, b: nat, width: nat)
    requires 0 < k && Position(c) + k <= 8 * |c.data|
    requires c1.data == c.data && Position(c1) == Position(c) + 1
    requires b == if Storage(c)[Position(c)] then 1 else 0
    ensures Folded((2 * acc + b) % Pow2(width),
                   Storage(c1)[Position(c1) .. Position(c1) + (k - 1)], Pow2(width))
            == Folded(acc, Storage(c)[Position(c) .. Position(c) + k], Pow2(width))
  {
    var p := Position(c);
    assert Storage(c1) == Storage(c);
    ReadStep(Storage(c), p, k, acc, b, Pow2(width));
  }

  /** What `bits` shifted in behind `acc` give in an integer that wraps at `m`. */
  function Folded(acc: nat, bits: seq<bool>, m: nat): nat
    requires m > 0
  {
    (acc * Pow2(|bits|) + ValueOf(bits)) % m
  }

  lemma FoldedEmpty(acc: nat, bits: seq<bool>, m: nat)
    requires m > 0 && bits == []
    ensures Folded(acc, bits, m) == acc % m
  {
  }

  /** One round of the fold: the first bit joins the accumulator and the rest of the bits
      follow it. */
  lemma ReadStep(st: seq<bool>, p: nat, k: nat, acc: nat, b: nat, m: nat)
    requires 0 < k && p + k <= |st| && m > 0
    requires b == if st[p] then 1 else 0
    ensures Folded((2 * acc + b) % m, st[p + 1 .. p + k], m) == Folded(acc, st[p .. p + k], m)
  {
    var rest := st[p + 1 .. p + k];
    assert st[p .. p + k] == [st[p]] + rest;
    ValueOfAppend([st[p]], rest);
    assert ValueOf([st[p]]) == b by {
      assert [st[p]][..0] == [];
    }
    assert Pow2(k) == 2 * Pow2(k - 1);
    assert acc * Pow2(k) + ValueOf(st[p .. p + k]) == (2 * acc + b) * Pow2(k - 1) + ValueOf(rest)
    by {
      MulDistrib(Pow2(k - 1), 2 * acc, b);
      MulDouble(acc, Pow2(k - 1));
    }
    ModMulAdd(2 * acc + b, Pow2(k - 1), ValueOf(rest), m);
  }

  /** Reducing a factor modulo `m` before multiplying does not change the result modulo
      `m`. */
  lemma ModMulAdd(x: nat, f: nat, y: nat, m: nat)
    requires m > 0
    ensures ((x % m) * f + y) % m == (x * f + y) % m
  {
    var q := x / m;
    var z := (x % m) * f + y;
    assert x == m * q + x % m;
    assert x * f == (m * q) * f + (x % m) * f by {
      MulDistrib(f, m * q, x % m);
    }
    MulAssoc(m, q, f);
    assert x * f + y == m * (q * f) + z;
    assert z == m * (z / m) + z % m;
    MulDistrib(m, q * f, z / m);
    DivModUnique(x * f + y, m, q * f + z / m, z % m);
  }

  /** The widths `bit_read_helper` is used at: `u8`, `u16` and `u32`. */
  predicate IntegerWidth(width: nat) {
    width == 8 || width == 16 || width == 32
  }

  /** `read_bits_as_u8` / `_u16` / `_u32`: `bit_read_helper` into an integer of that width.
      Reading `n` bits gives their MSB-first value modulo `2^width` (the value itself when
      `n <= width`) and moves `n` bits on; too few bits left gives `BufferOverflow` after
      consuming all of them. (src/bitcursor.rs:48-64, src/bitcursor.rs:113-123) */
  function ReadBitsAs(c: Cursor, n: nat, width: nat): (r: (Cursor, Result<nat>))
    requires Valid(c) && IntegerWidth(width)
    ensures Valid(r.0) && r.0.data == c.data
    ensures r.1.Ok? <==> Position(c) + n <= 8 * |c.data|
    ensures r.1.Err? ==> r.1.error == BufferOverflow && Position(r.0) == 8 * |c.data|
    ensures r.1.Ok? ==>
              var bits := Storage(c)[Position(c) .. Position(c) + n];
              Position(r.0) == Position(c) + n
              && r.1.value == ValueOf(bits) % Pow2(width)
              && (n <= width ==> r.1.value == ValueOf(bits))
  {
    ReadBitsFromZero(c, n, width);
    ReadBitsFrom(c, n, 0, width)
  }

  /** The fold started from zero reads the value of the bits it went over. */
  lemma ReadBitsFromZero(c: Cursor, n: nat, width: nat)
    requires Valid(c)
    ensures var r := ReadBitsFrom(c, n, 0, width);
            r.1.Ok? ==>
              var bits := Storage(c)[Position(c) .. Position(c) + n];
              r.1.value == ValueOf(bits) % Pow2(width)
              && (n <= width ==> r.1.value == ValueOf(bits))
  {
    var r := ReadBitsFrom(c, n, 0, width);
    if r.1.Ok? {
      var bits := Storage(c)[Position(c) .. Position(c) + n];
      assert r.1.value == Folded(0, bits, Pow2(width));
      FoldedFromZero(bits, width);
    }
  }

  /** Starting from zero, the fold is the value of the bits, wrapped at `2^width`, which
      does not cut a value of at most `width` bits. */
  lemma FoldedFromZero(bits: seq<bool>, width: nat)
    ensures Folded(0, bits, Pow2(width)) == ValueOf(bits) % Pow2(width)
    ensures |bits| <= width ==> Folded(0, bits, Pow2(width)) == ValueOf(bits)
  {
    assert 0 * Pow2(|bits|) == 0;
    if |bits| <= width {
      ValueOfBound(bits);
      Pow2Monotone(|bits|, width);
      ModOfSmall(ValueOf(bits), Pow2(width));
    }
  }

  /** `bytes_remaining`: the whole bytes left, not counting a partly read one.
      (src/bitcursor.rs:103-111) */
  function BytesRemaining(c: Cursor): (r: nat)
    requires Valid(c)
    ensures r == (8 * |c.data| - Position(c)) / 8
  {
    if c.bitPos == 0 then |c.data| - c.pos else |c.data| - c.pos - 1
  }

  /** `std::io::Read` for the cursor: refused with `Other` unless on a byte boundary;
      otherwise the byte cursor's read, up to `want` bytes, which moves the position past
      them. (src/bitcursor.rs:32-45) */
  function ReadBytes(c: Cursor, want: nat): (r: Result<(Cursor, seq<byte>)>)
    requires Valid(c)
    ensures r.Err? <==> c.bitPos != 0
    ensures r.Err? ==> r.error == Io(Other)
    ensures r.Ok? ==> var (c1, bytes) := r.value;
                      |bytes| == Min(want, |c.data| - c.pos)
                      && Valid(c1) && c1.data == c.data
                      && Position(c1) == Position(c) + 8 * |bytes|
                      && BytesToBits(bytes) == Storage(c)[Position(c) .. Position(c1)]
  {
    if c.bitPos != 0 then IoErr(Other)
    else
      var n := Min(want, |c.data| - c.pos);
      BytesToBitsSlice(c.data, c.pos, c.pos + n);
      Ok((Cursor(c.data, c.pos + n, 0), c.data[c.pos .. c.pos + n]))
  }

  // ---------------------------------------------------------------------------------------
  // The module's tests, restated on `read_bits_as_u8`

  /** std's `read_exact` over that `Read`, as byteorder's `read_u8`/`read_u16`/`read_u32`
      use it for `u8::read`, `u16::read` and `u32::read` (src/bit_read.rs:73-91): with
      nothing to read it is `Ok` at once; a refused read passes its error on; otherwise reads
      repeat until `want` bytes are in, and a read that returns nothing first is
      `UnexpectedEof`. The cursor's read hands out every byte it can at once, so the read
      after a short one is the empty one. */
  function ReadExact(c: Cursor, want: nat): (r: Result<(Cursor, seq<byte>)>)
    requires Valid(c)
    ensures want == 0 ==> r == Ok((c, []))
    ensures want > 0 && c.bitPos != 0 ==> r == Err(Io(Other))
    ensures want > 0 && c.bitPos == 0 ==>
              (r.Ok? <==> want <= BytesRemaining(c)) && (r.Err? ==> r.error == Io(UnexpectedEof))
    ensures r.Ok? ==> var (c1, bytes) := r.value;
                      |bytes| == want && Valid(c1) && Position(c1) == Position(c) + 8 * want
                      && BytesToBits(bytes) == Storage(c)[Position(c) .. Position(c1)]
  {
    if want == 0 then Ok((c, []))
    else
      match ReadBytes(c, want)
      case Err(e) => Err(e)
      case Ok((c1, bytes)) =>
        if |bytes| == want then Ok((c1, bytes)) else IoErr(UnexpectedEof)
  }

  /** Where `read_exact` leaves the cursor, whatever its outcome: where a successful read
      leaves it; unmoved when the read is refused; and past the last whole byte when it runs
      short, because the short read has already taken every byte that remained. */
  function ReadExactCursor(c: Cursor, want: nat): (c1: Cursor)
    requires Valid(c)
    ensures Valid(c1) && c1.data == c.data
    ensures ReadExact(c, want).Ok? ==> c1 == ReadExact(c, want).value.0
    ensures ReadExact(c, want) == Err(Io(Other)) ==> c1 == c
    ensures ReadExact(c, want) == Err(Io(UnexpectedEof)) ==>
              Position(c1) == 8 * |c.data| && Position(c1) == Position(c) + 8 * BytesRemaining(c)
  {
    if want == 0 then c
    else
      match ReadBytes(c, want)
      case Err(_) => c
      case Ok((c1, _)) => c1
  }

  /** `0xF0 0x0F` viewed as bits. */
  lemma F00FBits(data: seq<byte>)
    requires data == [0xF0, 0x0F]
    ensures BytesToBits(data)
            == [true, true, true, true, false, false, false, false,
                false, false, false, false, true, true, true, true]
  {
    BytesToBitsPair(0xF0, 0x0F);
    assert data == [0xF0, 0x0F];
    assert ByteToBits(0xF0) == [true, true, true, true, false, false, false, false] by {
      assert GetBit(0xF0, 0) && GetBit(0xF0, 1) && GetBit(0xF0, 2) && GetBit(0xF0, 3);
      assert !GetBit(0xF0, 4) && !GetBit(0xF0, 5) && !GetBit(0xF0, 6) && !GetBit(0xF0, 7);
    }
    assert ByteToBits(0x0F) == [false, false, false, false, true, true, true, true] by {
      assert !GetBit(0x0F, 0) && !GetBit(0x0F, 1) && !GetBit(0x0F, 2) && !GetBit(0x0F, 3);
      assert GetBit(0x0F, 4) && GetBit(0x0F, 5) && GetBit(0x0F, 6) && GetBit(0x0F, 7);
    }
  }

  /** Reading 4, 4, 2 and 6 bits of `0xF0 0x0F` gives 15, 0, 0 and 15.
      (src/bitcursor.rs:132-141) */
  lemma ReadNibbles(data: seq<byte>)
    requires data == [0xF0, 0x0F]
    ensures var r1 := ReadBitsAs(New(data), 4, 8);
            r1.1 == Ok(15)
            && var r2 := ReadBitsAs(r1.0, 4, 8);
               r2.1 == Ok(0)
               && var r3 := ReadBitsAs(r2.0, 2, 8);
                  r3.1 == Ok(0)
                  && var r4 := ReadBitsAs(r3.0, 6, 8);
                     r4.1 == Ok(15)
  {
    var st := BytesToBits(data);
    F00FBits(data);
    assert Pow2(2) == 4 && Pow2(4) == 16 && Pow2(6) == 64;
    assert BitOf(15, 0) && BitOf(15, 1) && BitOf(15, 2) && BitOf(15, 3);
    assert !BitOf(15, 4) && !BitOf(15, 5);
    assert !BitOf(0, 0) && !BitOf(0, 1) && !BitOf(0, 2) && !BitOf(0, 3);
    ValueOfEncoding(st[0..4], 15);
    ValueOfEncoding(st[4..8], 0);
    ValueOfEncoding(st[8..10], 0);
    ValueOfEncoding(st[10..16], 15);
  }

  /** After a four-bit read the cursor is off a byte boundary, so `u8::read`, a one-byte
      `read_exact`, is refused. (src/bitcursor.rs:143-150) */
  lemma ByteReadOffBoundary(data: seq<byte>)
    requires data == [0xF0, 0x0F]
    ensures var r1 := ReadBitsAs(New(data), 4, 8);
            r1.1.Ok? && ReadExact(r1.0, 1) == Err(Io(Other))
  {
    var c1 := ReadBitsAs(New(data), 4, 8).0;
    assert Position(c1) == 4;
  }

  /** `u16::read` of one byte, a two-byte `read_exact`, gets one byte and then none, so it
      fails with `UnexpectedEof`, leaving the cursor past that byte; seven bits and then three
      more overflow. (src/bitcursor.rs:152-167) */
  lemma ReadTooFar(data: seq<byte>)
    requires data == [0xF0]
    ensures ReadExact(New(data), 2) == Err(Io(UnexpectedEof))
    ensures Position(ReadExactCursor(New(data), 2)) == 8
    ensures var r1 := ReadBitsAs(New(data), 7, 8);
            r1.1.Ok? && ReadBitsAs(r1.0, 3, 8).1 == Err(BufferOverflow)
  {
  }
}

=== FILE: legacy_bit_slice.dfy ===
// The first-generation bit slices (src/bit_slice.rs, src/bit_slice_mut.rs): a byte buffer and
// a half-open range `[start, end)` of its storage bits, indexed from `start`. `BitSlice` and
// `BitSliceMut` have the same fields and the same index arithmetic, so one datatype serves
// both; a write through a `BitSliceMut` is a new value whose buffer carries the change.

module LegacyBitSlice {
  import opened BitUtil
  import opened Errors

  /** `BitSlice { buf, start_bit_index, end_bit_index }`. Nothing ties the indices to the
      buffer: see `Valid`. */
  datatype Slice = Slice(buf: seq<byte>, start: nat, end: nat)

  /** Every bit of the buffer, MSB-first within each byte. */
  function Storage(s: Slice): seq<bool> {
    BytesToBits(s.buf)
  }

  /** The range is ordered and lies within the buffer: the slices the library builds. */
  predicate Valid(s: Slice) {
    s.start <= s.end <= 8 * |s.buf|
  }

  /** The bits the slice stands for. */
  function Bits(s: Slice): (bits: seq<bool>)
    requires Valid(s)
    ensures |bits| == s.end - s.start
  {
    Storage(s)[s.start .. s.end]
  }

  /** `len`: `end - start`, a `u64` subtraction that panics when the range is reversed.
      (src/bit_slice.rs:29-31, src/bit_slice_mut.rs:29-31) */
  function Len(s: Slice): (n: nat)
    requires s.start <= s.end
    ensures Valid(s) ==> n == |Bits(s)|
  {
    s.end - s.start
  }

  // ---------------------------------------------------------------------------------------
  // Single bits

  /** `at` as written: the index is checked against `end` rather than against `len`, so any
      index below `end` is accepted and reads storage bit `start + index`; only the buffer's
      own bounds check stops it. (src/bit_slice.rs:36-42, src/bit_slice_mut.rs:36-42) */
  function AtAsWritten(s: Slice, index: nat): (bit: bool)
    requires index < s.end && s.start + index < 8 * |s.buf|
    ensures bit == Storage(s)[s.start + index]
  {
    var p := s.start + index;
    GetBit(s.buf[p / 8], p % 8)
  }

  /** With the check `at` evidently means, `index < len`, the bit read is the slice's own bit
      `index`. */
  function At(s: Slice, index: nat): (bit: bool)
    requires s.start <= s.end && index < Len(s) && s.start + index < 8 * |s.buf|
    ensures bit == Storage(s)[s.start + index]
    ensures Valid(s) ==> bit == Bits(s)[index]
  {
    AtAsWritten(s, index)
  }

  /** `set` as written: the same `index < end` check as `at`; the byte holding storage bit
      `start + index` gets that bit replaced and nothing else moves.
      (src/bit_slice_mut.rs:44-52) */
  function SetAsWritten(s: Slice, index: nat, value: bool): (r: Slice)
    requires index < s.end && s.start + index < 8 * |s.buf|
    ensures r.start == s.start && r.end == s.end && |r.buf| == |s.buf|
    ensures Storage(r) == Storage(s)[s.start + index := value]
  {
    var p := s.start + index;
    var r := Slice(s.buf[p / 8 := SetBit(s.buf[p / 8], p % 8, value)], s.start, s.end);
    assert forall j :: 0 <= j < |Storage(r)| ==> Storage(r)[j] == Storage(s)[p := value][j] by {
      forall j | 0 <= j < |Storage(r)|
        ensures Storage(r)[j] == Storage(s)[p := value][j]
      {
        if j / 8 == p / 8 {
          assert j % 8 == p % 8 <==> j == p;
        }
      }
    }
    r
  }

  /** With `index < len`, `set` changes exactly the slice's bit `index`. */
  function Set(s: Slice, index: nat, value: bool): (r: Slice)
    requires s.start <= s.end && index < Len(s) && s.start + index < 8 * |s.buf|
    ensures r.start == s.start && r.end == s.end && |r.buf| == |s.buf|
    ensures Storage(r) == Storage(s)[s.start + index := value]
    ensures Valid(s) ==> Valid(r) && Bits(r) == Bits(s)[index := value]
  {
    SetAsWritten(s, index, value)
  }

  /** `at` reads outside a four-bit slice that starts half way into its buffer: index 5 is
      below `end` (8), so it is let through, and what it returns is storage bit 9, which is
      not among the slice's bits (all of which are set). */
  lemma AtReadsPastEnd(s: Slice)
    requires s == Slice([0x0F, 0x00], 4, 8)
    ensures Valid(s) && Len(s) == 4 && Bits(s) == [true, true, true, true]
    ensures 5 < s.end && !AtAsWritten(s, 5)
  {
    assert Storage(s)[4..8] == [true, true, true, true] by {
      assert GetBit(0x0F, 4) && GetBit(0x0F, 5) && GetBit(0x0F, 6) && GetBit(0x0F, 7);
    }
    assert !GetBit(0x00, 1);
  }

  /** `set` writes outside the same kind of slice: setting index 5 leaves every bit of the
      slice as it was and changes a bit of the buffer that the slice does not cover. */
  lemma SetWritesPastEnd(s: Slice)
    requires s == Slice([0x0F, 0x00], 4, 8)
    ensures var r := SetAsWritten(s, 5, true);
            Valid(r) && Bits(r) == Bits(s) && r.buf != s.buf
  {
    var r := SetAsWritten(s, 5, true);
    assert Storage(r)[9] && !Storage(s)[9];
    assert Bits(r) == Bits(s) by {
      assert forall j :: 4 <= j < 8 ==> Storage(r)[j] == Storage(s)[j];
    }
  }

  // ---------------------------------------------------------------------------------------
  // Sub-slices

  /** The range a `get_slice` call asks for, as a half-open pair relative to the slice. */
  function Wanted(s: Slice, start: Bound, end: Bound): (nat, nat)
    requires s.start <= s.end
  {
    StartEndFromRange(start, end, Len(s))
  }

  /** `get_slice` can be computed: the range is not reversed (its length is a `u64`
      subtraction) and it does not end at storage bit 0 (the last bit index is
      `end - 1`). */
  predicate CanSlice(s: Slice, start: Bound, end: Bound) {
    s.start <= s.end && Wanted(s, start, end).0 <= Wanted(s, start, end).1
    && s.start + Wanted(s, start, end).1 > 0
  }

  /** `get_slice`: the range is moved to storage indices; the sub-slice keeps only the bytes
      from the one holding its first bit to the one holding its last, with its start rebased
      to that first byte. The range is not checked against `len`, only the last byte against
      the buffer, which gives `SliceOutOfRange`. (src/bit_slice.rs:53-77) */
  function GetSlice(s: Slice, start: Bound, end: Bound): (r: Result<Slice>)
    requires CanSlice(s, start, end)
    ensures var (a, b) := Wanted(s, start, end);
            (r.Err? <==> 8 * |s.buf| < s.start + b)
            && (r.Err? ==> r.error == SliceOutOfRange(|s.buf|, (s.start + a) / 8, (s.start + b - 1) / 8))
            && (r.Ok? ==> Valid(r.value) && r.value.start < 8 && Len(r.value) == b - a
                          && Bits(r.value) == Storage(s)[s.start + a .. s.start + b])
  {
    var (a, b) := Wanted(s, start, end);
    SliceAt(s, a, b)
  }

  /** `get_slice` of the relative bits `[a, b)`. */
  function SliceAt(s: Slice, a: nat, b: nat): (r: Result<Slice>)
    requires a <= b && s.start + b > 0
    ensures r.Err? <==> 8 * |s.buf| < s.start + b
    ensures r.Err? ==> r.error == SliceOutOfRange(|s.buf|, (s.start + a) / 8, (s.start + b - 1) / 8)
    ensures r.Ok? ==> Valid(r.value) && r.value.start < 8 && Len(r.value) == b - a
                      && Bits(r.value) == Storage(s)[s.start + a .. s.start + b]
  {
    var first := s.start + a;
    var last := s.start + b;
    ByteSpan(first, last, |s.buf|);
    if (last - 1) / 8 >= |s.buf| then
      Err(SliceOutOfRange(|s.buf|, first / 8, (last - 1) / 8))
    else
      Ok(SubSlice(s.buf, first, last))
  }

  /** The bytes from the one holding bit `first` to the one holding bit `last - 1`, with the
      start rebased to the first of them: a slice of exactly storage bits `[first, last)`. */
  function SubSlice(buf: seq<byte>, first: nat, last: nat): (r: Slice)
    requires first <= last <= 8 * |buf| && last > 0
    ensures Valid(r) && r.start < 8 && Len(r) == last - first
    ensures Bits(r) == BytesToBits(buf)[first .. last]
    ensures first / 8 + |r.buf| <= |buf| && r.buf == buf[first / 8 .. first / 8 + |r.buf|]
    ensures 8 * (first / 8) + r.start == first
  {
    SubBytesBits(buf, first, last - first);
    Slice(buf[first / 8 .. (last - 1) / 8 + 1], first % 8, first % 8 + (last - first))
  }

  /** The bytes holding bits `[first, last)` run from byte `first / 8` to byte
      `(last - 1) / 8`, and they lie within `n` bytes exactly when `last <= 8 n`. */
  lemma ByteSpan(first: nat, last: nat, n: nat)
    requires first <= last && last > 0
    ensures first / 8 <= (last - 1) / 8 + 1
    ensures (last - 1) / 8 < n <==> last <= 8 * n
  {
  }

  /** The bytes from the one holding bit `first` to the one holding bit `first + len - 1`,
      viewed as bits from offset `first % 8`, are storage bits `[first, first + len)`. */
  lemma SubBytesBits(buf: seq<byte>, first: nat, len: nat)
    requires first + len <= 8 * |buf| && first + len > 0
    ensures (first + len - 1) / 8 < |buf|
    ensures var sub := buf[first / 8 .. (first + len - 1) / 8 + 1];
            first % 8 + len <= 8 * |sub|
            && BytesToBits(sub)[first % 8 .. first % 8 + len] == BytesToBits(buf)[first .. first + len]
  {
    var sb := first / 8;
    var eb := (first + len - 1) / 8;
    BytesToBitsSlice(buf, sb, eb + 1);
    var whole := BytesToBits(buf);
    assert 8 * sb + first % 8 == first;
    assert whole[8 * sb .. 8 * (eb + 1)][first % 8 .. first % 8 + len] == whole[first .. first + len];
  }

  /** A range within the slice gives the slice's own bits over that range. */
  lemma GetSliceOfSlice(s: Slice, start: Bound, end: Bound)
    requires Valid(s) && CanSlice(s, start, end) && Wanted(s, start, end).1 <= Len(s)
    ensures var (a, b) := Wanted(s, start, end);
            GetSlice(s, start, end).Ok? && Bits(GetSlice(s, start, end).value) == Bits(s)[a .. b]
  {
    var (a, b) := Wanted(s, start, end);
    SliceAtOfSlice(s, a, b);
  }

  lemma SliceAtOfSlice(s: Slice, a: nat, b: nat)
    requires Valid(s) && a <= b <= Len(s) && s.start + b > 0
    ensures SliceAt(s, a, b).Ok? && Bits(SliceAt(s, a, b).value) == Bits(s)[a .. b]
  {
    var whole := Storage(s);
    assert Bits(s)[a .. b] == whole[s.start + a .. s.start + b] by {
      forall i | 0 <= i < b - a
        ensures Bits(s)[a .. b][i] == whole[s.start + a .. s.start + b][i]
      {
        assert Bits(s)[a + i] == whole[s.start + a + i];
      }
    }
  }

  /** `get_slice_mut`: the same sub-slice as `get_slice`, together with the index of the
      parent byte it starts at, since its buffer is a borrow of the parent's.
      (src/bit_slice_mut.rs:89-113) */
  function GetSliceMut(s: Slice, start: Bound, end: Bound): (r: Result<(Slice, nat)>)
    requires CanSlice(s, start, end)
    ensures r.Err? <==> GetSlice(s, start, end).Err?
    ensures r.Err? ==> r.error == GetSlice(s, start, end).error
    ensures r.Ok? ==> r.value.0 == GetSlice(s, start, end).value
                      && r.value.1 + |r.value.0.buf| <= |s.buf|
                      && r.value.0.buf == s.buf[r.value.1 .. r.value.1 + |r.value.0.buf|]
                      && 8 * r.value.1 + r.value.0.start == s.start + Wanted(s, start, end).0
  {
    var (a, b) := Wanted(s, start, end);
    SliceMutAt(s, a, b)
  }

  /** `get_slice_mut` of the relative bits `[a, b)`. */
  function SliceMutAt(s: Slice, a: nat, b: nat): (r: Result<(Slice, nat)>)
    requires a <= b && s.start + b > 0
    ensures r.Err? <==> SliceAt(s, a, b).Err?
    ensures r.Err? ==> r.error == SliceAt(s, a, b).error
    ensures r.Ok? ==> r.value.0 == SliceAt(s, a, b).value
                      && r.value.1 + |r.value.0.buf| <= |s.buf|
                      && r.value.0.buf == s.buf[r.value.1 .. r.value.1 + |r.value.0.buf|]
                      && 8 * r.value.1 + r.value.0.start == s.start + a
  {
    var first := s.start + a;
    var last := s.start + b;
    ByteSpan(first, last, |s.buf|);
    if (last - 1) / 8 >= |s.buf| then
      Err(SliceOutOfRange(|s.buf|, first / 8, (last - 1) / 8))
    else
      Ok((SubSlice(s.buf, first, last), first / 8))
  }

  /** The parent's buffer once the borrowed bytes at `offset` have been replaced by the
      sub-slice's. */
  function WriteBack(parent: Slice, sub: Slice, offset: nat): (r: Slice)
    requires offset + |sub.buf| <= |parent.buf|
    ensures r.start == parent.start && r.end == parent.end && |r.buf| == |parent.buf|
  {
    Slice(parent.buf[..offset] + sub.buf + parent.buf[offset + |sub.buf| ..], parent.start,
          parent.end)
  }

  /** Setting bit `i` of a mutable sub-slice for the range starting at `a` sets bit `a + i`
      of its parent. */
  lemma SetThroughSubSlice(s: Slice, start: Bound, end: Bound, i: nat, value: bool)
    requires Valid(s) && CanSlice(s, start, end) && Wanted(s, start, end).1 <= Len(s)
    requires i < Wanted(s, start, end).1 - Wanted(s, start, end).0
    ensures var r := GetSliceMut(s, start, end);
            r.Ok? && i < Len(r.value.0)
            && r.value.1 + |r.value.0.buf| <= |s.buf|
            && WriteBack(s, Set(r.value.0, i, value), r.value.1)
               == Set(s, Wanted(s, start, end).0 + i, value)
  {
    var (a, b) := Wanted(s, start, end);
    SetThroughSliceAt(s, a, b, i, value);
  }

  lemma SetThroughSliceAt(s: Slice, a: nat, b: nat, i: nat, value: bool)
    requires Valid(s) && a <= b <= Len(s) && s.start + b > 0 && i < b - a
    ensures var r := SliceMutAt(s, a, b);
            r.Ok? && i < Len(r.value.0)
            && r.value.1 + |r.value.0.buf| <= |s.buf|
            && WriteBack(s, Set(r.value.0, i, value), r.value.1) == Set(s, a + i, value)
  {
    var r := SliceMutAt(s, a, b);
    assert r.Ok?;
    var (sub, off) := r.value;
    var lhs := WriteBack(s, Set(sub, i, value), off);
    var rhs := Set(s, a + i, value);
    WriteBackSet(s, sub, off, i, value);
    assert 8 * off + sub.start + i == s.start + a + i;
    SameStorageSameBuf(lhs, rhs);
  }

  /** Setting bit `j` of a sub-slice borrowed at byte `off` and writing it back sets storage
      bit `8 off + start + j` of the parent. */
  lemma WriteBackSet(s: Slice, sub: Slice, off: nat, j: nat, value: bool)
    requires off + |sub.buf| <= |s.buf| && sub.buf == s.buf[off .. off + |sub.buf|]
    requires sub.start <= sub.end && j < Len(sub) && sub.start + j < 8 * |sub.buf|
    ensures Storage(WriteBack(s, Set(sub, j, value), off))
            == Storage(s)[8 * off + sub.start + j := value]
  {
    var k := off + |sub.buf|;
    var sub' := Set(sub, j, value);
    var whole := Storage(s);
    var m := 8 * off + sub.start + j;
    var mid := whole[8 * off .. 8 * k];
    assert Storage(sub) == mid by {
      BytesToBitsSlice(s.buf, off, k);
    }
    assert Storage(sub') == mid[m - 8 * off := value];
    assert |sub'.buf| == |sub.buf|;
    StorageOfWriteBack(s, sub', off);
    UpdateInside(whole, 8 * off, 8 * k, m, value);
  }

  /** The parent's storage after a write-back: its own bits around the sub-slice's. */
  lemma StorageOfWriteBack(parent: Slice, sub: Slice, offset: nat)
    requires offset + |sub.buf| <= |parent.buf|
    ensures var k := offset + |sub.buf|;
            Storage(WriteBack(parent, sub, offset))
            == Storage(parent)[..8 * offset] + Storage(sub) + Storage(parent)[8 * k ..]
  {
    var k := offset + |sub.buf|;
    var buf := parent.buf;
    var front, back := buf[..offset], buf[k..];
    var whole := BytesToBits(buf);
    assert WriteBack(parent, sub, offset).buf == (front + sub.buf) + back;
    assert BytesToBits((front + sub.buf) + back)
        == BytesToBits(front) + BytesToBits(sub.buf) + BytesToBits(back) by {
      BytesToBitsAppend(front + sub.buf, back);
      BytesToBitsAppend(front, sub.buf);
    }
    assert BytesToBits(front) == whole[..8 * offset] by {
      BytesToBitsSlice(buf, 0, offset);
      assert buf[0..offset] == front;
    }
    assert BytesToBits(back) == whole[8 * k ..] by {
      BytesToBitsSlice(buf, k, |buf|);
      assert buf[k..|buf|] == back;
    }
  }

  /** Updating a bit inside the middle part of a three-way split updates the whole. */
  lemma UpdateInside(x: seq<bool>, p: nat, q: nat, m: nat, value: bool)
    requires p <= m < q <= |x|
    ensures x[..p] + x[p..q][m - p := value] + x[q..] == x[m := value]
  {
    var l := x[..p] + x[p..q][m - p := value] + x[q..];
    assert forall j :: 0 <= j < |x| ==> l[j] == x[m := value][j];
  }

  /** Bytes are determined by their bits. */
  lemma SameStorageSameBuf(x: Slice, y: Slice)
    requires Storage(x) == Storage(y) && x.start == y.start && x.end == y.end
    ensures x == y
  {
    BytesRoundTrip(x.buf, []);
    BytesRoundTrip(y.buf, []);
  }

  // ---------------------------------------------------------------------------------------
  // Byte-level std::io access

  /** `std::io::Read` for a bit slice: refused with `Other` unless the slice starts on a byte
      boundary; otherwise the bytes from its first byte to the end of the buffer are read as
      `&[u8]` reads, up to `want` of them. Neither `end` nor the slice's position moves.
      (src/bit_slice.rs:80-94; for `BitSliceMut` src/bit_slice_mut.rs:122-126) */
  function ReadBytes(s: Slice, want: nat): (r: Result<seq<byte>>)
    requires s.start / 8 <= |s.buf|
    ensures r.Err? <==> s.start % 8 != 0
    ensures r.Err? ==> r.error == Io(Other)
    ensures r.Ok? ==> |r.value| == Min(want, |s.buf| - s.start / 8)
                      && BytesToBits(r.value) == Storage(s)[s.start .. s.start + 8 * |r.value|]
  {
    if s.start % 8 != 0 then IoErr(Other)
    else
      var first := s.start / 8;
      var n := Min(want, |s.buf| - first);
      BytesToBitsSlice(s.buf, first, first + n);
      Ok(s.buf[first .. first + n])
  }

  /** `std::io::Write` for a mutable bit slice: refused with `Other` unless the slice starts
      on a byte boundary; otherwise as many bytes of `src` as fit between the slice's first
      byte and the end of the buffer overwrite them. The slice does not move.
      (src/bit_slice_mut.rs:128-141) */
  function WriteBytes(s: Slice, src: seq<byte>): (r: Result<(Slice, nat)>)
    requires s.start / 8 <= |s.buf|
    ensures r.Err? <==> s.start % 8 != 0
    ensures r.Err? ==> r.error == Io(Other)
    ensures r.Ok? ==> var (t, n) := r.value;
                      n == Min(|src|, |s.buf| - s.start / 8)
                      && t.start == s.start && t.end == s.end && |t.buf| == |s.buf|
                      && Storage(t) == Storage(s)[..s.start] + BytesToBits(src[..n])
                                       + Storage(s)[s.start + 8 * n ..]
  {
    if s.start % 8 != 0 then IoErr(Other)
    else
      var first := s.start / 8;
      var n := Min(|src|, |s.buf| - first);
      var t := WriteBack(s, Slice(src[..n], 0, 0), first);
      StorageOfWriteBack(s, Slice(src[..n], 0, 0), first);
      Ok((t, n))
  }

  /** `as_bit_slice` / `as_bit_slice_mut` for `Vec<u8>`: every bit of the vector.
      (src/bit_slice.rs:106-114, src/bit_slice_mut.rs:167-179) */
  function OfVec(bytes: seq<byte>): (s: Slice)
    ensures Valid(s) && Len(s) == 8 * |bytes| && Bits(s) == BytesToBits(bytes)
  {
    Slice(bytes, 0, 8 * |bytes|)
  }

  // ---------------------------------------------------------------------------------------
  // The blanket bit-level read and write

  /** The blanket `read_bits` for anything that is `AsBitSlice`: `n = min(len, dest.len())`
      bits are fetched with `at` into the front of `dest`, the rest of `dest` is left alone.
      (src/bit_slice.rs:116-129) */
  method ReadBits(s: Slice, dest: seq<bool>) returns (n: nat, filled: seq<bool>)
    requires s.start <= s.end && s.start + Min(Len(s), |dest|) <= 8 * |s.buf|
    ensures n == Min(Len(s), |dest|) && |filled| == |dest|
    ensures filled[..n] == Storage(s)[s.start .. s.start + n] && filled[n..] == dest[n..]
    ensures Valid(s) ==> filled[..n] == Bits(s)[..n]
  {
    n := Min(Len(s), |dest|);
    filled := dest;
    var i := 0;
    while i < n
      invariant 0 <= i <= n && |filled| == |dest|
      invariant forall j :: 0 <= j < i ==> filled[j] == Storage(s)[s.start + j]
      invariant forall j :: i <= j < |dest| ==> filled[j] == dest[j]
    {
      filled := filled[i := At(s, i)];
      i := i + 1;
    }
  }

  /** The blanket `write_bits` for anything that is `AsBitSliceMut`: `n = min(len,
      src.len())` bits of `src` are stored with `set` at the front of the slice, every other
      bit of the buffer is left alone. (src/bit_slice_mut.rs:181-193) */
  method WriteBits(s: Slice, src: seq<bool>) returns (n: nat, t: Slice)
    requires s.start <= s.end && s.start + Min(Len(s), |src|) <= 8 * |s.buf|
    ensures n == Min(Len(s), |src|)
    ensures t.start == s.start && t.end == s.end && |t.buf| == |s.buf|
    ensures Storage(t)[s.start .. s.start + n] == src[..n]
    ensures Storage(t)[..s.start] == Storage(s)[..s.start]
    ensures Storage(t)[s.start + n ..] == Storage(s)[s.start + n ..]
    ensures Valid(s) ==> Bits(t) == src[..n] + Bits(s)[n..]
  {
    n := Min(Len(s), |src|);
    t := s;
    var i := 0;
    while i < n
      invariant 0 <= i <= n
      invariant t.start == s.start && t.end == s.end && |t.buf| == |s.buf|
      invariant forall j :: 0 <= j < |Storage(s)| ==>
        Storage(t)[j] == if s.start <= j < s.start + i then src[j - s.start] else Storage(s)[j]
    {
      t := Set(t, i, src[i]);
      i := i + 1;
    }
    WrittenBits(s, t, src, n);
  }

  /** The storage after `write_bits`, described bit by bit, as slices of the storage. */
  lemma WrittenBits(s: Slice, t: Slice, src: seq<bool>, n: nat)
    requires s.start <= s.end && n <= |src| && s.start + n <= 8 * |s.buf|
    requires t.start == s.start && t.end == s.end && |t.buf| == |s.buf|
    requires forall j :: 0 <= j < |Storage(s)| ==>
      Storage(t)[j] == if s.start <= j < s.start + n then src[j - s.start] else Storage(s)[j]
    ensures Storage(t)[s.start .. s.start + n] == src[..n]
    ensures Storage(t)[..s.start] == Storage(s)[..s.start]
    ensures Storage(t)[s.start + n ..] == Storage(s)[s.start + n ..]
    ensures Valid(s) && n <= Len(s) ==> Bits(t) == src[..n] + Bits(s)[n..]
  {
    if Valid(s) && n <= Len(s) {
      assert forall j :: 0 <= j < |Bits(t)| ==> Bits(t)[j] == Storage(t)[s.start + j];
    }
  }
}

=== FILE: slice_ref.dfy ===
// bitvec's `&BitSlice<u8, Msb0>` / `&mut BitSlice<u8, Msb0>`: a run of bits inside byte
// storage. The bitvec crate is not part of this model; only the behaviour the code relies on
// (indexing, re-slicing, copying, its `Domain` and `Read`/`Write` of whole bytes) is.

module BitSliceRef {
  import opened BitUtil

  /** Bits `[start, end)` of `storage`, a whole number of bytes held as bits (MSB-first). */
  datatype SliceRef = SliceRef(storage: seq<bool>, start: nat, end: nat)
  {
    predicate Valid() {
      |storage| % 8 == 0 && start <= end <= |storage|
    }

    function Len(): nat {
      if start <= end then end - start else 0
    }

    /** The bits of the slice. */
    function Bits(): (b: seq<bool>)
      requires Valid()
      ensures |b| == Len()
    {
      storage[start..end]
    }

    /** `domain()` is a `Region` with neither a partial head nor a partial tail element:
        both ends of the slice fall on byte boundaries of the storage. */
    predicate Aligned() {
      start % 8 == 0 && end % 8 == 0
    }
  }

  /** An aligned slice covers a whole number of bytes. */
  lemma AlignedWholeBytes(s: SliceRef)
    requires s.Valid() && s.Aligned()
    ensures s.Len() % 8 == 0
  {
    var a, e := s.start / 8, s.end / 8;
    assert s.Len() == 8 * (e - a);
  }

  /** `bytes.view_bits::<Msb0>()`: every bit of the bytes. */
  function OfBytes(bytes: seq<byte>): (s: SliceRef)
    ensures s.Valid() && s.Aligned() && s.Bits() == BytesToBits(bytes)
  {
    SliceRef(BytesToBits(bytes), 0, 8 * |bytes|)
  }

  /** A slice whose storage holds exactly `bits`, followed by zero padding. */
  function OfBits(bits: seq<bool>): (s: SliceRef)
    ensures s.Valid() && s.start == 0 && s.Bits() == bits
  {
    var storage := bits + seq(8 * BytesNeeded(|bits|) - |bits|, _ => false);
    assert storage[..|bits|] == bits;
    SliceRef(storage, 0, |bits|)
  }

  /** The `body` of a `Region` domain: the bytes the slice covers. */
  function Body(s: SliceRef): (r: seq<byte>)
    requires s.Valid() && s.Aligned()
    ensures BytesToBits(r) == s.Bits() && 8 * |r| == s.Len()
  {
    BytesRoundTrip([], s.Bits());
    BitsToBytes(s.Bits())
  }

  /** `&self[n..]`. */
  function Drop(s: SliceRef, n: nat): (r: SliceRef)
    requires s.Valid() && n <= s.Len()
    ensures r.Valid() && r.storage == s.storage && r.end == s.end
    ensures r.Bits() == s.Bits()[n..]
    ensures s.Aligned() && n % 8 == 0 ==> r.Aligned()
  {
    WholeBytesAdd(s.start, n);
    SliceRef(s.storage, s.start + n, s.end)
  }

  /** `&self[..n]`. */
  function Take(s: SliceRef, n: nat): (r: SliceRef)
    requires s.Valid() && n <= s.Len()
    ensures r.Valid() && r.storage == s.storage && r.start == s.start
    ensures r.Bits() == s.Bits()[..n]
  {
    var r := SliceRef(s.storage, s.start, s.start + n);
    assert |r.Bits()| == n;
    assert forall i :: 0 <= i < n ==> r.Bits()[i] == s.storage[s.start + i] == s.Bits()[i];
    r
  }

  /** `self[..x.len()].copy_from_bitslice(x)`: the first `|x|` bits of the slice become `x`;
      every other storage bit is unchanged. */
  function Write(s: SliceRef, x: seq<bool>): (r: SliceRef)
    requires s.Valid() && |x| <= s.Len()
    ensures r.Valid() && r.start == s.start && r.end == s.end
    ensures r.Bits() == x + s.Bits()[|x|..]
    ensures r.storage[..s.start] == s.storage[..s.start]
    ensures r.storage[s.end..] == s.storage[s.end..]
  {
    var storage := s.storage[..s.start] + x + s.storage[s.start + |x|..];
    var r := SliceRef(storage, s.start, s.end);
    assert r.Bits() == x + s.Bits()[|x|..];
    assert r.storage[s.end..] == s.storage[s.end..];
    r
  }

  /** Bitvec's `Read for &BitSlice`: as many whole bytes as both the slice and `bufLen` allow,
      each 8-bit group loaded MSB-first; the slice moves past what was read. */
  function ReadBytes(s: SliceRef, bufLen: nat): (r: (SliceRef, seq<byte>))
    requires s.Valid()
    ensures |r.1| == Min(bufLen, s.Len() / 8)
    ensures BytesToBits(r.1) == s.Bits()[..8 * |r.1|]
    ensures r.0.Valid() && r.0.Bits() == s.Bits()[8 * |r.1|..]
  {
    var n := Min(bufLen, s.Len() / 8);
    var bits := s.Bits()[..8 * n];
    BytesRoundTrip([], bits);
    (Drop(s, 8 * n), BitsToBytes(bits))
  }

  /** Bitvec's `Write for &mut BitSlice`: as many whole bytes of `src` as fit are stored
      MSB-first at the front of the slice; the slice moves past what was written. The result
      is the storage after the write, the slice afterwards and the count of bytes. */
  function WriteBytes(s: SliceRef, src: seq<byte>): (r: (SliceRef, nat))
    requires s.Valid()
    ensures r.1 == Min(|src|, s.Len() / 8)
    ensures r.0.Valid() && r.0.start == s.start + 8 * r.1 && r.0.end == s.end
    ensures r.0.storage[s.start .. s.start + 8 * r.1] == BytesToBits(src[..r.1])
    ensures r.0.storage[..s.start] == s.storage[..s.start]
    ensures r.0.storage[s.start + 8 * r.1..] == s.storage[s.start + 8 * r.1..]
  {
    var n := Min(|src|, s.Len() / 8);
    var written := Write(s, BytesToBits(src[..n]));
    assert written.storage[s.start .. s.start + 8 * n] == written.Bits()[..8 * n];
    (Drop(written, 8 * n), n)
  }
}
